=== FILE: README.md ===
# DS1302 clock driver model

`rtc-ctl` keeps the time of a DS1302 time-of-year (TOY) chip on a Raspberry
Pi. It reaches the chip through three GPIO pins (CE, CK and IO). It reads
and sets the clock registers, the trickle charger and the 31 bytes of RAM,
and it tests the RAM. It also corrects the time it reads by a drift rate
that it fits each time the clock is set, and it keeps that rate in a
three-line calibration file.

This project models the core of that program in Dafny and proves
properties of the model:

- **Registers and codec.** The register map and the command byte
  (`Registers`), packed BCD (`BinaryCodedDecimal`) and the eight-byte clock
  burst. The burst is encoded by `setTOY` and decoded by `decodeTOY`
  (`ClockCodec`). It is built on a Gregorian model of `timegm` and
  `gmtime_r` (`Civil`).
- **Serial transfers.** `writeTOY` and `readTOY` are pin-event traces
  (`Transport`, `Shape`). They run against a pin-level model of the chip
  (`Chip`). The driver assembles the sampled bits into bytes
  (`Assembly`). The same transfers also appear at transfer level, on a
  socket that holds a chip or is empty (`Toy`).
- **GPIO.** The register macros, `gpio_fsel`, the default pins and the
  pin set-up before each command (`Gpio`).
- **Commands.** `unlockTOY`, halt, RAM and trickle-charger access
  (`Commands`), the RAM test (`RamTest`), and the command switch of `main`
  with its exit statuses (`Dispatch`).
- **Calibration.** The stabilised read (`Stabilise`), the drift
  correction and the refit in `setTOY` and `readUpdate` (`Drift`), and the
  calibration file (`CalibFile`).

Each failure the program reports by calling `exit` is modelled as an
`Error` value (`Results`). `Dispatch.ExitCode` maps it back to the
`sysexits.h` status.

Several inputs are parameters of the model rather than effects:

- the host clock readings;
- the bursts the chip answers with while the seconds are awaited;
- what `strtold` makes of a line;
- the text `fprintf` renders;
- the width of `time_t`.

## Model

| member | source | states |
|---|---|---|
| Registers.Offset | rtc-ctl/rtc-ctl.c:119 | the burst position of a register is its distance from the seconds register halved, for both the write address and the read address |
| Registers.RegisterLayout | rtc-ctl/rtc-ctl.c:144-208 | the clock registers take burst positions 0..7 in address order; a clock burst moves 8 registers; RAM holds 31 bytes, and byte n is at `TOY_RAM_BASE + (n << 1)` |
| Registers.CommandFields | rtc-ctl/rtc-ctl.c:121-136 | each named address has bit 7 set, the RAM bit as documented and the register number 0, 7, 8 or 31 that the command layout gives it |
| Registers.CodeOf | rtc-ctl/rtc-ctl.c:530-534 | the `strcmp` scan finds the first entry with that name, and fails exactly when no entry has it |
| Registers.NameOf | rtc-ctl/rtc-ctl.c:618-626 | the scan by setting finds the first entry holding that code, and fails (printed "unspecified") exactly when none holds it |
| Registers.TcsDistinct | rtc-ctl/rtc-ctl.c:185-194 | no two entries of the trickle-charger table share a name or a setting |
| Registers.TableInverse | rtc-ctl/rtc-ctl.c:182-194 | in a table without repeats, looking up by name and looking up by setting are inverse, in both directions |
| Registers.TcsRoundTrip | rtc-ctl/rtc-ctl.c:528-544 | parsing a `-T` name gives a code exactly when describing that code gives back the name |
| Registers.TcsEntries | rtc-ctl/rtc-ctl.c:173-194 | "disable" parses to 0x5C, and the bare enable code 0xA0 has no name |
| BinaryCodedDecimal.Bcd | rtc-ctl/rtc-ctl.c:96-100 | both nibbles of the packed byte are decimal digits, the byte stays below 0x60, 0x40 or 0x20 when the number is below 60, 40 or 20, and `BIN` gives back the number |
| BinaryCodedDecimal.Bin | rtc-ctl/rtc-ctl.c:107-111 | the value never exceeds 165, since nibbles above 9 are not rejected |
| BinaryCodedDecimal.BcdOfBin | rtc-ctl/rtc-ctl.c:91-112 | a valid BCD byte converts to a number below 100, and converting that number back gives the same byte |
| BinaryCodedDecimal.BinInjective | rtc-ctl/rtc-ctl.c:107-111 | two valid BCD bytes with the same value are equal |
| Bytes.ByteOf | rtc-ctl/rtc-ctl.c:1661-1663 | the byte whose bits, least significant first, are the given eight bits: shifting it out again sends exactly those bits |
| Bytes.BytesOf | rtc-ctl/rtc-ctl.c:1746-1769 | a stream of whole bytes groups into one byte per eight bits, and the bytes shift out to the same stream |
| Bytes.BytesOfBytesBits | rtc-ctl/rtc-ctl.c:1658-1671 | bytes shifted out least significant bit first and regrouped are the same bytes |
| Bytes.ValueOfBitsMod | rtc-ctl/rtc-ctl.c:1645-1647 | the eight bits shifted out of an address word carry its value modulo 256; nothing above them reaches the wire |
| Chip.CtlStored | rtc-ctl/rtc-ctl.c:167-168 | the control register keeps only write protect: it reads 0 or 0x80, set exactly when bit 7 of the written value is set |
| Chip.Addressed | rtc-ctl/rtc-ctl.c:196-208 | a read returns the whole RAM for a RAM burst, the eight clock registers for a clock burst, the one addressed register or the trickle charger otherwise, and nothing for unused addresses |
| Chip.MemWrite | rtc-ctl/rtc-ctl.c:121-208 | what a command byte and its data bytes do to the register file: reads and non-commands change nothing, and write protect guards everything but CTL; the write rules are stated by Chip.CtlStored, Commands.SecWrite, Commands.TcsWrite, Commands.RamWrite, RamTest.RamBurstWrite and Drift.BurstWrite |
| Chip.Step | rtc-ctl/rtc-ctl.c:1611-1778 | one pin event as the chip sees it: CE rising starts a transfer and CE falling commits it, a rising CK clocks IO in, and a falling CK after a read command moves to the next output bit; stated by Transport.BitTrainRun, Transport.SamplePeriodRun, Transport.CommitWrite and Transport.CommitRead |
| Chip.Run | rtc-ctl/rtc-ctl.c:1611-1778 | the bus after a sequence of pin events; what a whole transfer does is stated by Transport.WriteRun and Transport.ReadRun |
| Transport.TransferCount | rtc-ctl/rtc-ctl.c:1619-1634 | all eight registers for a clock burst, the caller's count for a RAM burst, and one otherwise; a RAM count outside 1..31 is an internal error, and exactly then |
| Transport.WriteTrace | rtc-ctl/rtc-ctl.c:1611-1679 | `writeTOY` fails exactly when the count is rejected, before any pin is touched |
| Transport.ReadCommand | rtc-ctl/rtc-ctl.c:1709 | the address with `TOY_READ` or-ed in: bit 0 set, the other low bits kept |
| Transport.ReadTrace | rtc-ctl/rtc-ctl.c:1683-1778 | `readTOY` fails exactly when the count is rejected, before any pin is touched |
| Transport.BitTrainRun | rtc-ctl/rtc-ctl.c:1645-1654 | each bit period clocks the IO level into the chip on the rising CK edge, in order |
| Transport.WriteBitsRun | rtc-ctl/rtc-ctl.c:1645-1671 | the chip takes in the command bits and then the data bits, and no prefix of them forms a read command |
| Transport.CommitWrite | rtc-ctl/rtc-ctl.c:1673-1674 | when CE falls, the chip applies the low byte of the address word as a write of the data bytes |
| Transport.WriteRun | rtc-ctl/rtc-ctl.c:1611-1679 | replaying `writeTOY` from an idle bus leaves the chip holding the write applied to its old registers and the wires idle, with nothing sampled and no bus contention |
| Transport.LastBitRun | rtc-ctl/rtc-ctl.c:1727-1733 | the eighth command bit is clocked in with CK left high, so the chip does not drive yet |
| Transport.SamplePeriodRun | rtc-ctl/rtc-ctl.c:1752-1766 | each falling edge moves the chip to its next output bit, and the host samples that bit |
| Transport.ReadBytesRun | rtc-ctl/rtc-ctl.c:1746-1769 | the data phase of an n-byte read samples the next 8n bits the chip shifts out and leaves CK low |
| Transport.ReadCommandBits | rtc-ctl/rtc-ctl.c:1709-1734 | the command bits shifted out for a read address put the chip in read mode and carry the address with bit 0 set |
| Transport.CommandPhaseRun | rtc-ctl/rtc-ctl.c:1711-1742 | after the command phase the chip holds the eight command bits, CK is high and the host's IO pin is an input |
| Transport.CommitRead | rtc-ctl/rtc-ctl.c:1771 | CE falling after a read command changes no register |
| Transport.ReadRun | rtc-ctl/rtc-ctl.c:1683-1778 | replaying `readTOY` from an idle bus samples the first 8k bits the chip shifts out, leaves the registers unchanged and the wires idle, and never drives IO against the chip |
| Shape.WriteShape | rtc-ctl/rtc-ctl.c:1645-1671 | a write pulses CK once per bit sent (8 command bits and 8 per byte), samples nothing and never turns IO around |
| Shape.ReadShape | rtc-ctl/rtc-ctl.c:1683-1778 | a read turns IO to input exactly once, after the eighth command rise and fall, takes one sample per data bit, and raises CK once per bit except the last |
| Shape.ReadBytesCounts | rtc-ctl/rtc-ctl.c:1746-1769 | the data phase of n bytes takes 8n samples and 8n - 1 rising edges |
| Shape.BitTrainCounts | rtc-ctl/rtc-ctl.c:1645-1654 | clocking in k bits makes k rising and k falling CK edges and no sample |
| Shape.GatherNotSent | rtc-ctl/rtc-ctl.c:1615-1647 | the gather flag on a write address leaves the events unchanged |
| Shape.ScatterNotSent | rtc-ctl/rtc-ctl.c:1687-1724 | the scatter flag on a read address leaves the events unchanged |
| Shape.SameLowByte | rtc-ctl/rtc-ctl.c:1619 | an address and the same address with bit 8 set get the same transfer count |
| Assembly.ShiftInStep | rtc-ctl/rtc-ctl.c:1755-1758 | shifting right and setting bit 7 on a high sample moves the partial byte from i samples to i + 1 |
| Assembly.AssembleByte | rtc-ctl/rtc-ctl.c:1750-1767 | the byte built from eight samples has those samples as its bits, least significant first |
| Assembly.AssembleBytes | rtc-ctl/rtc-ctl.c:1746-1769 | the bytes stored from 8k samples are the stream grouped eight bits per byte |
| Assembly.CountFits | rtc-ctl/rtc-ctl.c:1691-1705 | for every address the driver reads, the chip returns at least as many registers as the transfer count asks for |
| Assembly.ReadReturns | rtc-ctl/rtc-ctl.c:1683-1778 | replaying `readTOY` against a chip and assembling the samples as the driver does gives the first k addressed registers and leaves the chip unchanged |
| Toy.Write | rtc-ctl/rtc-ctl.c:1611-1679 | a rejected count is an internal error, and exactly then; otherwise the device stays a chip or an empty socket, and an empty socket is unchanged |
| Toy.Read | rtc-ctl/rtc-ctl.c:1683-1778 | a rejected count is an internal error, and exactly then; otherwise exactly the transfer count of bytes is returned |
| Toy.ReadPresent | rtc-ctl/rtc-ctl.c:1683-1778 | reading a chip returns the first k registers the address selects |
| Toy.ClockReadPresent | rtc-ctl/rtc-ctl.c:1057 | a clock-burst read of a chip returns its eight clock registers |
| Toy.WriteMatchesBus | rtc-ctl/rtc-ctl.c:1611-1679 | the transfer-level write equals what the chip holds after the write's pin events |
| Toy.ReadMatchesBus | rtc-ctl/rtc-ctl.c:1683-1778 | the transfer-level read equals the bytes assembled from the samples the read's pin events take, and the chip is unchanged |
| Commands.WriteOne | rtc-ctl/rtc-ctl.c:1632-1633 | a single-register write stores on a chip as the chip's rules allow and leaves an empty socket alone |
| Commands.WriteClock | rtc-ctl/rtc-ctl.c:1027 | the gathered clock burst is the chip's burst write of the eight bytes |
| Commands.RamAddress | rtc-ctl/rtc-ctl.c:613 | `TOY_RAM_BASE + (addr << 1)` is a single-byte RAM write command for register `addr` |
| Commands.CtlWrite | rtc-ctl/rtc-ctl.c:1589 | writing CTL keeps only its write-protect bit, and ignores write protect |
| Commands.SecWrite | rtc-ctl/rtc-ctl.c:589 | writing the seconds register changes it alone, unless write protect is set |
| Commands.TcsWrite | rtc-ctl/rtc-ctl.c:632 | writing the trickle-charger register changes it alone, unless write protect is set |
| Commands.RamWrite | rtc-ctl/rtc-ctl.c:613 | writing one RAM byte changes that byte alone, unless write protect is set |
| Commands.ReadCtl | rtc-ctl/rtc-ctl.c:1590 | reading CTL with the scatter flag returns the control register |
| Commands.Unlock | rtc-ctl/rtc-ctl.c:1583-1599 | the probe fails only with "No TOY detected" |
| Commands.UnlockPresent | rtc-ctl/rtc-ctl.c:1583-1599 | with a chip the probe succeeds and leaves write protect set exactly in test mode, with nothing else changed |
| Commands.UnlockFailsUnchanged | rtc-ctl/rtc-ctl.c:1583-1597 | a failing probe has met an empty socket, and its write to CTL left the socket as it was |
| Commands.UnlockAbsent | rtc-ctl/rtc-ctl.c:1589-1597 | an empty socket is detected exactly when its line floats high or in test mode, because a low line reads back the 0 the probe writes |
| Commands.Mutate | rtc-ctl/rtc-ctl.c:587-590 | unlock, write one register, lock; stated by Commands.MutatePresent and Commands.MutatorsLock |
| Commands.Halt | rtc-ctl/rtc-ctl.c:587-593 | `-Z`: the clock-halt bit written to the seconds register; stated by Commands.HaltPresent and Commands.MutatorsLock |
| Commands.SetRam | rtc-ctl/rtc-ctl.c:611-615 | `-S`: one RAM byte written at `TOY_RAM_BASE + (ramaddr << 1)`; stated by Commands.SetRamPresent and Commands.MutatorsLock |
| Commands.SetTcs | rtc-ctl/rtc-ctl.c:630-634 | `-T`: the trickle-charger register written; stated by Commands.SetTcsPresent and Commands.MutatorsLock |
| Commands.ReadRam | rtc-ctl/rtc-ctl.c:606-609 | `-R`: a RAM burst read of all 31 bytes; stated by Commands.ReadRamPresent |
| Commands.ReadTcs | rtc-ctl/rtc-ctl.c:617-628 | `-t`: the trickle-charger byte and its name from the table; stated by Commands.ReadTcsPresent and Registers.NameOf |
| Commands.MutatePresent | rtc-ctl/rtc-ctl.c:587-590 | on a chip, unlock then write then lock writes the register to the chip as the probe left it, and then writes WP |
| Commands.HaltPresent | rtc-ctl/rtc-ctl.c:587-593 | halting a chip sets the seconds register to the halt bit (left alone in test mode) and leaves write protect set |
| Commands.SetRamPresent | rtc-ctl/rtc-ctl.c:611-615 | `-S` changes that RAM byte alone (none in test mode) and leaves write protect set |
| Commands.SetTcsPresent | rtc-ctl/rtc-ctl.c:630-634 | `-T` changes the trickle charger alone (not in test mode) and leaves write protect set |
| Commands.ReadRamPresent | rtc-ctl/rtc-ctl.c:606-609 | `-R` returns the chip's 31 RAM bytes |
| Commands.ReadTcsPresent | rtc-ctl/rtc-ctl.c:617-628 | `-t` returns the trickle-charger register and its name from the table |
| Commands.MutatorsLock | rtc-ctl/rtc-ctl.c:587-634 | every mutating command fails with "No TOY detected" on a socket whose line floats high, and always succeeds on a chip, leaving it write-protected |
| RamTest.Buffer | rtc-ctl/rtc-ctl.c:1454-1472 | each pattern has 31 bytes; the first is all zeros and the second all ones |
| RamTest.RamBurstWrite | rtc-ctl/rtc-ctl.c:1492 | a RAM burst of 31 bytes replaces the RAM, unless write protect is set |
| RamTest.TestPattern | rtc-ctl/rtc-ctl.c:1485-1512 | a pattern fails only with "No TOY detected" or a RAM test failure |
| RamTest.TestPatternPresent | rtc-ctl/rtc-ctl.c:1485-1512 | on a chip outside test mode every pattern reads back |
| RamTest.FirstPattern | rtc-ctl/rtc-ctl.c:1464-1466 | without a working chip the zeros pattern fails, or leaves a device on which nothing sticks; either way the device is `FailedState` of the one it started from; a socket whose line floats high is reported missing |
| RamTest.StuckFails | rtc-ctl/rtc-ctl.c:1495-1506 | where nothing sticks, the all-ones pattern reads back differently and the test fails, leaving the device as it found it |
| RamTest.StuckChipFails | rtc-ctl/rtc-ctl.c:1491-1506 | a write-protected chip with zeroed RAM fails the all-ones pattern in test mode, with only WP written to CTL |
| RamTest.Clear | rtc-ctl/rtc-ctl.c:1474-1477 | the final clear fails only with "No TOY detected" |
| RamTest.ClearPresent | rtc-ctl/rtc-ctl.c:1474-1477 | clearing a chip after any pattern gives the chip with RAM zeroed and write protect set |
| RamTest.WrittenTwice | rtc-ctl/rtc-ctl.c:1491-1493 | writing one pattern over another leaves what writing the second alone does |
| RamTest.WorkingStep | rtc-ctl/rtc-ctl.c:1464-1472 | on a working chip each pattern passes and replaces the one before |
| RamTest.PatternStep | rtc-ctl/rtc-ctl.c:1464-1472 | each pattern keeps the test's progress invariant, or fails only without a working chip |
| RamTest.RunPattern | rtc-ctl/rtc-ctl.c:1485-1512 | `testTOYramPattern` keeps the progress invariant, and fails only without a working chip, after writes that leave `FailedState` of the starting device |
| RamTest.AllPassed | rtc-ctl/rtc-ctl.c:1472-1477 | once all 21 patterns pass, the device is a working chip outside test mode, and clearing it gives the cleared chip |
| RamTest.TestRam | rtc-ctl/rtc-ctl.c:1453-1481 | the test passes exactly on a chip outside test mode; it then leaves RAM zeroed and write protect set, with the clock and trickle charger untouched; a socket whose line floats high is reported missing; a failing test returns the device the failing pattern left, which is `FailedState` of the one it started from |
| RamTest.FailedState | rtc-ctl/rtc-ctl.c:1491-1506 | the device a failing test leaves is still a chip exactly when it started as one |
| RamTest.CtlTwice | rtc-ctl/rtc-ctl.c:1492-1494 | writing WP to CTL a second time changes nothing more |
| Stabilise.Stable | rtc-ctl/rtc-ctl.c:1072-1078 | the stabilised read as a search for the first pass whose seconds change; stated by Stabilise.StableLoop, Stabilise.StableFacts and Stabilise.NotRunningIff |
| Stabilise.StableLoop | rtc-ctl/rtc-ctl.c:1072-1078 | the `do ... while (counter++ < TOY_MAX_READS)` loop computes the first-change search |
| Stabilise.StableRead | rtc-ctl/rtc-ctl.c:1057-1078 | the read before the loop and the loop from pass 0 compute the search from pass 0 |
| Stabilise.StableFacts | rtc-ctl/rtc-ctl.c:1072-1078 | at most `TOY_MAX_READS + 1` passes; the loop stops at the first pass that sees a change, holding its second burst, else ends one past the limit holding the last burst read |
| Stabilise.FirstBreakStops | rtc-ctl/rtc-ctl.c:1072-1078 | the loop stops at the first pass that sees a change, with that pass's number as counter |
| Stabilise.NotRunningIff | rtc-ctl/rtc-ctl.c:1087-1090 | "not running" is reported exactly when none of the first `TOY_MAX_READS` passes saw a change |
| Stabilise.TickBetweenPasses | rtc-ctl/rtc-ctl.c:1072-1078 | a clock whose seconds always tick between two passes is reported as not running |
| Civil.TimeGm | rtc-ctl/rtc-ctl.c:1259 | `timegm` of a broken-down UTC time; stated by Civil.TimeGmOfGmTime, Civil.GmTimeOfTimeGm and Civil.TimeGmSplits |
| Civil.GmTime | rtc-ctl/rtc-ctl.c:1004 | `gmtime_r` gives every field within its range |
| Civil.TimeGmOfGmTime | rtc-ctl/rtc-ctl.c:1259 | `timegm` undoes `gmtime_r` for every epoch second |
| Civil.GmTimeOfTimeGm | rtc-ctl/rtc-ctl.c:931 | `gmtime_r` undoes `timegm` on in-range times, up to the recomputed weekday |
| Civil.TimeGmSplits | rtc-ctl/rtc-ctl.c:1259 | the day of an in-range time lies in its own year and month, and its second of the day is its clock time |
| Civil.YearBounds | rtc-ctl/rtc-ctl.c:1004-1023 | an epoch second falls in a span of years exactly when it lies between the first seconds of the span's ends |
| ClockCodec.DecodeHour | rtc-ctl/rtc-ctl.c:1239-1247 | the hour of day an hours byte denotes in either mode; stated by ClockCodec.PackHour and ClockCodec.HourRoundTrip |
| ClockCodec.DecodeFields | rtc-ctl/rtc-ctl.c:1236-1254 | the broken-down time `decodeTOY` hands to `timegm`; stated by ClockCodec.DecodeBurst, ClockCodec.DecodeOfEncode and ClockCodec.EncodeOfDecode |
| ClockCodec.NoToy | rtc-ctl/rtc-ctl.c:1059 | the month register's must-be-zero bits are set; never true of a burst the program writes (ClockCodec.EncodeClock), always true of a socket whose line floats high (Drift.ReadUpdateAbsent) |
| ClockCodec.Halted | rtc-ctl/rtc-ctl.c:1065 | the clock-halt bit of the seconds register; never true of a burst the program writes (ClockCodec.EncodeClock), and it decides the halt check (Drift.ReadUpdateChecks, Drift.ReadUpdatePresent) |
| ClockCodec.PlainHourByte | rtc-ctl/rtc-ctl.c:1015 | the 24-hour byte has the 12-hour flag clear and decodes to the hour |
| ClockCodec.TwelveHourByte | rtc-ctl/rtc-ctl.c:1009-1013 | the 12-hour byte has the 12-hour flag, PM from noon on, shows 12 exactly at midnight and noon, and decodes to the hour |
| ClockCodec.HourByte | rtc-ctl/rtc-ctl.c:1009-1015 | the hours byte carries the chosen mode, and decodes back to the hour in either mode |
| ClockCodec.PackHour | rtc-ctl/rtc-ctl.c:1239-1247 | a 12-hour byte decodes with PM adding 12 except to 12, and with 12 AM as hour 0 |
| ClockCodec.TwelveHourSplit | rtc-ctl/rtc-ctl.c:1239-1241 | a 12-hour byte with bit 6 clear is its flag, its PM bit and its hour part |
| ClockCodec.HourRoundTrip | rtc-ctl/rtc-ctl.c:1239-1250 | re-encoding a decoded hours byte in its own mode reproduces the byte; encoding it in the other mode keeps the hour |
| ClockCodec.YearOfCentury | rtc-ctl/rtc-ctl.c:1023 | the stored year is below 100, and within 2000-2099 it is the year less 2000 |
| ClockCodec.EncodeClock | rtc-ctl/rtc-ctl.c:1009-1024 | the burst has write protect in CTL, the halt bit clear, the month's must-be-zero bits clear and the chosen hour mode |
| ClockCodec.DecodeOfEncode | rtc-ctl/rtc-ctl.c:1232-1254 | decoding the burst written for a time gives that time within the chip's century, in either hour mode |
| ClockCodec.EncodeOfDecode | rtc-ctl/rtc-ctl.c:1017-1024 | a burst as the encoder writes it decodes to a time that re-encodes to the same eight bytes |
| ClockCodec.CanonicalFields | rtc-ctl/rtc-ctl.c:1017-1023 | each field of such a burst decodes into range and re-encodes to its own byte |
| ClockCodec.SixtyField | rtc-ctl/rtc-ctl.c:1237-1238 | a seconds or minutes byte below BCD 60 decodes the same with or without its top bit masked, and re-encodes to itself |
| ClockCodec.DecodeBurst | rtc-ctl/rtc-ctl.c:1236-1254 | decoding takes each field from its BCD byte, makes month and weekday 0-based and puts the year in 2000-2099 |
| ClockCodec.DecodeToy | rtc-ctl/rtc-ctl.c:1232-1269 | the result is the `timegm` of the decoded fields when it fits `time_t`; otherwise it is the conversion failure |
| ClockCodec.ClockRoundTrip | rtc-ctl/rtc-ctl.c:1004-1027 | every second in 2000-2099, set and read back with a 64-bit `time_t`, is the same second |
| ClockCodec.ClockRoundTrip32 | rtc-ctl/rtc-ctl.c:1260-1266 | with a 32-bit `time_t` the same round trip succeeds exactly before 2038 and fails with the conversion error from then on |
| ClockCodec.CenturyFits | rtc-ctl/rtc-ctl.c:1254 | the chip's century lies after the epoch and within a 64-bit `time_t` |
| CalibFile.LineEnd | rtc-ctl/rtc-ctl.c:1288 | `fgets` stops just past the first newline, or when the 100-byte buffer or the text runs out |
| CalibFile.Fgets | rtc-ctl/rtc-ctl.c:1288 | `fgets` gives nothing exactly at end of file; otherwise it gives a non-empty line shorter than the buffer, and the line and the rest make up the text |
| CalibFile.FgetsWhole | rtc-ctl/rtc-ctl.c:1288 | a whole line at the head of the text is exactly the line `fgets` takes |
| CalibFile.ReadCalib | rtc-ctl/rtc-ctl.c:1273-1311 | no file name, a file that does not open or an empty file gives the zeroed, invalid record |
| CalibFile.ReadCalibComplete | rtc-ctl/rtc-ctl.c:1288-1306 | two accepted numeric lines and then `UTC` with its newline give a valid record holding the two numbers |
| CalibFile.ReadCalibSound | rtc-ctl/rtc-ctl.c:1288-1306 | a valid record comes only from a text that begins with two accepted numeric lines and `UTC`, and it holds their numbers |
| CalibFile.ReadCalibRetains | rtc-ctl/rtc-ctl.c:1291-1301 | a record that fails validation still holds the numbers parsed before the failing check |
| CalibFile.UtcNeedsNewline | rtc-ctl/rtc-ctl.c:1303 | a third line `UTC` without its newline does not validate |
| CalibFile.WriteCalib | rtc-ctl/rtc-ctl.c:1321-1322 | something is written exactly when there is a file name and the record is valid |
| CalibFile.WriteThenRead | rtc-ctl/rtc-ctl.c:1396-1401 | reading back what `writeCalib` wrote gives a valid record with what `strtold` makes of the two numerals |
| CalibFile.NoNewline | rtc-ctl/rtc-ctl.c:1396-1397 | each written line is whole, with the space and parenthesis the reader checks right after the numeral |
| Drift.Trunc | rtc-ctl/rtc-ctl.c:999 | the conversion to `time_t` truncates toward zero |
| Drift.Correct | rtc-ctl/rtc-ctl.c:1099-1141 | no correction without a valid record or with a zero rate |
| Drift.CorrectDirection | rtc-ctl/rtc-ctl.c:1094-1141 | from the last set on, a losing clock's time moves forward and a gaining clock's back, and the result is the corrected time rounded half up |
| Drift.RateFrom | rtc-ctl/rtc-ctl.c:979-981 | the fitted rate stretches the true elapsed time to the clock's elapsed time |
| Drift.CorrectsGain | rtc-ctl/rtc-ctl.c:1139-1140 | for a gaining clock the correction exactly undoes the rate |
| Drift.CorrectsLossApproximately | rtc-ctl/rtc-ctl.c:1137-1138 | for a losing clock the correction falls short of the true elapsed time by the factor `1 - rate^2` |
| Drift.StretchLoss | rtc-ctl/rtc-ctl.c:1138 | multiplying a loss by `1 + |rate|` gives the true time scaled by `1 - rate^2`, so it falls short |
| Drift.CorrectedTime | rtc-ctl/rtc-ctl.c:1092-1141 | the settled burst converts exactly when it fits `time_t`, and the result is the corrected time |
| Drift.Floating | rtc-ctl/rtc-ctl.c:1057 | every byte an empty socket answers is all ones when its line floats high and all zeros when it floats low |
| Drift.Bursts | rtc-ctl/rtc-ctl.c:1057 | the first burst is what a clock-burst read of the device returns, so a chip's first burst is its own clock registers; an empty socket answers every later read the same way |
| Drift.ReadUpdate | rtc-ctl/rtc-ctl.c:1041-1141 | `readUpdate` up to the corrected time; stated by Drift.ReadUpdateChecks, Drift.ReadUpdateValue, Drift.ReadUpdateAbsent and Drift.ReadUpdatePresent |
| Drift.ReadUpdateChecks | rtc-ctl/rtc-ctl.c:1057-1090 | "No TOY", then halt, on the first burst, then "not running" exactly when none of the first `TOY_MAX_READS` passes sees a change |
| Drift.ReadUpdateValue | rtc-ctl/rtc-ctl.c:1072-1092 | otherwise `readUpdate` reports the corrected time of the first changed burst |
| Drift.ReadUpdateAbsent | rtc-ctl/rtc-ctl.c:1057-1090 | on an empty socket `readUpdate` fails: "No TOY detected" when the line floats high, "not running" when it floats low |
| Drift.ReadUpdatePresent | rtc-ctl/rtc-ctl.c:1057-1070 | on a chip the "No TOY" and halt checks are decided by the clock registers the chip holds |
| Drift.RefitRate | rtc-ctl/rtc-ctl.c:937-983 | the rate `setTOY` goes on with; stated by Drift.RefitErrors, Drift.RefitKeeps and Drift.RefitMeasures |
| Drift.Measured | rtc-ctl/rtc-ctl.c:975-981 | the rate measured from the settled burst; stated by Drift.MeasureFails and Drift.MeasuredRate |
| Drift.Refit | rtc-ctl/rtc-ctl.c:937-999 | the refit and the record of this set; stated by Drift.RefitRecords and Drift.InvalidCarriesRate |
| Drift.RefitErrors | rtc-ctl/rtc-ctl.c:937-986 | the refit fails with "No TOY" exactly when it was due and the month bits say so; any other failure is the conversion error of a measurement |
| Drift.RefitKeeps | rtc-ctl/rtc-ctl.c:937-993 | the loaded rate is kept unless the refit was due and the chip answered, ran and settled |
| Drift.RefitMeasures | rtc-ctl/rtc-ctl.c:949-981 | when the refit measures, the rate comes from the settled burst |
| Drift.MeasureFails | rtc-ctl/rtc-ctl.c:975 | a measurement fails exactly when the burst does not convert, and then with the conversion error |
| Drift.MeasuredRate | rtc-ctl/rtc-ctl.c:975-981 | a converted burst gives the rate that explains the clock's time at the host time `end` |
| Drift.RefitRecords | rtc-ctl/rtc-ctl.c:994-999 | a refit that succeeds records the second host time as the last set, marks the record valid, and moves the requested time on by the time spent, truncated |
| Drift.InvalidCarriesRate | rtc-ctl/rtc-ctl.c:937-999 | an invalid record never triggers a refit, so its parsed rate is carried into the record that is written |
| Drift.WriteTime | rtc-ctl/rtc-ctl.c:1004-1027 | writing the time fails only with a conversion failure or "No TOY detected" |
| Drift.BurstWrite | rtc-ctl/rtc-ctl.c:1027 | a clock burst stores all eight bytes on an unlocked chip and is ignored by a locked one |
| Drift.WriteTimeFails | rtc-ctl/rtc-ctl.c:1004-1027 | writing the time fails either at the conversion, before any write, or at the probe of an empty socket, whose write changed nothing |
| Drift.WriteTimePresent | rtc-ctl/rtc-ctl.c:1004-1027 | on a chip outside test mode, a time in 2000-2099 is stored as its burst, which leaves write protect set and reads back as that time |
| Drift.WriteTimeTestMode | rtc-ctl/rtc-ctl.c:1026-1027 | in test mode the burst is ignored and only CTL changes |
| Drift.SetToy | rtc-ctl/rtc-ctl.c:911-1036 | `setTOY` as a whole, reading the device for the refit; stated by Drift.SetToyPresent, Drift.SetToyAbsent and Dispatch.SetReadsBack |
| Drift.SetToyPresent | rtc-ctl/rtc-ctl.c:911-1036 | on a chip, a set whose adjusted time is in 2000-2099 succeeds, hands the refitted record to `writeCalib`, and leaves the chip holding exactly the adjusted time |
| Drift.SetToyAbsent | rtc-ctl/rtc-ctl.c:937-1027 | a set on an empty socket stores nothing; with the line floating high it fails "No TOY detected", in the refit when one is due and otherwise at the unlock probe, unless the adjusted time is before year 0 and fails to convert |
| Dispatch.Execute | rtc-ctl/rtc-ctl.c:586-644 | unknown codes exit with `EX_SOFTWARE`; the status is `EX_OK` exactly on success; a set falls through to the read-back; reads leave the device alone; changes leave a chip write-protected; a failing `-Z`, `-S`, `-T` or set leaves the device as it was and a failing `-X` leaves a chip with only WP written; only a set hands a record to `writeCalib`, and once `setTOY` succeeds the chip and record it wrote stay whatever the read-back finds; `-X` passes exactly on a chip outside test mode; on an empty socket every command that touches the clock fails, `-r` and `-s` with "No TOY detected" when the line floats high and "not running" when it floats low, and a set with "No TOY detected" (or a conversion failure before year 0) when it floats high |
| Dispatch.Change | rtc-ctl/rtc-ctl.c:587-638 | halt, `-S`, `-T` and `-X` leave a chip write-protected and write no record; a failing halt, `-S` or `-T` leaves the device as it was, a failing `-X` leaves what `RamTest.FailedState` says; they fail with "No TOY" on a socket whose line floats high |
| Dispatch.Query | rtc-ctl/rtc-ctl.c:601-628 | the reading commands leave the device as it was and return what `readUpdate`, the RAM read or the trickle-charger read gives; `-r` and `-s` on an empty socket fail with "No TOY detected" or "not running" as the line floats high or low |
| Dispatch.ReadTime | rtc-ctl/rtc-ctl.c:601-603 | `readUpdate` on the device, its first burst read from the device; stated by Dispatch.Query, Dispatch.ReadPasses and Dispatch.ReadChecksChip |
| Dispatch.SetThenRead | rtc-ctl/rtc-ctl.c:595-603 | `setTOY` falling through to `readUpdate`; a failing `setTOY` leaves the device as it was (Drift.WriteTimeFails); stated by Dispatch.Execute, Dispatch.SetReadsBack and Dispatch.SetAbsent |
| Dispatch.SetAbsent | rtc-ctl/rtc-ctl.c:595-603 | a set on an empty socket fails and leaves the socket as it was: with "No TOY detected" (or a conversion failure before year 0) when the line floats high, and at the read-back with "not running" when it floats low |
| Dispatch.NoStatusZero | rtc-ctl/rtc-ctl.c:640-644 | every failure exits with a nonzero status |
| Dispatch.SetReadsBack | rtc-ctl/rtc-ctl.c:595-604 | after a set on a chip outside test mode, the first burst the read-back reads from the chip is the clock just written; it converts to the adjusted time and passes the "No TOY" and halt checks, so the read-back can fail only with "not running" or a conversion failure; whatever it finds, the chip keeps the adjusted time and the refitted record has been handed to `writeCalib` |
| Dispatch.ReadPasses | rtc-ctl/rtc-ctl.c:1059-1070 | a chip whose clock registers pass the "No TOY" and halt checks leaves only "not running" and a conversion failure as ways for the read to fail |
| Dispatch.ReadChecksChip | rtc-ctl/rtc-ctl.c:1059-1070 | a time read of a chip fails "No TOY detected" when its month register's must-be-zero bits are set, and "halted" when its clock-halt bit is set |
| Gpio.BankOf | rtc-ctl/rtc-ctl.h:274 | the bank `(pin & 0x20) ? 1 : 0` is one of the two words |
| Gpio.MaskOf | rtc-ctl/rtc-ctl.h:274 | the bit `1 << (pin & 0x1F)` within the bank word; stated by Gpio.SetClrIsSet, Gpio.SetClrOthers and Gpio.SamePinEqual |
| Gpio.GpioSet | rtc-ctl/rtc-ctl.h:274 | `GPIO_SET`: the pin's mask stored to its bank's set word; stated by Gpio.SetClrIsSet and Gpio.NoBarrierSame |
| Gpio.GpioClr | rtc-ctl/rtc-ctl.h:275 | `GPIO_CLR`: the pin's mask stored to its bank's clear word; stated by Gpio.SetClrIsSet and Gpio.NoBarrierSame |
| Gpio.NoBarrierSame | rtc-ctl/rtc-ctl.h:274-306 | the `NB_` macros make the same loads and stores as the fenced ones, at the same bank with the same mask, and `SET_TO` sends a nonzero value to the set word and zero to the clear word |
| Gpio.Fenced | rtc-ctl/rtc-ctl.h:246-262 | a store between barriers does what the store alone does |
| Gpio.SetToBank | rtc-ctl/rtc-ctl.h:276-280 | `GPIO_SET_TO` ors the mask into the pin's level word for a nonzero value, and clears it for zero |
| Gpio.SetClrIsSet | rtc-ctl/rtc-ctl.h:274-281 | `GPIO_IS_SET` reads exactly the bit that `GPIO_SET` and `GPIO_CLR` write: after a set the pin reads set, after a clear it reads clear |
| Gpio.SetClrOthers | rtc-ctl/rtc-ctl.h:274-281 | every other pin reads as before |
| Gpio.SamePinEqual | rtc-ctl/rtc-ctl.h:274 | below 64, two pins share a bank and a bit exactly when they are equal |
| Gpio.FselCodesDistinct | rtc-ctl/rtc-ctl.h:107-117 | the eight function-select codes are pairwise distinct and each fits `GPIO_FSEL_FNMASK` |
| Gpio.FselWordQuotient | rtc-ctl/rtc-ctl.c:1988 | the word holding a pin's field is `pin / 10` |
| Gpio.GpioFsel | rtc-ctl/rtc-ctl.c:1984-1996 | `gpio_fsel`: the pin's field cleared and the mode or-ed in; stated by Gpio.FselUpdate and Gpio.FselOthers |
| Gpio.FselUpdate | rtc-ctl/rtc-ctl.c:1984-1996 | `gpio_fsel` leaves every bit outside the pin's 3-bit field unchanged, including other words and the level words, and the field then reads back as the mode |
| Gpio.FselOthers | rtc-ctl/rtc-ctl.c:1984-1996 | every other pin keeps its function |
| Gpio.DefaultPins | rtc-ctl/rtc-ctl.c:74-82 | CE 23, CK 22 and IO 25 are distinct, below 32, in bank 0, and on different bits |
| Gpio.OutputPin | rtc-ctl/rtc-ctl.c:563-565 | selecting output and clearing a pin leaves it an output that reads low |
| Gpio.OutputOthers | rtc-ctl/rtc-ctl.c:563-582 | that step leaves every other pin's function and level alone |
| Gpio.SetUpLow | rtc-ctl/rtc-ctl.c:563-582 | after the set-up CE, CK and IO are outputs and read low, whatever state the peripheral was in |

## Left out

- I/O and formatting are left out: `printf`, `syslog`, debug dumps (`printTOYregisters`, `dumpData`), usage text and `printConfig`. Option parsing is left out too, except the `-T` table lookup (`parseSET`, `trytime`, `parseDATE` and `getopt_long`).
- Host clocks and delays are parameters or no-ops. `clock_gettime` readings are real parameters (`start`, `end`, `setAt`), and the time `parseSET` takes from `time()` is the parameter `newt`. The `EX_OSERR` exits when `clock_gettime` fails (rtc-ctl/rtc-ctl.c:922-925, 964-967, 995-998, 1208-1211), when `gmtime_r` fails in `setTOY` (rtc-ctl/rtc-ctl.c:1004-1007), and when `time()` or `gmtime_r` fails in `parseSET` (rtc-ctl/rtc-ctl.c:804-826), are left out: they depend on the host, not on the chip. `usdelay` and the system timer are events with no effect on the pin levels.
- `settimeofday` is left out: `-s` and `--systohc` stop at the corrected time. The timezone probing that comes before it is left out as well.
- The calibration file's backup copy, its temporary file and the rename that installs it are left out: `writeCalib` is modelled as the text it writes.
- What `strtold` makes of a line is a parameter, and so is the text `fprintf` renders for each number and time stamp (`%.9Lf`, `%.12Lf`, `formatTime`).
- `long double` arithmetic is idealised as exact `real` arithmetic, so rounding in the drift computations is not modelled. The one rounding the program makes on purpose, the conversion to `time_t`, is modelled as truncation.
- Drift.RefitRate, Drift.Measured: the zero-interval division at rtc-ctl/rtc-ctl.c:981 is not modelled. When `end` equals the last set, the program divides by zero and stores an infinity or NaN, which `writeCalib` then writes out. `real` has no infinity or NaN, so the model keeps the loaded rate there.
- Chip.Step, Transport.WriteRun: the modelled chip commits a write when CE falls. The DS1302 commits a single-register or RAM write byte by byte as the bits are clocked in, and copies a clock burst to the counters when CE falls. The two differ only for a transfer cut short, which the driver never makes.
- The chip keeps no time: between transfers its counting registers hold what was last written. Every clock burst read is answered by the device: the first is its registers as they are, and an empty socket answers every later read the same way. A chip's later answers, while the seconds are awaited, are its registers as time moves them on; they come from an oracle `ticks: nat -> ClockRegs` (`Drift.Bursts`).
- The width of `time_t` is a parameter (`timeBits`); the round trips are proved for 64 bits and for 32 bits.
- Drift.WriteTime: an adjusted time before year 0 is reported as a conversion failure, because `Encodable` requires `year + 1900 >= 0`. The C code's `gmtime_r` accepts such a date, and `BCD((tm_year+1900)%100)` (rtc-ctl/rtc-ctl.c:96-100, 1023) then writes a year byte that is not BCD, so `setTOY` succeeds. The case cannot arise from the command line: the time comes either from `trytime`, which accepts only 2000-2099 (rtc-ctl/rtc-ctl.c:844), or from the host clock (rtc-ctl/rtc-ctl.c:804-823), plus the host time that passed during the set (rtc-ctl/rtc-ctl.c:999).
- Drift.CorrectDirection: host times before the epoch are not considered. There the conversion truncates toward zero instead of rounding half up.
- `gpio_pud`, `initIO`, the `mmap` of the peripheral and `read_timer` are left out. The GPIO peripheral is reduced to the function-select words and the two level words. Every pin is taken to be an output whose level follows set and clear.
- Gpio.GpioFsel, Gpio.FselUpdate: only pins below 60 are modelled, the six function-select words. Only modes that fit the 3-bit field are considered by `Gpio.FselUpdate`. The two `MB()` barriers `gpio_fsel` makes are not listed in the model's accesses.
- Gpio.MaskOf: the C expression `1 << (pin & 0x1F)` is an `int` shift, which overflows for bit 31. It is modelled as the intended 32-bit shift.
- The refit's `calrundays * 24 * 60 * 60` is an `unsigned long` product, modelled as wrapping modulo 2^32. This is the width on the 32-bit ARM build, whose register accessors use the ARMv6 `mcr p15` barrier.

## Notes on the code

`setTOY` has no error for a calibration that is too young. When the last set is more recent than the minimum run, it keeps the loaded rate and goes on (rtc-ctl/rtc-ctl.c:937). `--force` only skips the NTP synchronisation check that `parseSET` makes before a set (rtc-ctl/rtc-ctl.c:454, 738). It is part of option parsing and is left out with it. The refit is gated on the requested time `newt`, not on the host time.

=== FILE: assembly.dfy ===
/** How `readTOY` turns the levels it samples into bytes
    (rtc-ctl/rtc-ctl.c:1745-1765), and what those bytes are when a DS1302
    answers: the registers the command addresses. */
module Assembly {
  import opened Bytes
  import opened Registers
  import opened Chip
  import opened Transport

  /** Appending a byte appends its eight bits. */
  lemma BytesBitsSnoc(data: seq<Byte>, x: Byte)
    ensures BytesBits(data + [x]) == BytesBits(data) + ByteBits(x)
    decreases |data|
  {
    if |data| > 0 {
      assert (data + [x])[1..] == data[1..] + [x];
      BytesBitsSnoc(data[1..], x);
    } else {
      assert data + [x] == [x];
    }
  }

  /** The partial byte after `i` samples: their value, held in the top `i`
      bits. */
  function Held(bits: seq<bool>, i: nat): nat
    requires i <= |bits| <= 8
  {
    ValueOf(bits[..i]) * Pow2(8 - i)
  }

  lemma ShiftArith(v: nat, x: nat, p: nat, q: nat)
    ensures (v * (2 * p)) / 2 + x * (p * q) == (v + x * q) * p
  {
    DivModUnique(v * (2 * p), 2, v * p, 0);
  }

  /** Shifting right and setting the top bit when the next sample is high
      takes the partial byte from `i` samples to `i + 1`. */
  lemma ShiftInStep(bits: seq<bool>, i: nat)
    requires i < |bits| == 8
    ensures Held(bits, i + 1) == Held(bits, i) / 2 + B(bits[i]) * 0x80
  {
    var v, x, p, q := ValueOf(bits[..i]), bits[i], Pow2(7 - i), Pow2(i);
    ValueOfSnoc(bits[..i], x);
    assert bits[..i + 1] == bits[..i] + [x];
    assert Held(bits, i + 1) == (v + B(x) * q) * p;
    assert Held(bits, i) == v * (2 * p);
    TopBit(i);
    ShiftArith(v, B(x), p, q);
  }

  lemma TopBit(i: nat)
    requires i < 8
    ensures Pow2(7 - i) * Pow2(i) == 0x80
  {
    Pow2Add(7 - i, i);
    assert Pow2(7) == 0x80;
  }

  /** One byte as the driver builds it: clear it, then for each sample shift
      right and set the top bit when the line was high. The first sample
      ends up in bit 0. */
  method AssembleByte(bits: seq<bool>) returns (d: Byte)
    requires |bits| == 8
    ensures d == ValueOf(bits)
    ensures ByteBits(d) == bits
  {
    d := 0;
    var i := 0;
    while i < 8
      invariant 0 <= i <= 8
      invariant d == Held(bits, i)
    {
      ShiftInStep(bits, i);
      d := d / 2;
      if bits[i] {
        d := d + 0x80;
      }
      i := i + 1;
    }
    assert bits[..8] == bits;
    BitsOfValue(bits);
  }

  /** Appending the byte of the next eight samples extends the bytes of
      the samples before them. */
  lemma NextChunk(samples: seq<bool>, data: seq<Byte>, o: nat, d: Byte)
    requires o + 8 <= |samples| && BytesBits(data) == samples[..o]
    requires ByteBits(d) == samples[o..o + 8]
    ensures BytesBits(data + [d]) == samples[..o + 8]
  {
    BytesBitsSnoc(data, d);
    assert samples[..o + 8] == samples[..o] + samples[o..o + 8];
  }

  /** The bytes of a transfer, one after another, as `readTOY` stores them. */
  method AssembleBytes(samples: seq<bool>) returns (data: seq<Byte>)
    requires |samples| % 8 == 0
    ensures data == BytesOf(samples)
  {
    var n := |samples| / 8;
    assert |samples| == 8 * n;
    data := [];
    var o := 0;
    while o < |samples|
      invariant 0 <= o <= |samples| && o == 8 * |data|
      invariant BytesBits(data) == samples[..o]
    {
      assert o + 8 <= |samples|;
      var d := AssembleByte(samples[o..o + 8]);
      NextChunk(samples, data, o, d);
      data := data + [d];
      o := o + 8;
    }
    assert samples[..o] == samples;
    BytesOfBytesBits(data);
  }

  /** The addresses the driver reads from cover as many registers as the
      transfer count asks for: a clock burst all eight clock registers, a RAM
      burst at most the 31 RAM bytes, and any other clock register up to the
      trickle charger, or any RAM byte, one. */
  lemma CountFits(m: Mem, reg: int, n: int)
    requires 0 <= reg < 0x10000 && IsCommand(reg % 0x100)
    requires IsRam(reg % 0x100) || RegNumber(reg % 0x100) <= 8 || RegNumber(reg % 0x100) == 31
    requires TransferCount(reg, n).Ok?
    ensures TransferCount(reg, n).value <= |Addressed(m, ReadCommand(reg) % 0x100)|
  {
  }

  /** A read returns the registers its address selects: running `readTOY`'s
      events against a chip and assembling the samples as the driver does
      yields the first `k` addressed registers, and leaves the chip's
      registers as they were. */
  lemma ReadReturns(b: Bus, reg: int, n: int)
    requires 0 <= reg < 0x10000 && IsCommand(reg % 0x100)
    requires b.wire == IdleWire
    requires TransferCount(reg, n).Ok?
    requires TransferCount(reg, n).value <= |Addressed(b.port.mem, ReadCommand(reg) % 0x100)|
    ensures var r := Run(b, ReadTrace(reg, n).value);
      && |b.samples| <= |r.samples|
      && r.samples[..|b.samples|] == b.samples
      && (|r.samples| - |b.samples|) % 8 == 0
      && BytesOf(r.samples[|b.samples|..]) == Addressed(b.port.mem, ReadCommand(reg) % 0x100)[..TransferCount(reg, n).value]
      && r.port.mem == b.port.mem
  {
    var k := TransferCount(reg, n).value;
    var a := Addressed(b.port.mem, ReadCommand(reg) % 0x100);
    ReadRun(b, reg, n);
    var r := Run(b, ReadTrace(reg, n).value);
    assert r.samples[|b.samples|..] == Outs(ReadStream(b.port.mem, ReadCommand(reg) % 0x100), 0, 8 * k);
    assert |r.samples| - |b.samples| == 8 * k;
    OutsPrefix(BytesBits(a), 8 * k);
    BytesBitsPrefix(a, k);
    BytesOfBytesBits(a[..k]);
  }
}

=== FILE: bcd.dfy ===
/** Two-digit packed BCD, the number format of the chip's clock registers
    (rtc-ctl/rtc-ctl.c:91-112). */
module BinaryCodedDecimal {
  import opened Bytes

  /** Splitting `16 * hi + lo` with `lo < 16` gives back the two nibbles. */
  lemma Nibbles(hi: nat, lo: nat)
    requires lo < 16
    ensures (16 * hi + lo) / 16 == hi && (16 * hi + lo) % 16 == lo
  {
    DivModUnique(16 * hi + lo, 16, hi, lo);
  }

  /** Splitting `10 * hi + lo` with `lo < 10` gives back the two digits. */
  lemma Digits(hi: nat, lo: nat)
    requires lo < 10
    ensures (10 * hi + lo) / 10 == hi && (10 * hi + lo) % 10 == lo
  {
    DivModUnique(10 * hi + lo, 10, hi, lo);
  }

  /** Packed BCD of a two-digit number: `((n / 10) << 4) | (n % 10)`. The low
      digit is below 16, so the `|` adds the nibbles. Every caller passes a
      value below 100 (seconds, minutes, hours, day, month, weekday, year of
      century). */
  function Bcd(n: nat): (b: Byte)
    requires n < 100
    ensures b / 16 <= 9 && b % 16 <= 9
    ensures n < 60 ==> b < 0x60
    ensures n < 20 ==> b < 0x20
    ensures n < 40 ==> b < 0x40
    ensures Bin(b) == n
  {
    var hi, lo := n / 10, n % 10;
    assert n == 10 * hi + lo && hi < 10 && hi % 16 == hi;
    Nibbles(hi, lo);
    16 * hi + lo
  }

  /** Binary value of a packed BCD byte: `((bcd >> 4) & 0x0f) * 10 + (bcd & 0x0f)`.
      Only the low eight bits are looked at, and nibbles above 9 are not
      rejected. */
  function Bin(bcd: nat): (n: nat)
    ensures n <= 165
  {
    ((bcd / 16) % 16) * 10 + bcd % 16
  }

  /** A byte whose two nibbles are decimal digits. */
  predicate IsBcd(b: Byte)
  {
    b / 16 <= 9 && b % 16 <= 9
  }

  /** Converting a valid BCD byte to binary and back gives the same byte. */
  lemma BcdOfBin(b: Byte)
    requires IsBcd(b)
    ensures Bin(b) < 100
    ensures Bcd(Bin(b)) == b
  {
    var hi, lo := b / 16, b % 16;
    assert b == 16 * hi + lo;
    assert hi % 16 == hi;
    assert Bin(b) == 10 * hi + lo;
    Digits(hi, lo);
  }

  /** `Bin` is one-to-one on valid BCD bytes. */
  lemma BinInjective(a: Byte, b: Byte)
    requires IsBcd(a) && IsBcd(b)
    requires Bin(a) == Bin(b)
    ensures a == b
  {
    BcdOfBin(a);
    BcdOfBin(b);
  }
}

=== FILE: bytes.dfy ===
/** Bytes and the bit order of the chip's serial protocol.

    Register contents are C `unsigned char` values, modelled as integers in
    0..255. Masks that the driver applies with `&` and `|` are written with the
    equivalent division and remainder, and an `|` of fields whose bits do not
    overlap is written as `+`. */
module Bytes {

  type Byte = x: int | 0 <= x < 256

  function Pow2(k: nat): (p: nat)
    ensures p >= 1
  {
    if k == 0 then 1 else 2 * Pow2(k - 1)
  }

  lemma {:induction false} Pow2Monotone(a: nat, b: nat)
    requires a <= b
    ensures Pow2(a) <= Pow2(b)
    decreases b
  {
    if a < b {
      Pow2Monotone(a, b - 1);
    }
  }

  lemma {:induction false} Pow2Add(a: nat, b: nat)
    ensures Pow2(a + b) == Pow2(a) * Pow2(b)
    decreases a
  {
    if a > 0 {
      Pow2Add(a - 1, b);
    }
  }

  /** Division with remainder is unique. */
  lemma DivModUnique(x: int, d: int, q: int, r: int)
    requires d > 0 && 0 <= r < d && x == d * q + r
    ensures x / d == q && x % d == r
  {
    var q', r' := x / d, x % d;
    assert d * q' + r' == d * q + r;
    if q' > q {
      assert d * q' >= d * (q + 1) by { MulMono(d, q + 1, q'); }
    } else if q' < q {
      assert d * q >= d * (q' + 1) by { MulMono(d, q' + 1, q); }
    }
  }

  lemma MulMono(d: nat, a: int, b: int)
    requires a <= b
    ensures d * a <= d * b
  {
  }

  function B(b: bool): nat
  {
    if b then 1 else 0
  }

  /** The `k` low-order bits of `x`, least significant first: the order in which
      commands and data are shifted across the IO line. */
  function Bits(x: nat, k: nat): (bs: seq<bool>)
    ensures |bs| == k
  {
    if k == 0 then [] else [x % 2 == 1] + Bits(x / 2, k - 1)
  }

  /** The number whose binary digits, least significant first, are `bs`. */
  function ValueOf(bs: seq<bool>): (x: nat)
    ensures x < Pow2(|bs|)
  {
    if |bs| == 0 then 0 else B(bs[0]) + 2 * ValueOf(bs[1..])
  }

  lemma {:induction false} ValueOfBits(x: nat, k: nat)
    requires x < Pow2(k)
    ensures ValueOf(Bits(x, k)) == x
  {
    if k > 0 {
      ValueOfBits(x / 2, k - 1);
      assert Bits(x, k)[1..] == Bits(x / 2, k - 1);
    }
  }

  /** The value of the `k` bits shifted out of `x` is `x` modulo `2^k`:
      whatever lies above them is never sent. */
  lemma {:induction false} ValueOfBitsMod(x: nat, k: nat)
    ensures ValueOf(Bits(x, k)) == x % Pow2(k)
  {
    if k > 0 {
      ValueOfBitsMod(x / 2, k - 1);
      assert Bits(x, k)[1..] == Bits(x / 2, k - 1);
      ModDouble(x, Pow2(k - 1));
    }
  }

  lemma ModDouble(x: nat, p: nat)
    requires p > 0
    ensures x % (2 * p) == 2 * ((x / 2) % p) + x % 2
  {
    var a, b := (x / 2) / p, (x / 2) % p;
    assert x / 2 == p * a + b;
    assert x == (2 * p) * a + (2 * b + x % 2);
    DivModUnique(x, 2 * p, a, 2 * b + x % 2);
  }

  /** Shifting out the low `k` bits of `x` sends the same bits as shifting out
      those of `x % 2^k`. */
  lemma BitsLow(x: nat, k: nat)
    ensures Bits(x, k) == Bits(x % Pow2(k), k)
  {
    ValueOfBitsMod(x, k);
    BitsOfValue(Bits(x, k));
  }

  lemma {:induction false} BitsOfValue(bs: seq<bool>)
    ensures Bits(ValueOf(bs), |bs|) == bs
  {
    if |bs| > 0 {
      BitsOfValue(bs[1..]);
      assert ValueOf(bs) / 2 == ValueOf(bs[1..]);
    }
  }

  /** Adding `2^k` does not change the low `k` bits. */
  lemma {:induction false} BitsPeriodic(x: nat, k: nat)
    ensures Bits(x + Pow2(k), k) == Bits(x, k)
  {
    if k > 0 {
      var p := Pow2(k - 1);
      DivModUnique(x + Pow2(k), 2, x / 2 + p, x % 2);
      BitsPeriodic(x / 2, k - 1);
    }
  }

  /** A bit appended after `s` weighs `2^|s|`. */
  lemma {:induction false} ValueOfSnoc(s: seq<bool>, x: bool)
    ensures ValueOf(s + [x]) == ValueOf(s) + B(x) * Pow2(|s|)
  {
    if |s| > 0 {
      assert (s + [x])[1..] == s[1..] + [x];
      ValueOfSnoc(s[1..], x);
    } else {
      assert s + [x] == [x];
    }
  }

  /** The top bit of eight is set exactly when the value is at least 0x80. */
  lemma TopBit(bs: seq<bool>)
    requires |bs| == 8
    ensures bs[7] <==> ValueOf(bs) >= 0x80
  {
    assert bs == bs[..7] + [bs[7]];
    ValueOfSnoc(bs[..7], bs[7]);
    assert Pow2(7) == 0x80;
  }

  /** The eight bits of a byte, least significant first. */
  function ByteBits(b: Byte): (bs: seq<bool>)
    ensures |bs| == 8
    ensures ValueOf(bs) == b
  {
    ValueOfBits(b, 8);
    Bits(b, 8)
  }

  /** The byte whose bits, least significant first, are `bs`. */
  function ByteOf(bs: seq<bool>): (b: Byte)
    requires |bs| == 8
    ensures ByteBits(b) == bs
  {
    BitsOfValue(bs);
    ValueOf(bs)
  }

  /** The bits of a sequence of bytes, each byte least significant bit first. */
  function BytesBits(data: seq<Byte>): (bs: seq<bool>)
    ensures |bs| == 8 * |data|
  {
    if |data| == 0 then [] else ByteBits(data[0]) + BytesBits(data[1..])
  }

  /** The bytes that a stream of bits groups into, eight bits per byte. */
  function BytesOf(bs: seq<bool>): (data: seq<Byte>)
    requires |bs| % 8 == 0
    ensures |data| == |bs| / 8
    ensures BytesBits(data) == bs
  {
    if |bs| == 0 then [] else [ByteOf(bs[..8])] + BytesOf(bs[8..])
  }

  lemma {:induction false} BytesOfBytesBits(data: seq<Byte>)
    ensures BytesOf(BytesBits(data)) == data
  {
    if |data| > 0 {
      var bs := BytesBits(data);
      assert bs[..8] == ByteBits(data[0]);
      assert bs[8..] == BytesBits(data[1..]);
      ValueOfBits(data[0], 8);
      BytesOfBytesBits(data[1..]);
    }
  }

  lemma {:induction false} BytesBitsPrefix(data: seq<Byte>, n: nat)
    requires n <= |data|
    ensures BytesBits(data)[..8 * n] == BytesBits(data[..n])
  {
    if n > 0 {
      BytesBitsPrefix(data[1..], n - 1);
      assert data[..n][1..] == data[1..][..n - 1];
    } else {
      assert data[..0] == [];
    }
  }
}

=== FILE: calibfile.dfy ===
/** The calibration file: `readCalib` (rtc-ctl/rtc-ctl.c:1273-1311) and the
    text `writeCalib` emits (rtc-ctl/rtc-ctl.c:1321, 1396-1401).

    The file holds three lines: the time of the last set, a space and a
    parenthesised comment; the drift rate, a space and a parenthesised
    comment; and the word `UTC`. Lines are taken as `fgets` takes them into
    a 100-character buffer. The numerals themselves are left abstract: what
    `strtold` makes of a line is a parameter, and so is the text `fprintf`
    renders for each field. */
module CalibFile {
  import opened Results

  /** The calibration record (`struct calib`, rtc-ctl/rtc-ctl.c:234-238),
      with `real` standing for `long double`. */
  datatype Calib = Calib(lastset: real, driftrate: real, valid: bool)

  /** The record `memset` to zero. */
  const NoCalib := Calib(0.0, 0.0, false)

  /** Where the record is read from: no file name was configured, the file
      cannot be opened, or the file's text. */
  datatype Source = Unnamed | Unopenable | Text(text: string)

  /** Size of the line buffer handed to `fgets`. */
  const LineBuffer := 100

  /** What `strtold` reports for a line: the value, the number of leading
      characters it consumed, and whether it set `errno`. */
  datatype Scan = Scan(value: real, used: nat, range: bool)

  /** End of the line `fgets` reads from `text`, scanning from `i`: just past
      the first newline, or where the buffer or the text runs out. */
  function LineEnd(text: string, i: nat): (n: nat)
    requires i <= |text| && i <= LineBuffer - 1
    ensures i <= n <= |text| && n <= LineBuffer - 1
    ensures forall j :: i <= j < n ==> text[j] == '\n' ==> j == n - 1
    ensures n == |text| || n == LineBuffer - 1 || (n > i && text[n - 1] == '\n')
    decreases |text| - i
  {
    if i == |text| || i == LineBuffer - 1 then i
    else if text[i] == '\n' then i + 1
    else LineEnd(text, i + 1)
  }

  /** `fgets(line, 100, f)`: the next line and what follows it, or nothing
      at end of file. */
  function Fgets(text: string): (r: Option<(string, string)>)
    ensures r.None? <==> |text| == 0
    ensures r.Some? ==> r.value.0 + r.value.1 == text && 0 < |r.value.0| < LineBuffer
  {
    if |text| == 0 then None
    else
      var n := LineEnd(text, 0);
      assert text[..n] + text[n..] == text;
      Some((text[..n], text[n..]))
  }

  /** The check after each `strtold`: a numeral was found, `errno` is clear,
      and the numeral is followed by a space and an opening parenthesis.
      Past the end of the line the C string holds its terminating NUL,
      which is neither. */
  predicate Accepted(line: string, s: Scan)
  {
    s.used > 0 && !s.range && s.used + 1 < |line| && line[s.used] == ' ' && line[s.used + 1] == '('
  }

  /** `readCalib`: the record starts zeroed; each number is stored as soon
      as it is parsed, before it is checked; only three good lines make the
      record valid. `errno` is cleared once, before the first line, and no
      successful step in between sets it, so each check sees the range
      error of its own line. */
  function ReadCalib(src: Source, strtold: string -> Scan): (c: Calib)
    ensures src.Unnamed? || src.Unopenable? ==> c == NoCalib
    ensures src.Text? && |src.text| == 0 ==> c == NoCalib
  {
    match src
    case Unnamed => NoCalib
    case Unopenable => NoCalib
    case Text(text) => LastSetLine(text, strtold)
  }

  /** The first line: the time of the last set. */
  function LastSetLine(text: string, strtold: string -> Scan): Calib
  {
    match Fgets(text)
    case None => NoCalib
    case Some((l1, rest1)) =>
      var c1 := NoCalib.(lastset := strtold(l1).value);
      if !Accepted(l1, strtold(l1)) then c1 else DriftLine(rest1, strtold, c1)
  }

  /** The second line: the drift rate. */
  function DriftLine(text: string, strtold: string -> Scan, c1: Calib): Calib
  {
    match Fgets(text)
    case None => c1
    case Some((l2, rest2)) =>
      var c2 := c1.(driftrate := strtold(l2).value);
      if !Accepted(l2, strtold(l2)) then c2 else UtcLine(rest2, c2)
  }

  /** The third line, which must be exactly `UTC` and its newline. */
  function UtcLine(text: string, c2: Calib): Calib
  {
    match Fgets(text)
    case None => c2
    case Some((l3, _)) => if l3 != "UTC\n" then c2 else c2.(valid := true)
  }

  /** A line as `fgets` returns it whole: short enough for the buffer and
      ending in its only newline. */
  predicate WholeLine(l: string)
  {
    0 < |l| < LineBuffer && l[|l| - 1] == '\n' && forall j :: 0 <= j < |l| - 1 ==> l[j] != '\n'
  }

  /** A whole line at the head of the text is exactly the line `fgets`
      takes. */
  lemma FgetsWhole(l: string, rest: string)
    requires WholeLine(l)
    ensures Fgets(l + rest) == Some((l, rest))
  {
    var text := l + rest;
    assert forall j :: 0 <= j < |l| ==> text[j] == l[j];
    assert LineEnd(text, 0) == |l|;
    assert text[..|l|] == l && text[|l|..] == rest;
  }

  /** Three whole lines, the first two accepted and the third exactly
      `UTC`, give a valid record holding the two parsed numbers, whatever
      follows them. */
  lemma ReadCalibComplete(l1: string, l2: string, rest: string, strtold: string -> Scan)
    requires WholeLine(l1) && WholeLine(l2)
    requires Accepted(l1, strtold(l1)) && Accepted(l2, strtold(l2))
    ensures ReadCalib(Text(l1 + l2 + "UTC\n" + rest), strtold) ==
      Calib(strtold(l1).value, strtold(l2).value, true)
  {
    var u := "UTC\n";
    var c1 := NoCalib.(lastset := strtold(l1).value);
    var c2 := c1.(driftrate := strtold(l2).value);
    assert l1 + l2 + u + rest == l1 + (l2 + (u + rest));
    assert WholeLine(u);
    FgetsWhole(u, rest);
    assert UtcLine(u + rest, c2) == c2.(valid := true);
    FgetsWhole(l2, u + rest);
    assert DriftLine(l2 + (u + rest), strtold, c1) == UtcLine(u + rest, c2);
    FgetsWhole(l1, l2 + (u + rest));
    assert LastSetLine(l1 + (l2 + (u + rest)), strtold) == DriftLine(l2 + (u + rest), strtold, c1);
  }

  /** A valid record comes only from a text that begins with three lines as
      `fgets` reads them: two accepted numeric lines whose numbers the
      record holds, then exactly `UTC` and a newline. */
  lemma ReadCalibSound(src: Source, strtold: string -> Scan)
    requires ReadCalib(src, strtold).valid
    ensures src.Text?
    ensures exists l1, l2, rest ::
      && src.text == l1 + l2 + "UTC\n" + rest
      && 0 < |l1| < LineBuffer && 0 < |l2| < LineBuffer
      && Accepted(l1, strtold(l1)) && Accepted(l2, strtold(l2))
      && ReadCalib(src, strtold) == Calib(strtold(l1).value, strtold(l2).value, true)
  {
    var l1, l2, rest := ValidLines(src.text, strtold);
  }

  /** The three lines behind a valid record. */
  lemma ValidLines(text: string, strtold: string -> Scan) returns (l1: string, l2: string, rest: string)
    requires LastSetLine(text, strtold).valid
    ensures text == l1 + l2 + "UTC\n" + rest
    ensures 0 < |l1| < LineBuffer && 0 < |l2| < LineBuffer
    ensures Accepted(l1, strtold(l1)) && Accepted(l2, strtold(l2))
    ensures LastSetLine(text, strtold) == Calib(strtold(l1).value, strtold(l2).value, true)
  {
    var rest1, rest2, l3;
    l1, rest1 := Fgets(text).value.0, Fgets(text).value.1;
    var c1 := NoCalib.(lastset := strtold(l1).value);
    assert LastSetLine(text, strtold) == DriftLine(rest1, strtold, c1);
    l2, rest2 := Fgets(rest1).value.0, Fgets(rest1).value.1;
    var c2 := c1.(driftrate := strtold(l2).value);
    assert DriftLine(rest1, strtold, c1) == UtcLine(rest2, c2);
    l3, rest := Fgets(rest2).value.0, Fgets(rest2).value.1;
    assert l3 == "UTC\n";
    assert text == l1 + (l2 + (l3 + rest));
  }

  /** A record that fails validation still carries what was parsed before
      the failing check: the first line's number, and the second's once the
      first line was accepted. */
  lemma ReadCalibRetains(text: string, strtold: string -> Scan)
    requires |text| > 0
    ensures var c := ReadCalib(Text(text), strtold);
      var (l1, rest1) := Fgets(text).value;
      && c.lastset == strtold(l1).value
      && (Accepted(l1, strtold(l1)) && |rest1| > 0 ==>
            c.driftrate == strtold(Fgets(rest1).value.0).value)
      && (!Accepted(l1, strtold(l1)) || |rest1| == 0 ==> c == Calib(strtold(l1).value, 0.0, false))
  {
  }

  /** A third line of `UTC` with no newline, as in a truncated file, is not
      accepted. */
  lemma UtcNeedsNewline(l1: string, l2: string, strtold: string -> Scan)
    requires WholeLine(l1) && WholeLine(l2)
    ensures !ReadCalib(Text(l1 + l2 + "UTC"), strtold).valid
  {
    var u := "UTC";
    var c1 := NoCalib.(lastset := strtold(l1).value);
    var c2 := c1.(driftrate := strtold(l2).value);
    assert LineEnd(u, 0) == 3;
    assert UtcLine(u, c2) == c2;
    FgetsWhole(l2, u);
    assert !DriftLine(l2 + u, strtold, c1).valid;
    assert l1 + l2 + u == l1 + (l2 + u);
    FgetsWhole(l1, l2 + u);
  }

  /** The text `fprintf` renders for each field of the file: the two
      numbers, the time of the set, and the rate in parts per million. */
  datatype Rendered = Rendered(lastset: string, stamp: string, drift: string, ppm: string)

  function FirstLine(r: Rendered): string
  {
    r.lastset + " (" + r.stamp + " UTC)\n"
  }

  function SecondLine(r: Rendered): string
  {
    r.drift + " (" + r.ppm + " PPM)\n"
  }

  /** `writeCalib`: nothing is written without a file name or without a
      valid record; otherwise the three lines. */
  function WriteCalib(c: Calib, named: bool, r: Rendered): (out: Option<string>)
    ensures out.Some? <==> named && c.valid
  {
    if !named || !c.valid then None
    else Some(FirstLine(r) + SecondLine(r) + "UTC\n")
  }

  /** Reading back what `writeCalib` wrote gives a valid record holding
      what `strtold` makes of the two numerals, as long as the numerals and
      the stamp hold no newline, the lines fit the buffer and `strtold`
      consumes exactly each numeral. */
  lemma WriteThenRead(c: Calib, r: Rendered, strtold: string -> Scan)
    requires c.valid
    requires forall s :: s in [r.lastset, r.stamp, r.drift, r.ppm] ==> '\n' !in s
    requires |FirstLine(r)| < LineBuffer && |SecondLine(r)| < LineBuffer
    requires strtold(FirstLine(r)) == Scan(strtold(FirstLine(r)).value, |r.lastset|, false) && |r.lastset| > 0
    requires strtold(SecondLine(r)) == Scan(strtold(SecondLine(r)).value, |r.drift|, false) && |r.drift| > 0
    ensures WriteCalib(c, true, r).Some?
    ensures ReadCalib(Text(WriteCalib(c, true, r).value), strtold) ==
      Calib(strtold(FirstLine(r)).value, strtold(SecondLine(r)).value, true)
  {
    var l1, l2 := FirstLine(r), SecondLine(r);
    assert l1 == r.lastset + " (" + (r.stamp + " UTC)\n");
    assert l2 == r.drift + " (" + (r.ppm + " PPM)\n");
    NoNewline(r.lastset, " (", r.stamp + " UTC)\n", r.stamp, " UTC)\n");
    NoNewline(r.drift, " (", r.ppm + " PPM)\n", r.ppm, " PPM)\n");
    assert WriteCalib(c, true, r).value == l1 + l2 + "UTC\n" + "";
    ReadCalibComplete(l1, l2, "", strtold);
  }

  /** A line built from newline-free parts and a suffix whose only newline
      is its last character is whole, and has the separator right after
      its first part. */
  lemma NoNewline(a: string, sep: string, tail: string, b: string, suffix: string)
    requires tail == b + suffix && sep == " ("
    requires '\n' !in a && '\n' !in b
    requires suffix == " UTC)\n" || suffix == " PPM)\n"
    requires |a + sep + tail| < LineBuffer
    ensures WholeLine(a + sep + tail)
    ensures (a + sep + tail)[|a|] == ' ' && (a + sep + tail)[|a| + 1] == '('
  {
    var l := a + sep + tail;
    forall j | 0 <= j < |l| - 1
      ensures l[j] != '\n'
    {
      if j < |a| {
        assert l[j] == a[j];
      } else if j < |a| + 2 {
        assert l[j] == sep[j - |a|];
      } else if j < |a| + 2 + |b| {
        assert l[j] == b[j - |a| - 2];
      } else {
        assert l[j] == suffix[j - |a| - 2 - |b|];
      }
    }
  }
}

=== FILE: chip.dfy ===
/** The DS1302 as the driver sees it, following the Maxim DS1302 data sheet
    cited at rtc-ctl/rtc-ctl.c:114: the register file, what a command byte
    writes into it and the bits a read command shifts out, and a pin-level
    interpreter that replays the host's events against the chip.

    The chip keeps no time here: the counting registers hold what was last
    written. The register file is committed when CE falls. */
module Chip {
  import opened Bytes
  import opened Registers

  type RamRegs = r: seq<Byte> | |r| == 31 witness seq(31, i => 0)
  type ClockFile = r: seq<Byte> | |r| == 8 witness seq(8, i => 0)

  /** The chip's register file: eight clock registers in burst order, the
      trickle-charge register and the 31 RAM bytes. */
  datatype Mem = Mem(clock: ClockFile, tcs: Byte, ram: RamRegs)

  /** Write protect, bit 7 of the control register. */
  predicate Protected(m: Mem)
  {
    m.clock[7] >= MaskWp
  }

  /** The control register keeps only its write-protect bit; bits 0-6 read as
      zero. */
  function CtlStored(b: Byte): (s: Byte)
    ensures s == 0 || s == MaskWp
    ensures s >= MaskWp <==> b >= MaskWp
  {
    (b / MaskWp) * MaskWp
  }

  /** The register file after the chip receives command `cmd` followed by the
      data bytes `data`. Only write commands (bit 7 set, bit 0 clear) change
      anything. While write protect is set only the control register can be
      written. A clock burst needs all eight bytes, a RAM burst stores as many
      bytes as were sent (at most 31), and a single-register write stores the
      first byte. */
  function MemWrite(m: Mem, cmd: Byte, data: seq<Byte>): (r: Mem)
    ensures !IsCommand(cmd) || IsRead(cmd) ==> r == m
    ensures |data| == 0 ==> r == m
  {
    if !IsCommand(cmd) || IsRead(cmd) || |data| == 0 then m
    else
      var reg := RegNumber(cmd);
      if IsRam(cmd) then
        if Protected(m) then m
        else if reg == 31 then
          var k := if |data| < 31 then |data| else 31;
          m.(ram := data[..k] + m.ram[k..])
        else m.(ram := m.ram[reg := data[0]])
      else if reg == 7 then m.(clock := m.clock[7 := CtlStored(data[0])])
      else if Protected(m) then m
      else if reg == 31 then
        if |data| < 8 then m
        else m.(clock := data[..7] + [CtlStored(data[7])])
      else if reg < 7 then m.(clock := m.clock[reg := data[0]])
      else if reg == 8 then m.(tcs := data[0])
      else m
  }

  /** The registers a read command returns, in the order the chip shifts
      them out: one register, or the whole clock or RAM file for a burst.
      Addresses with no register behind them return nothing. */
  function Addressed(m: Mem, cmd: Byte): (r: seq<Byte>)
    ensures IsCommand(cmd) && IsRam(cmd) && RegNumber(cmd) == 31 ==> r == m.ram
    ensures IsCommand(cmd) && !IsRam(cmd) && RegNumber(cmd) == 31 ==> r == m.clock
    ensures IsCommand(cmd) && IsRam(cmd) && RegNumber(cmd) < 31 ==> r == [m.ram[RegNumber(cmd)]]
    ensures IsCommand(cmd) && !IsRam(cmd) && RegNumber(cmd) < 8 ==> r == [m.clock[RegNumber(cmd)]]
    ensures IsCommand(cmd) && !IsRam(cmd) && RegNumber(cmd) == 8 ==> r == [m.tcs]
    ensures !IsCommand(cmd) || (!IsRam(cmd) && 8 < RegNumber(cmd) < 31) ==> r == []
  {
    if !IsCommand(cmd) then []
    else
      var reg := RegNumber(cmd);
      if IsRam(cmd) then
        if reg == 31 then m.ram else [m.ram[reg]]
      else if reg == 31 then m.clock
      else if reg < 8 then [m.clock[reg]]
      else if reg == 8 then [m.tcs]
      else []
  }

  /** The bits the chip shifts out for a read command, least significant bit
      of each register first. */
  function ReadStream(m: Mem, cmd: Byte): (s: seq<bool>)
    ensures |s| == 8 * |Addressed(m, cmd)|
  {
    BytesBits(Addressed(m, cmd))
  }

  /** Pin events of the three-wire interface, as the host produces them. */
  datatype Event =
    | CE(high: bool)        // chip enable level
    | CK(high: bool)        // serial clock level
    | IO(high: bool)        // level the host puts on IO
    | IODir(output: bool)   // host's IO pin switched to output or input
    | Delay(us: nat)        // a wait; no effect on the levels
    | Sample                // the host reads the IO level

  /** Levels on the wires and the host's IO direction. */
  datatype Wire = Wire(ce: bool, ck: bool, io: bool, hostOut: bool)

  /** Chip side of a transfer: the register file, the bits taken from IO on
      rising clock edges since CE rose, and the falling edges seen while
      shifting data out. */
  datatype Port = Port(mem: Mem, rx: seq<bool>, falls: nat)

  /** The whole interface: wires, chip, the levels the host sampled and
      whether host and chip ever drove IO at the same time. */
  datatype Bus = Bus(wire: Wire, port: Port, samples: seq<bool>, clash: bool)

  /** The wires between transfers: CE, CK and IO low, IO an output. */
  const IdleWire := Wire(false, false, false, true)

  /** The chip has taken in a read command and shifts data out. */
  predicate Reading(rx: seq<bool>)
  {
    |rx| >= 8 && rx[0] && rx[7]
  }

  /** The bit the chip drives after its `k`-th falling edge in read mode;
      past the end of the stream the line is taken as low. */
  function OutBit(stream: seq<bool>, k: nat): bool
  {
    if 1 <= k <= |stream| then stream[k - 1] else false
  }

  function PortStream(p: Port): seq<bool>
    requires Reading(p.rx)
  {
    ReadStream(p.mem, ValueOf(p.rx[..8]))
  }

  /** The chip drives IO once the first falling edge after a read command has
      passed, for as long as CE stays high. */
  predicate Driving(w: Wire, p: Port)
  {
    w.ce && Reading(p.rx) && p.falls >= 1
  }

  /** The level the host sees on IO when it samples. */
  function SampleLevel(w: Wire, p: Port): bool
  {
    if Driving(w, p) then OutBit(PortStream(p), p.falls) else false
  }

  /** The bytes in a stream of data bits; a trailing partial byte is
      dropped. */
  function WholeBytes(bs: seq<bool>): seq<Byte>
  {
    BytesOf(bs[..|bs| - |bs| % 8])
  }

  /** The register file when CE falls after the chip took in `rx`. */
  function Commit(m: Mem, rx: seq<bool>): Mem
  {
    if |rx| < 8 then m else MemWrite(m, ValueOf(rx[..8]), WholeBytes(rx[8..]))
  }

  function Settle(b: Bus): Bus
  {
    b.(clash := b.clash || (b.wire.hostOut && Driving(b.wire, b.port)))
  }

  /** One event. CE rising starts a transfer, CE falling commits it. A rising
      CK edge clocks the IO level into the chip until a read command is
      complete; after that each falling edge moves the chip to its next output
      bit. */
  function Step(b: Bus, e: Event): Bus
  {
    var w, p := b.wire, b.port;
    match e
    case CE(v) =>
      var p' := if !w.ce && v then Port(p.mem, [], 0)
                else if w.ce && !v then p.(mem := Commit(p.mem, p.rx))
                else p;
      Settle(b.(wire := w.(ce := v), port := p'))
    case CK(v) =>
      var p' := if w.ce && !w.ck && v && !Reading(p.rx) then p.(rx := p.rx + [w.io])
                else if w.ce && w.ck && !v && Reading(p.rx) then p.(falls := p.falls + 1)
                else p;
      Settle(b.(wire := w.(ck := v), port := p'))
    case IO(v) => Settle(b.(wire := w.(io := v)))
    case IODir(o) => Settle(b.(wire := w.(hostOut := o)))
    case Delay(_) => b
    case Sample => b.(samples := b.samples + [SampleLevel(w, p)])
  }

  /** The bus after a sequence of events. */
  function Run(b: Bus, tr: seq<Event>): Bus
    decreases |tr|
  {
    if tr == [] then b else Run(Step(b, tr[0]), tr[1..])
  }

  lemma {:induction false} RunAppend(b: Bus, t1: seq<Event>, t2: seq<Event>)
    ensures Run(b, t1 + t2) == Run(Run(b, t1), t2)
    decreases |t1|
  {
    if t1 == [] {
      assert t1 + t2 == t2;
    } else {
      assert (t1 + t2)[0] == t1[0];
      assert (t1 + t2)[1..] == t1[1..] + t2;
      RunAppend(Step(b, t1[0]), t1[1..], t2);
    }
  }

  lemma Run1(b: Bus, tr: seq<Event>)
    requires |tr| == 1
    ensures Run(b, tr) == Step(b, tr[0])
  {
    assert tr[1..] == [];
  }

  lemma Run2(b: Bus, tr: seq<Event>)
    requires |tr| == 2
    ensures Run(b, tr) == Step(Step(b, tr[0]), tr[1])
  {
    Run1(Step(b, tr[0]), tr[1..]);
  }

  lemma Run3(b: Bus, tr: seq<Event>)
    requires |tr| == 3
    ensures Run(b, tr) == Step(Step(Step(b, tr[0]), tr[1]), tr[2])
  {
    Run2(Step(b, tr[0]), tr[1..]);
  }

  lemma Run4(b: Bus, tr: seq<Event>)
    requires |tr| == 4
    ensures Run(b, tr) == Step(Step(Step(Step(b, tr[0]), tr[1]), tr[2]), tr[3])
  {
    Run3(Step(b, tr[0]), tr[1..]);
  }

  lemma Run5(b: Bus, tr: seq<Event>)
    requires |tr| == 5
    ensures Run(b, tr) == Step(Step(Step(Step(Step(b, tr[0]), tr[1]), tr[2]), tr[3]), tr[4])
  {
    Run4(Step(b, tr[0]), tr[1..]);
  }

  lemma Run6(b: Bus, tr: seq<Event>)
    requires |tr| == 6
    ensures Run(b, tr) == Step(Step(Step(Step(Step(Step(b, tr[0]), tr[1]), tr[2]), tr[3]), tr[4]), tr[5])
  {
    Run5(Step(b, tr[0]), tr[1..]);
  }
}

=== FILE: civil.dfy ===
/** UTC civil time and seconds since the epoch: the parts of the C library's
    `timegm` and `gmtime_r` that the driver relies on.

    Days are counted by walking whole Gregorian years from 1970, so that the two
    conversions can be shown to be inverse by induction on the walk. */
module Civil {

  /** The fields of a `struct tm` the driver reads or writes: month 0-11,
      weekday 0-6 with Sunday 0, year counted from 1900. */
  datatype Tm = Tm(sec: int, min: int, hour: int, mday: int, mon: int, wday: int, year: int)

  const SecondsPerDay := 86400
  const EpochYear := 1970

  predicate IsLeap(y: int)
  {
    y % 4 == 0 && (y % 100 != 0 || y % 400 == 0)
  }

  function DaysInYear(y: int): nat
  {
    if IsLeap(y) then 366 else 365
  }

  /** Days from 1 January 1970 to 1 January of year `y` (negative before 1970). */
  function DaysBeforeYear(y: int): int
    decreases if y >= EpochYear then y - EpochYear else EpochYear - y
  {
    if y == EpochYear then 0
    else if y > EpochYear then DaysBeforeYear(y - 1) + DaysInYear(y - 1)
    else DaysBeforeYear(y + 1) - DaysInYear(y)
  }

  lemma NextYear(y: int)
    ensures DaysBeforeYear(y + 1) == DaysBeforeYear(y) + DaysInYear(y)
  {
  }

  /** Later years start later. */
  lemma {:induction false} YearsIncrease(a: int, b: int)
    requires a < b
    ensures DaysBeforeYear(a) + DaysInYear(a) <= DaysBeforeYear(b)
    decreases b - a
  {
    NextYear(a);
    if a + 1 < b {
      YearsIncrease(a + 1, b);
    }
  }

  /** Days from 1 January to the first of month `m` (0-based) of year `y`. */
  function DaysBeforeMonth(y: int, m: int): (d: nat)
    requires 0 <= m <= 12
    ensures m == 12 ==> d == DaysInYear(y)
  {
    [0, 31, 59, 90, 120, 151, 181, 212, 243, 273, 304, 334, 365][m]
      + (if IsLeap(y) && m >= 2 then 1 else 0)
  }

  function DaysInMonth(y: int, m: int): (d: nat)
    requires 0 <= m < 12
    ensures 28 <= d <= 31
  {
    DaysBeforeMonth(y, m + 1) - DaysBeforeMonth(y, m)
  }

  /** A `struct tm` whose fields are all within their ranges, as `gmtime_r`
      produces them. */
  predicate Normal(t: Tm)
  {
    && 0 <= t.sec < 60 && 0 <= t.min < 60 && 0 <= t.hour < 24
    && 0 <= t.mon < 12 && 1 <= t.mday <= DaysInMonth(t.year + 1900, t.mon)
    && 0 <= t.wday < 7
  }

  /** Seconds since the epoch of a UTC `struct tm`, normalising as `timegm`
      does: the month is folded into the year, and out-of-range days, hours,
      minutes and seconds simply carry. The weekday is ignored. */
  function TimeGm(t: Tm): int
  {
    var y := t.year + 1900 + t.mon / 12;
    var m := t.mon % 12;
    var days := DaysBeforeYear(y) + DaysBeforeMonth(y, m) + t.mday - 1;
    days * SecondsPerDay + t.hour * 3600 + t.min * 60 + t.sec
  }

  /** The year containing day `days`, searching upward from year `y`. */
  function YearUp(days: int, y: int): (r: int)
    requires DaysBeforeYear(y) <= days
    ensures y <= r
    ensures DaysBeforeYear(r) <= days < DaysBeforeYear(r + 1)
    decreases days - DaysBeforeYear(y)
  {
    NextYear(y);
    if days < DaysBeforeYear(y + 1) then y else YearUp(days, y + 1)
  }

  /** The year containing day `days`, searching downward from year `y`. */
  function YearDown(days: int, y: int): (r: int)
    requires days < DaysBeforeYear(y + 1)
    ensures r <= y
    ensures DaysBeforeYear(r) <= days < DaysBeforeYear(r + 1)
    decreases DaysBeforeYear(y + 1) - days
  {
    NextYear(y);
    if DaysBeforeYear(y) <= days then y else YearDown(days, y - 1)
  }

  /** The year containing day `days` counted from 1 January 1970. */
  function YearOf(days: int): (r: int)
    ensures DaysBeforeYear(r) <= days < DaysBeforeYear(r + 1)
  {
    if days >= 0 then YearUp(days, EpochYear) else YearDown(days, EpochYear - 1)
  }

  /** The year found for a day is the only one whose span holds that day. */
  lemma YearUnique(days: int, y: int)
    requires DaysBeforeYear(y) <= days < DaysBeforeYear(y + 1)
    ensures YearOf(days) == y
  {
    var r := YearOf(days);
    if r < y {
      YearsIncrease(r, y);
      NextYear(r);
    } else if y < r {
      YearsIncrease(y, r);
      NextYear(y);
    }
  }

  /** The month (0-based) of year `y` holding day-of-year `d`, searching from `m`. */
  function MonthOf(y: int, d: int, m: int): (r: int)
    requires 0 <= m < 12
    requires DaysBeforeMonth(y, m) <= d < DaysInYear(y)
    ensures m <= r < 12
    ensures DaysBeforeMonth(y, r) <= d < DaysBeforeMonth(y, r + 1)
    decreases 12 - m
  {
    if d < DaysBeforeMonth(y, m + 1) then m else MonthOf(y, d, m + 1)
  }

  lemma MonthUnique(y: int, d: int, m: int, m0: int)
    requires 0 <= m0 <= m < 12
    requires DaysBeforeMonth(y, m0) <= d
    requires DaysBeforeMonth(y, m) <= d < DaysBeforeMonth(y, m + 1)
    ensures MonthOf(y, d, m0) == m
    decreases m - m0
  {
    if m0 < m {
      MonthUnique(y, d, m, m0 + 1);
    }
  }

  /** UTC broken-down time of an epoch second, as `gmtime_r` computes it;
      1 January 1970 was a Thursday (weekday 4). */
  function GmTime(e: int): (t: Tm)
    ensures Normal(t)
  {
    var days := e / SecondsPerDay;
    var secs := e % SecondsPerDay;
    var y := YearOf(days);
    NextYear(y);
    var m := MonthOf(y, days - DaysBeforeYear(y), 0);
    Tm(secs % 60, (secs / 60) % 60, secs / 3600,
       days - DaysBeforeYear(y) - DaysBeforeMonth(y, m) + 1, m, (days + 4) % 7, y - 1900)
  }

  /** `timegm` undoes `gmtime_r`: every epoch second survives the trip through
      broken-down UTC time. */
  lemma TimeGmOfGmTime(e: int)
    ensures TimeGm(GmTime(e)) == e
  {
    var t := GmTime(e);
    var days := e / SecondsPerDay;
    var secs := e % SecondsPerDay;
    assert e == days * SecondsPerDay + secs;
    assert secs == t.hour * 3600 + t.min * 60 + t.sec;
    assert t.mon / 12 == 0 && t.mon % 12 == t.mon;
  }

  lemma SplitDay(days: int, secs: int)
    requires 0 <= secs < SecondsPerDay
    ensures (days * SecondsPerDay + secs) / SecondsPerDay == days
    ensures (days * SecondsPerDay + secs) % SecondsPerDay == secs
  {
  }

  lemma SplitClock(h: int, m: int, s: int)
    requires 0 <= h < 24 && 0 <= m < 60 && 0 <= s < 60
    ensures var secs := h * 3600 + m * 60 + s;
      secs % 60 == s && (secs / 60) % 60 == m && secs / 3600 == h
  {
    var secs := h * 3600 + m * 60 + s;
    assert secs == (h * 60 + m) * 60 + s;
    assert secs / 60 == h * 60 + m;
  }

  /** Where `timegm` puts a normal time: its day lies in its own year and
      month, and its second of the day is its clock time. */
  lemma TimeGmSplits(t: Tm)
    requires Normal(t)
    ensures var e := TimeGm(t);
      && var days := e / SecondsPerDay;
      && e % SecondsPerDay == t.hour * 3600 + t.min * 60 + t.sec
      && YearOf(days) == t.year + 1900
      && MonthOf(t.year + 1900, days - DaysBeforeYear(t.year + 1900), 0) == t.mon
      && days == DaysBeforeYear(t.year + 1900) + DaysBeforeMonth(t.year + 1900, t.mon) + t.mday - 1
  {
    var y := t.year + 1900;
    var days := DaysBeforeYear(y) + DaysBeforeMonth(y, t.mon) + t.mday - 1;
    var secs := t.hour * 3600 + t.min * 60 + t.sec;
    var e := TimeGm(t);
    assert t.mon / 12 == 0 && t.mon % 12 == t.mon;
    assert e == days * SecondsPerDay + secs;
    SplitDay(days, secs);
    NextYear(y);
    YearUnique(days, y);
    MonthUnique(y, days - DaysBeforeYear(y), t.mon, 0);
  }

  /** `gmtime_r` undoes `timegm` on normal times: the date and time come back
      unchanged and the weekday is recomputed from the date. */
  lemma GmTimeOfTimeGm(t: Tm)
    requires Normal(t)
    ensures GmTime(TimeGm(t)) == t.(wday := GmTime(TimeGm(t)).wday)
  {
    TimeGmSplits(t);
    var e := TimeGm(t);
    var y := t.year + 1900;
    GmTimeParts(e, e / SecondsPerDay, t.hour * 3600 + t.min * 60 + t.sec, y, t.mon);
    SplitClock(t.hour, t.min, t.sec);
  }

  /** `gmtime_r`'s fields in terms of the day, the second of the day, the
      year and the month it finds. */
  lemma GmTimeParts(e: int, days: int, secs: int, y: int, m: int)
    requires days == e / SecondsPerDay && secs == e % SecondsPerDay
    requires YearOf(days) == y && MonthOf(y, days - DaysBeforeYear(y), 0) == m
    ensures GmTime(e).sec == secs % 60 && GmTime(e).min == (secs / 60) % 60 && GmTime(e).hour == secs / 3600
    ensures GmTime(e).year == y - 1900 && GmTime(e).mon == m
    ensures GmTime(e).mday == days - DaysBeforeYear(y) - DaysBeforeMonth(y, m) + 1
  {
  }

  /** The first second of a year. */
  function YearStart(y: int): int
  {
    DaysBeforeYear(y) * SecondsPerDay
  }

  /** An epoch second falls in year `y` exactly when it lies between the
      starts of `y` and `y + 1`; so a span of years is a span of seconds. */
  lemma YearBounds(e: int, lo: int, hi: int)
    requires lo < hi
    ensures YearStart(lo) <= e < YearStart(hi) <==> lo <= GmTime(e).year + 1900 < hi
  {
    var days := e / SecondsPerDay;
    var y := YearOf(days);
    assert GmTime(e).year + 1900 == y;
    NextYear(y);
    if lo <= y {
      if lo < y { YearsIncrease(lo, y); }
    } else {
      YearsIncrease(y, lo);
    }
    if y < hi {
      if y + 1 < hi { YearsIncrease(y + 1, hi); }
    } else {
      if hi < y { YearsIncrease(hi, y); }
    }
  }
}

=== FILE: codec.dfy ===
/** The clock-register codec: the eight-byte clock burst that `setTOY` builds
    from a UTC time (rtc-ctl/rtc-ctl.c:1009-1024) and the field extraction of
    `decodeTOY` (rtc-ctl/rtc-ctl.c:1232-1269). */
module ClockCodec {
  import opened Bytes
  import opened BinaryCodedDecimal
  import opened Registers
  import opened Civil
  import opened Results

  /** The clock registers in burst order: seconds, minutes, hours, day of
      month, month, weekday, year of century, control. */
  type ClockRegs = r: seq<Byte> | |r| == 8 witness [0, 0, 0, 0, 0, 0, 0, 0]

  /** The PM flag of an hours byte (`& TOY_M_PM`). */
  predicate IsPm(b: Byte)
  {
    (b / MaskPm) % 2 == 1
  }

  /** The 12-hour flag of an hours byte (`& TOY_M_12HR`). */
  predicate Is12Hour(b: Byte)
  {
    b >= Mask12Hour
  }

  /** The hour of day 0-23 that an hours byte denotes. In 12-hour mode the
      hour is `b & TOY_M_HR12`, PM adds twelve except to 12, and 12 AM is hour
      0; otherwise it is `b & TOY_M_HR24`. */
  function DecodeHour(b: Byte): int
  {
    if Is12Hour(b) then
      var h := Bin(b % 0x20);
      if IsPm(b) then (if h != 12 then h + 12 else h)
      else (if h == 12 then 0 else h)
    else Bin(b % 0x40)
  }

  /** A 12-hour mode hours byte assembled from the PM flag and an hour part
      below 0x20, and the hour of day it denotes. */
  function PackHour(pm: bool, lo: nat): (b: Byte)
    requires lo < 0x20
    ensures b % 0x20 == lo && Is12Hour(b) && (IsPm(b) <==> pm) && b % 0x80 < 0x40
    ensures DecodeHour(b) ==
      if pm then (if Bin(lo) != 12 then Bin(lo) + 12 else 12)
      else (if Bin(lo) == 12 then 0 else Bin(lo))
  {
    var b := 0x80 + 0x20 * B(pm) + lo;
    assert b % 0x20 == lo && b / 0x20 == 4 + B(pm);
    assert b % 0x80 == 0x20 * B(pm) + lo;
    b
  }

  /** The hours byte for hour of day `hour`: plain BCD in 24-hour mode; in
      12-hour mode the 12-hour flag, PM from noon on, and the hour 1-12 with
      midnight shown as 12 AM and noon as 12 PM. */
  function HourByte(hour: int, twelve: bool): (b: Byte)
    requires 0 <= hour < 24
    ensures Is12Hour(b) <==> twelve
    ensures twelve ==> (IsPm(b) <==> hour >= 12)
    ensures twelve ==> 1 <= Bin(b % 0x20) <= 12
    ensures twelve ==> (Bin(b % 0x20) == 12 <==> hour == 0 || hour == 12)
    ensures !twelve ==> Bin(b % 0x40) == hour
    ensures DecodeHour(b) == hour
  {
    if twelve then TwelveHourByte(hour) else PlainHourByte(hour)
  }

  /** The 24-hour mode hours byte: the hour in BCD. */
  function PlainHourByte(hour: int): (b: Byte)
    requires 0 <= hour < 24
    ensures !Is12Hour(b) && b < 0x40
    ensures Bin(b % 0x40) == hour && DecodeHour(b) == hour
  {
    var b := Bcd(hour);
    assert b % 0x40 == b;
    b
  }

  /** The 12-hour mode hours byte: the hour 1-12 with midnight as 12 AM and
      noon as 12 PM. */
  function TwelveHourByte(hour: int): (b: Byte)
    requires 0 <= hour < 24
    ensures Is12Hour(b) && (IsPm(b) <==> hour >= 12)
    ensures 1 <= Bin(b % 0x20) <= 12
    ensures Bin(b % 0x20) == 12 <==> hour == 0 || hour == 12
    ensures DecodeHour(b) == hour
  {
    var h := if hour == 0 then 12 else if hour > 12 then hour - 12 else hour;
    PackHour(hour >= 12, Bcd(h))
  }

  /** The fields `gmtime_r` produces that the encoder relies on. */
  predicate Encodable(t: Tm)
  {
    && 0 <= t.sec < 60 && 0 <= t.min < 60 && 0 <= t.hour < 24
    && 1 <= t.mday <= 31 && 0 <= t.mon < 12 && 0 <= t.wday < 7
    && t.year + 1900 >= 0
  }

  /** The time the chip keeps for `t`: the same fields with the year reduced to
      its century 2000-2099, the only century the chip represents. */
  function ChipCentury(t: Tm): Tm
  {
    t.(year := 100 + YearOfCentury(t.year + 1900))
  }

  /** The two-digit year the chip stores for calendar year `y`. */
  function YearOfCentury(y: int): (c: nat)
    ensures c < 100
    ensures 2000 <= y < 2100 ==> c + 2000 == y
  {
    y % 100
  }

  /** "No TOY": the month register's must-be-zero bits are not all zero. */
  predicate NoToy(r: ClockRegs)
  {
    r[Offset(AddrMonth)] >= 0x20
  }

  /** The clock-halt bit of the seconds register. */
  predicate Halted(r: ClockRegs)
  {
    r[Offset(AddrSec)] >= MaskHalt
  }

  /** The broken-down time that `decodeTOY` hands to `timegm`: month and weekday
      made 0-based, the year counted from 1900 within 2000-2099. */
  function DecodeFields(r: ClockRegs): Tm
  {
    Tm(Bin(r[0] % 0x80), Bin(r[1] % 0x80), DecodeHour(r[2]),
       Bin(r[3]), Bin(r[4]) - 1, Bin(r[5]) - 1, Bin(r[6]) + 100)
  }

  /** The clock burst `setTOY` writes for UTC time `t`: BCD fields with the
      clock-halt bit clear, month and weekday made 1-based, the year of
      century, and write protect set in the control byte. */
  function EncodeClock(t: Tm, twelve: bool): (r: ClockRegs)
    requires Encodable(t)
    ensures r[Offset(AddrCtl)] == MaskWp
    ensures !Halted(r) && !NoToy(r)
    ensures Is12Hour(r[Offset(AddrHour)]) <==> twelve
  {
    var sec, min, hour := Bcd(t.sec), Bcd(t.min), HourByte(t.hour, twelve);
    var day, mon, wday := Bcd(t.mday), Bcd(t.mon + 1), Bcd(t.wday + 1);
    var year := Bcd(YearOfCentury(t.year + 1900));
    [sec, min, hour, day, mon, wday, year, MaskWp]
  }

  /** Decoding the clock burst written for `t` gives back the same time within
      the chip's century, in either hour mode. */
  lemma DecodeOfEncode(t: Tm, twelve: bool)
    requires Encodable(t)
    ensures DecodeFields(EncodeClock(t, twelve)) == ChipCentury(t)
  {
    var r := EncodeClock(t, twelve);
    DecodeBurst(r[0], r[1], r[2], r[3], r[4], r[5], r[6]);
  }

  /** Decoding a clock burst field by field, for seconds and minutes bytes
      with the clock-halt bit clear. */
  lemma DecodeBurst(sec: Byte, min: Byte, hour: Byte, day: Byte, mon: Byte, wday: Byte, year: Byte)
    requires sec < 0x80 && min < 0x80
    ensures DecodeFields([sec, min, hour, day, mon, wday, year, MaskWp]) ==
            Tm(Bin(sec), Bin(min), DecodeHour(hour), Bin(day), Bin(mon) - 1, Bin(wday) - 1, Bin(year) + 100)
  {
    assert sec % 0x80 == sec && min % 0x80 == min;
  }

  /** Whether `e` fits a signed `time_t` of `bits` bits. */
  predicate FitsTimeT(e: int, bits: nat)
    requires bits >= 1
  {
    0 <= e + Pow2(bits - 1) && e < Pow2(bits - 1)
  }

  /** Epoch seconds of the clock registers, or the conversion failure `timegm`
      reports with -1 when the date does not fit `time_t`. */
  function DecodeToy(r: ClockRegs, timeBits: nat): (res: Result<int>)
    requires timeBits >= 1
    ensures res.Ok? ==> res.value == TimeGm(DecodeFields(r)) && FitsTimeT(res.value, timeBits)
    ensures res.Err? ==> res.error == ConversionFailed
  {
    var e := TimeGm(DecodeFields(r));
    if !FitsTimeT(e, timeBits) || e == -1 then Err(ConversionFailed) else Ok(e)
  }

  /** An hours byte exactly as the encoder writes it in the given mode. */
  predicate CanonicalHour(b: Byte, twelve: bool)
  {
    if twelve then
      Is12Hour(b) && (b % 0x80) < 0x40 && IsBcd(b % 0x20) && 1 <= Bin(b % 0x20) <= 12
    else
      !Is12Hour(b) && b < 0x40 && IsBcd(b) && Bin(b) < 24
  }

  /** A clock burst exactly as the encoder writes it: running, valid BCD in
      every field, fields in range and write protect set. */
  predicate Canonical(r: ClockRegs, twelve: bool)
  {
    && IsBcd(r[0]) && Bin(r[0]) < 60
    && IsBcd(r[1]) && Bin(r[1]) < 60
    && CanonicalHour(r[2], twelve)
    && IsBcd(r[3]) && 1 <= Bin(r[3]) <= 31
    && IsBcd(r[4]) && 1 <= Bin(r[4]) <= 12
    && IsBcd(r[5]) && 1 <= Bin(r[5]) <= 7
    && IsBcd(r[6])
    && r[7] == MaskWp
  }

  /** Re-encoding a decoded hours byte in its own mode reproduces the byte,
      12-hour and PM bits included; encoding it in the other mode keeps the
      hour of day. */
  lemma HourRoundTrip(b: Byte, twelve: bool)
    requires CanonicalHour(b, twelve)
    ensures 0 <= DecodeHour(b) < 24
    ensures HourByte(DecodeHour(b), twelve) == b
    ensures DecodeHour(HourByte(DecodeHour(b), !twelve)) == DecodeHour(b)
  {
    if twelve {
      TwelveHourRoundTrip(b);
    } else {
      PlainHourRoundTrip(b);
    }
  }

  lemma TwelveHourRoundTrip(b: Byte)
    requires CanonicalHour(b, true)
    ensures 0 <= DecodeHour(b) < 24 && TwelveHourByte(DecodeHour(b)) == b
  {
    var pm, lo := IsPm(b), b % 0x20;
    TwelveHourSplit(b);
    BcdOfBin(lo);
    var hour := DecodeHour(b);
    assert hour >= 12 <==> pm;
    assert (if hour == 0 then 12 else if hour > 12 then hour - 12 else hour) == Bin(lo);
  }

  lemma PlainHourRoundTrip(b: Byte)
    requires CanonicalHour(b, false)
    ensures DecodeHour(b) == Bin(b) && 0 <= Bin(b) < 24 && PlainHourByte(Bin(b)) == b
  {
    BcdOfBin(b);
    assert b % 0x40 == b;
    assert PlainHourByte(Bin(b)) == Bcd(Bin(b));
  }

  /** A 12-hour mode hours byte with bit 6 clear is the 12-hour flag, the PM
      flag and the hour part. */
  lemma TwelveHourSplit(b: Byte)
    requires Is12Hour(b) && b % 0x80 < 0x40
    ensures b == PackHour(IsPm(b), b % 0x20)
  {
  }

  /** Decoding a canonical clock burst and encoding the result in the same
      hour mode writes back the same eight bytes. */
  lemma EncodeOfDecode(r: ClockRegs, twelve: bool)
    requires Canonical(r, twelve)
    ensures Encodable(DecodeFields(r))
    ensures EncodeClock(DecodeFields(r), twelve) == r
  {
    CanonicalFields(r, twelve);
  }

  /** Each field of a canonical clock burst decodes into range and re-encodes
      to its own byte. */
  lemma CanonicalFields(r: ClockRegs, twelve: bool)
    requires Canonical(r, twelve)
    ensures Bin(r[0] % 0x80) < 60 && Bcd(Bin(r[0] % 0x80)) == r[0]
    ensures Bin(r[1] % 0x80) < 60 && Bcd(Bin(r[1] % 0x80)) == r[1]
    ensures 0 <= DecodeHour(r[2]) < 24 && HourByte(DecodeHour(r[2]), twelve) == r[2]
    ensures 1 <= Bin(r[3]) <= 31 && Bcd(Bin(r[3])) == r[3]
    ensures 1 <= Bin(r[4]) <= 12 && Bcd(Bin(r[4])) == r[4]
    ensures 1 <= Bin(r[5]) <= 7 && Bcd(Bin(r[5])) == r[5]
    ensures Bin(r[6]) < 100 && Bcd(YearOfCentury(Bin(r[6]) + 100 + 1900)) == r[6]
  {
    SixtyField(r[0]);
    SixtyField(r[1]);
    HourRoundTrip(r[2], twelve);
    BcdOfBin(r[3]);
    BcdOfBin(r[4]);
    BcdOfBin(r[5]);
    BcdOfBin(r[6]);
  }

  /** A seconds or minutes byte below BCD 60 decodes unmasked and re-encodes
      to itself. */
  lemma SixtyField(b: Byte)
    requires IsBcd(b) && Bin(b) < 60
    ensures Bin(b % 0x80) == Bin(b)
    ensures Bcd(Bin(b % 0x80)) == b
  {
    BcdOfBin(b);
    assert b < 0x60;
    assert b % 0x80 == b;
  }

  /** Every epoch second from 2000 to 2099, broken down by `gmtime_r`, encoded
      into the clock burst and decoded again with a 64-bit `time_t`, is the
      same second, in either hour mode. */
  lemma ClockRoundTrip(e: int, twelve: bool)
    requires YearStart(2000) <= e < YearStart(2100)
    ensures Encodable(GmTime(e))
    ensures DecodeToy(EncodeClock(GmTime(e), twelve), 64) == Ok(e)
  {
    var t := GmTime(e);
    YearBounds(e, 2000, 2100);
    assert ChipCentury(t) == t;
    DecodeOfEncode(t, twelve);
    TimeGmOfGmTime(e);
    CenturyFits();
  }

  /** The chip's century lies after the epoch and well within a 64-bit
      `time_t`. */
  lemma CenturyFits()
    ensures 0 < YearStart(2000) && YearStart(2100) < Pow2(63)
  {
    assert DaysBeforeYear(2100) <= 130 * 366 by { DaysBeforeYearBound(2100); }
    Pow2Values();
    Pow2Monotone(40, 63);
    DaysBeforeYearBound(2000);
  }

  /** With a 32-bit `time_t` the same round trip succeeds exactly up to the
      year-2038 limit and fails with a conversion error from then on. */
  lemma ClockRoundTrip32(e: int, twelve: bool)
    requires YearStart(2000) <= e < YearStart(2100)
    ensures Encodable(GmTime(e))
    ensures DecodeToy(EncodeClock(GmTime(e), twelve), 32) ==
            (if e < 0x8000_0000 then Ok(e) else Err(ConversionFailed))
  {
    var t := GmTime(e);
    YearBounds(e, 2000, 2100);
    assert ChipCentury(t) == t;
    DecodeOfEncode(t, twelve);
    TimeGmOfGmTime(e);
    Pow2Values();
    assert YearStart(2000) > 0 by { DaysBeforeYearBound(2000); }
  }

  lemma {:induction false} DaysBeforeYearBound(y: int)
    requires y >= EpochYear
    ensures 365 * (y - EpochYear) <= DaysBeforeYear(y) <= 366 * (y - EpochYear)
    decreases y - EpochYear
  {
    if y > EpochYear {
      DaysBeforeYearBound(y - 1);
    }
  }

  lemma Pow2Values()
    ensures Pow2(31) == 0x8000_0000
    ensures Pow2(40) == 0x100_0000_0000
  {
    assert Pow2(8) == 0x100;
    Pow2Add(8, 8);
    Pow2Add(16, 8);
    Pow2Add(24, 7);
    Pow2Add(24, 8);
    Pow2Add(32, 8);
  }
}

=== FILE: commands.dfy ===
/** The commands of `main`'s second switch that drive the chip directly
    (rtc-ctl/rtc-ctl.c:586-644), the `unlockTOY` probe that precedes every
    mutating one (rtc-ctl/rtc-ctl.c:1583-1599) and the RAM test
    (rtc-ctl/rtc-ctl.c:1453-1515). Each mutating command clears write
    protect, checks that the chip answered, makes its change and writes WP
    to CTL again. */
module Commands {
  import opened Bytes
  import opened Registers
  import opened Results
  import opened Chip
  import opened Transport
  import opened Toy

  /** The value `unlockTOY` writes to CTL: WP itself in test mode, so that
      nothing is changed, and 0 otherwise. */
  function UnlockValue(testmode: bool): Byte
  {
    if testmode then MaskWp else 0
  }

  /** An address that transfers exactly one byte. */
  predicate SingleRegister(reg: int)
  {
    0 <= reg < 0x10000 && reg % 0x100 != AddrClockBurst && reg % 0x100 != AddrRamBurst
  }

  /** `writeTOY(reg, v)` for a single register. */
  function WriteOne(d: Device, reg: int, v: Byte): (r: Device)
    requires SingleRegister(reg)
    ensures d.Present? ==> r == Present(MemWrite(d.mem, reg % 0x100, [v]))
    ensures d.Absent? ==> r == d
  {
    Write(d, reg, 1, [v]).value
  }

  /** `readTOY(reg, &v)` for a single register. */
  function ReadOne(d: Device, reg: int): Byte
    requires SingleRegister(reg)
  {
    Read(d, reg, 1).value[0]
  }

  /** `writeTOY(TOY_CBURST | TOY_GATHER, regs)`: the eight clock registers
      in one burst. */
  function WriteClock(d: Device, regs: seq<Byte>): (r: Device)
    requires |regs| == 8
    ensures d.Present? ==> r == Present(MemWrite(d.mem, AddrClockBurst, regs))
    ensures d.Absent? ==> r == d
  {
    Write(d, AddrClockBurst + GatherFlag, 8, regs).value
  }

  /** Write the CTL value, read it back; a different value means there is
      no chip ("No TOY detected"). */
  function Unlock(d: Device, testmode: bool): (r: Result<Device>)
    ensures r.Err? ==> r.error == NoToyDetected
  {
    var setval := UnlockValue(testmode);
    var w := WriteOne(d, AddrCtl, setval);
    var ctl := ReadOne(w, AddrCtl + ScatterFlag);
    if ctl != setval then Err(NoToyDetected) else Ok(w)
  }

  /** Writing WP to CTL. */
  function Lock(d: Device): Device
  {
    WriteOne(d, AddrCtl, MaskWp)
  }

  /** The chip after CTL is written with `v`, which only the WP bit keeps. */
  function WithCtl(m: Mem, v: Byte): Mem
  {
    m.(clock := m.clock[7 := CtlStored(v)])
  }

  /** The single-register writes the commands make, spelled out. */
  lemma CtlWrite(m: Mem, v: Byte)
    ensures MemWrite(m, AddrCtl, [v]) == WithCtl(m, v)
    ensures CtlStored(MaskWp) == MaskWp && CtlStored(0) == 0
  {
    assert RegNumber(AddrCtl) == 7;
  }

  lemma SecWrite(m: Mem, v: Byte)
    ensures MemWrite(m, AddrSec, [v]) == if Protected(m) then m else m.(clock := m.clock[0 := v])
  {
    assert RegNumber(AddrSec) == 0;
  }

  lemma TcsWrite(m: Mem, v: Byte)
    ensures MemWrite(m, AddrTcs, [v]) == if Protected(m) then m else m.(tcs := v)
  {
    assert RegNumber(AddrTcs) == 8;
  }

  lemma RamWrite(m: Mem, addr: nat, v: Byte)
    requires addr < RamRegCount()
    ensures MemWrite(m, RamAddress(addr), [v]) ==
      if Protected(m) then m else m.(ram := m.ram[addr := v])
  {
  }

  /** The address of RAM byte `addr`: `TOY_RAM_BASE + (addr << 1)`, a RAM
      write command for that byte alone. */
  function RamAddress(addr: nat): (reg: int)
    requires addr < RamRegCount()
    ensures SingleRegister(reg) && reg % 0x100 == reg
    ensures IsCommand(reg) && !IsRead(reg) && IsRam(reg) && RegNumber(reg) == addr
  {
    assert RamRegCount() == 31;
    var reg := AddrRamBase + 2 * addr;
    assert reg % 0x100 == reg && reg % 2 == 0;
    assert reg / 0x40 == 3;
    assert reg / 2 == 3 * 32 + addr;
    reg
  }

  lemma ReadCtl(m: Mem)
    ensures ReadOne(Present(m), AddrCtl + ScatterFlag) == m.clock[7]
  {
    assert ReadCommand(AddrCtl + ScatterFlag) % 0x100 == AddrCtl + ReadFlag;
    assert RegNumber(AddrCtl + ReadFlag) == 7;
    ReadPresent(m, AddrCtl + ScatterFlag, 1);
  }

  /** With a chip in the socket the probe always succeeds and leaves CTL
      holding WP exactly in test mode; nothing else changes. */
  lemma UnlockPresent(m: Mem, testmode: bool)
    ensures Unlock(Present(m), testmode) == Ok(Present(WithCtl(m, UnlockValue(testmode))))
    ensures CtlStored(UnlockValue(testmode)) == UnlockValue(testmode)
    ensures Protected(WithCtl(m, UnlockValue(testmode))) <==> testmode
  {
    CtlWrite(m, UnlockValue(testmode));
    ReadCtl(WithCtl(m, UnlockValue(testmode)));
  }

  /** The probe fails only on an empty socket, where the write it makes
      before reading back changes nothing: a failed probe leaves the device
      as it was. */
  lemma UnlockFailsUnchanged(d: Device, testmode: bool)
    ensures Unlock(d, testmode).Err? ==> d.Absent? && WriteOne(d, AddrCtl, UnlockValue(testmode)) == d
  {
    if d.Present? {
      UnlockPresent(d.mem, testmode);
    }
  }

  /** An empty socket whose line floats high is always detected; one whose
      line reads low passes the probe unless in test mode, since the 0 the
      probe writes is also what a low line reads back. */
  lemma UnlockAbsent(level: bool, testmode: bool)
    ensures Unlock(Absent(level), testmode).Err? <==> level || testmode
    ensures Unlock(Absent(level), testmode).Ok? ==> Unlock(Absent(level), testmode).value == Absent(level)
  {
  }

  /** The pattern every mutating command follows: unlock, write one
      register, lock. */
  function Mutate(d: Device, testmode: bool, reg: int, v: Byte): Result<Device>
    requires SingleRegister(reg)
  {
    match Unlock(d, testmode)
    case Err(e) => Err(e)
    case Ok(u) => Ok(Lock(WriteOne(u, reg, v)))
  }

  /** `-Z`: unlock, write the clock-halt bit to the seconds register, lock. */
  function Halt(d: Device, testmode: bool): Result<Device>
  {
    Mutate(d, testmode, AddrSec, MaskHalt)
  }

  /** `-S addr data`: unlock, write one RAM byte, lock. */
  function SetRam(d: Device, testmode: bool, addr: nat, value: Byte): Result<Device>
    requires addr < RamRegCount()
  {
    Mutate(d, testmode, RamAddress(addr), value)
  }

  /** `-T setting`: unlock, write the trickle-charger register, lock. */
  function SetTcs(d: Device, testmode: bool, value: Byte): Result<Device>
  {
    Mutate(d, testmode, AddrTcs, value)
  }

  /** `-R`: a RAM burst read of all 31 bytes. */
  function ReadRam(d: Device): Result<seq<Byte>>
  {
    Read(d, AddrRamBurst, RamRegCount())
  }

  /** `-t`: read the trickle-charger register and name it from the table. */
  function ReadTcs(d: Device): Result<(Byte, Option<string>)>
  {
    var v := ReadOne(d, AddrTcs);
    Ok((v, DescribeTcs(v)))
  }

  /** On a chip, halting stops the oscillator with the seconds cleared and
      leaves the chip write-protected; in test mode only CTL is rewritten. */
  lemma HaltPresent(m: Mem, testmode: bool)
    ensures Halt(Present(m), testmode) ==
      Ok(Present(m.(clock := m.clock[0 := if testmode then m.clock[0] else MaskHalt][7 := MaskWp])))
  {
    var u := MutatePresent(m, testmode, AddrSec, MaskHalt);
    SecWrite(u, MaskHalt);
    var c := m.clock[0 := if testmode then m.clock[0] else MaskHalt][7 := MaskWp];
    if testmode {
      assert WithCtl(u, MaskWp).clock == c;
    } else {
      assert WithCtl(u.(clock := u.clock[0 := MaskHalt]), MaskWp).clock == c;
    }
  }

  /** On a chip the probe succeeds, the register is written to the chip as
      the probe left it, and WP is written last. */
  lemma MutatePresent(m: Mem, testmode: bool, reg: int, v: Byte) returns (u: Mem)
    requires SingleRegister(reg)
    ensures u == WithCtl(m, UnlockValue(testmode)) && (Protected(u) <==> testmode)
    ensures Mutate(Present(m), testmode, reg, v) == Ok(Present(WithCtl(MemWrite(u, reg % 0x100, [v]), MaskWp)))
  {
    UnlockPresent(m, testmode);
    u := WithCtl(m, UnlockValue(testmode));
    CtlWrite(MemWrite(u, reg % 0x100, [v]), MaskWp);
  }

  /** On a chip, setting a RAM byte changes that byte alone (none in test
      mode) and leaves the chip write-protected. */
  lemma SetRamPresent(m: Mem, testmode: bool, addr: nat, value: Byte)
    requires addr < RamRegCount()
    ensures SetRam(Present(m), testmode, addr, value) ==
      Ok(Present(m.(ram := if testmode then m.ram else m.ram[addr := value],
                    clock := m.clock[7 := MaskWp])))
  {
    var u := MutatePresent(m, testmode, RamAddress(addr), value);
    var s := MemWrite(u, RamAddress(addr), [value]);
    RamWrite(u, addr, value);
    assert WithCtl(s, MaskWp).clock == m.clock[7 := MaskWp];
  }

  /** On a chip, setting the trickle charger changes that register alone
      (nothing in test mode) and leaves the chip write-protected. */
  lemma SetTcsPresent(m: Mem, testmode: bool, value: Byte)
    ensures SetTcs(Present(m), testmode, value) ==
      Ok(Present(m.(tcs := if testmode then m.tcs else value, clock := m.clock[7 := MaskWp])))
  {
    var u := MutatePresent(m, testmode, AddrTcs, value);
    var s := MemWrite(u, AddrTcs, [value]);
    TcsWrite(u, value);
    assert WithCtl(s, MaskWp).clock == m.clock[7 := MaskWp];
  }

  /** The reads return the chip's registers and change nothing. */
  lemma ReadRamPresent(m: Mem)
    ensures ReadRam(Present(m)) == Ok(m.ram)
  {
    assert RamRegCount() == 31;
    ReadPresent(m, AddrRamBurst, RamRegCount());
    assert ReadCommand(AddrRamBurst) % 0x100 == AddrRamBurst + ReadFlag;
    assert Addressed(m, AddrRamBurst + ReadFlag) == m.ram;
    assert m.ram[..31] == m.ram;
  }

  lemma ReadTcsPresent(m: Mem)
    ensures ReadTcs(Present(m)) == Ok((m.tcs, DescribeTcs(m.tcs)))
  {
    var cmd := ReadCommand(AddrTcs) % 0x100;
    assert cmd == AddrTcs + ReadFlag;
    assert RegNumber(cmd) == 8;
    assert Addressed(m, cmd) == [m.tcs];
    assert TransferCount(AddrTcs, 1) == Ok(1);
    ReadPresent(m, AddrTcs, 1);
    assert ReadOne(Present(m), AddrTcs) == m.tcs;
  }

  /** Every mutating command fails with "No TOY detected" on a socket whose
      line floats high, and leaves a chip write-protected when it succeeds. */
  lemma MutatorsLock(d: Device, testmode: bool, addr: nat, value: Byte)
    requires addr < RamRegCount()
    ensures d == Absent(true) ==> Halt(d, testmode) == Err(NoToyDetected)
    ensures d == Absent(true) ==> SetRam(d, testmode, addr, value) == Err(NoToyDetected)
    ensures d == Absent(true) ==> SetTcs(d, testmode, value) == Err(NoToyDetected)
    ensures d.Present? ==> Halt(d, testmode).Ok? && Protected(Halt(d, testmode).value.mem)
    ensures d.Present? ==> SetRam(d, testmode, addr, value).Ok? && Protected(SetRam(d, testmode, addr, value).value.mem)
    ensures d.Present? ==> SetTcs(d, testmode, value).Ok? && Protected(SetTcs(d, testmode, value).value.mem)
  {
    if d.Present? {
      HaltPresent(d.mem, testmode);
      SetRamPresent(d.mem, testmode, addr, value);
      SetTcsPresent(d.mem, testmode, value);
    }
  }
}

=== FILE: dispatch.dfy ===
/** The second switch of `main` (rtc-ctl/rtc-ctl.c:586-644): the function
    chosen on the command line run against the chip, and the status the
    program exits with. `readUpdate` loads its calibration record itself;
    after a set that is the record `setTOY` just handed to `writeCalib`,
    read back from the file, so the two loads are separate parameters. */
module Dispatch {
  import opened Bytes
  import opened Registers
  import opened Results
  import opened Civil
  import opened ClockCodec
  import opened CalibFile
  import opened Chip
  import opened Transport
  import opened Toy
  import opened Commands
  import opened RamTest
  import opened Drift

  /** The function codes the options select (`F_READ` .. `F_TESTRAM`). */
  const FRead := 0
  const FSet := 1
  const FSetToSystem := 2
  const FUpdate := 3
  const FReadRam := 4
  const FSetRam := 5
  const FReadTcs := 6
  const FSetTcs := 7
  const FHalt := 8
  const FTestRam := 9

  /** `EX_OK` and `EX_SOFTWARE` from `sysexits.h`. */
  const ExitOk := 0
  const ExitSoftware := 70

  /** What a command reports besides the chip it leaves. */
  datatype Reply =
    | Done
    | Time(seconds: int)
    | RamData(data: seq<Byte>)
    | TcsSetting(value: Byte, name: Option<string>)

  /** A finished command: the device it leaves, the record it handed to
      `writeCalib` if any, and its reply or the error `main` exits with.
      The program exits only after the effects it has already had, so a
      failed command still leaves a device and possibly a record. */
  datatype Outcome = Outcome(device: Device, written: Option<Calib>, reply: Result<Reply>)

  /** What the commands read besides the device: the options, the records
      loaded from the calibration file before a set and by `readUpdate`,
      the host times `setTOY` takes, and a chip's answers to the clock burst
      reads after the first during the refit and during `readUpdate`; the
      first is read from the device itself. */
  datatype Env = Env(testmode: bool, twelve: bool, calrundays: nat, newt: int,
                     loaded: Calib, reloaded: Calib,
                     setBursts: nat -> ClockRegs, readBursts: nat -> ClockRegs,
                     timeBits: nat, start: real, end: real, setAt: real,
                     ramaddr: nat, value: Byte)

  /** The options `main` accepts: a RAM address below 31 for `-S`, and a
      `time_t` at least one bit wide. */
  predicate WellFormed(env: Env)
  {
    env.timeBits >= 1 && env.ramaddr < RamRegCount()
  }

  /** The status `main` exits with. */
  function ExitCode(o: Outcome): nat
  {
    match o.reply
    case Ok(_) => ExitOk
    case Err(e) => ExitStatus(e)
  }

  /** `readUpdate` run on the device with record `c`, after a set that
      handed `written` to `writeCalib`. */
  function ReadTime(d: Device, c: Calib, env: Env, written: Option<Calib>): Outcome
    requires env.timeBits >= 1
  {
    var t := ReadUpdate(c, Bursts(d, env.readBursts), env.timeBits);
    Outcome(d, written, if t.Ok? then Ok(Time(t.value)) else Err(t.error))
  }

  /** `setTOY` with the options and host times of `env`. */
  function SetClock(d: Device, env: Env): Result<(Device, Calib)>
    requires env.timeBits >= 1
  {
    SetToy(d, env.testmode, env.twelve, env.loaded, env.newt, env.calrundays,
           env.setBursts, env.timeBits, env.start, env.end, env.setAt)
  }

  /** `F_SET` and `F_SET2SYS`: `setTOY`, then falling through to
      `readUpdate`, which reads back the time just written. A failing
      `setTOY` exits before anything it wrote sticks (`WriteTimeFails`);
      once it has written the clock and handed its record to `writeCalib`,
      both stay whatever the read-back finds. */
  function SetThenRead(d: Device, env: Env): Outcome
    requires env.timeBits >= 1
  {
    match SetClock(d, env)
    case Err(e) => Outcome(d, None, Err(e))
    case Ok(wc) => ReadTime(wc.0, env.reloaded, env, Some(wc.1))
  }

  /** A command that only changes the chip, given the device it leaves if
      it fails. */
  function Changed(r: Result<Device>, left: Device): Outcome
  {
    match r
    case Err(e) => Outcome(left, None, Err(e))
    case Ok(w) => Outcome(w, None, Ok(Done))
  }

  /** The switch. Unknown function codes exit with `EX_SOFTWARE`. The
      commands that only read leave the device as it was; the ones that
      change it leave a chip write-protected; only a set hands a record to
      `writeCalib`, and it keeps the chip and record it wrote when the
      read-back fails; and the status is `EX_OK` exactly when the command
      succeeds. On an empty socket every command that touches the clock
      fails. */
  method Execute(code: int, d: Device, env: Env) returns (r: Outcome)
    requires WellFormed(env)
    ensures !(FRead <= code <= FTestRam) ==> r == Outcome(d, None, Err(InternalError)) && ExitCode(r) == ExitSoftware
    ensures ExitCode(r) == ExitOk <==> r.reply.Ok?
    ensures code == FSet || code == FSetToSystem ==> r == SetThenRead(d, env)
    ensures code == FRead || code == FUpdate ==> r == ReadTime(d, env.loaded, env, None)
    ensures code in {FRead, FUpdate, FReadRam, FReadTcs} ==> r.device == d
    ensures r.reply.Ok? && d.Present? && code in {FHalt, FSetRam, FSetTcs, FTestRam} ==>
      r.device.Present? && Protected(r.device.mem)
    ensures code in {FHalt, FSetRam, FSetTcs} && r.reply.Err? ==> r.device == d
    ensures code == FTestRam && r.reply.Err? ==> r.device == FailedState(d)
    ensures r.written.Some? ==> code == FSet || code == FSetToSystem
    ensures (code == FSet || code == FSetToSystem) && SetClock(d, env).Ok? ==>
      r.device == SetClock(d, env).value.0 && r.written == Some(SetClock(d, env).value.1)
    ensures (code == FSet || code == FSetToSystem) && SetClock(d, env).Err? ==>
      r == Outcome(d, None, Err(SetClock(d, env).error))
    ensures code == FReadRam && d.Present? ==> r == Outcome(d, None, Ok(RamData(d.mem.ram)))
    ensures code == FReadTcs && d.Present? ==>
      r == Outcome(d, None, Ok(TcsSetting(d.mem.tcs, DescribeTcs(d.mem.tcs))))
    ensures code == FTestRam ==> (r.reply.Ok? <==> d.Present? && !env.testmode)
    ensures code in {FHalt, FSetRam, FSetTcs, FTestRam} && d == Absent(true) ==> r.reply == Err(NoToyDetected)
    ensures code in {FRead, FUpdate} && d.Absent? ==> r.reply == Err(if d.level then NoToyDetected else NotRunning)
    ensures code in {FSet, FSetToSystem} && d.Absent? ==> r.reply.Err? && r.device == d
    ensures code in {FSet, FSetToSystem} && d == Absent(true) ==>
      r.reply.error == NoToyDetected || r.reply.error == ConversionFailed
  {
    if code in {FHalt, FSetRam, FSetTcs, FTestRam} {
      r := Change(code, d, env);
    } else if code == FSet || code == FSetToSystem {
      r := SetThenRead(d, env);
      SetAbsent(d, env);
    } else if code in {FRead, FUpdate, FReadRam, FReadTcs} {
      r := Query(code, d, env);
    } else {
      r := Outcome(d, None, Err(InternalError));
    }
    NoStatusZero(r);
  }

  /** The commands that change the chip: `-Z`, `-S`, `-T` and `-X`. A
      failing `-Z`, `-S` or `-T` fails at the probe, whose write left the
      device as it was; a failing `-X` has written WP to a chip's CTL. */
  method Change(code: int, d: Device, env: Env) returns (r: Outcome)
    requires WellFormed(env) && code in {FHalt, FSetRam, FSetTcs, FTestRam}
    ensures r.reply.Ok? && d.Present? ==> r.device.Present? && Protected(r.device.mem)
    ensures r.written.None?
    ensures code != FTestRam && r.reply.Err? ==> r.device == d
    ensures code == FTestRam && r.reply.Err? ==> r.device == FailedState(d)
    ensures code == FTestRam ==> (r.reply.Ok? <==> d.Present? && !env.testmode)
    ensures d == Absent(true) ==> r.reply == Err(NoToyDetected)
  {
    MutatorsLock(d, env.testmode, env.ramaddr, env.value);
    UnlockFailsUnchanged(d, env.testmode);
    var probed := WriteOne(d, AddrCtl, UnlockValue(env.testmode));
    if code == FHalt {
      r := Changed(Halt(d, env.testmode), probed);
    } else if code == FSetRam {
      r := Changed(SetRam(d, env.testmode, env.ramaddr, env.value), probed);
    } else if code == FSetTcs {
      r := Changed(SetTcs(d, env.testmode, env.value), probed);
    } else {
      var t, left := TestRam(d, env.testmode);
      r := Changed(t, left);
      if d.Present? && !env.testmode {
        assert Protected(Cleared(d.mem));
      }
    }
  }

  /** The commands that only read: `-r`, `-s`, `-R` and `-t`. */
  method Query(code: int, d: Device, env: Env) returns (r: Outcome)
    requires WellFormed(env) && code in {FRead, FUpdate, FReadRam, FReadTcs}
    ensures r.device == d && r.written.None?
    ensures code == FRead || code == FUpdate ==> r == ReadTime(d, env.loaded, env, None)
    ensures (code == FRead || code == FUpdate) && d.Absent? ==>
      r.reply == Err(if d.level then NoToyDetected else NotRunning)
    ensures code == FReadRam && d.Present? ==> r == Outcome(d, None, Ok(RamData(d.mem.ram)))
    ensures code == FReadTcs && d.Present? ==>
      r == Outcome(d, None, Ok(TcsSetting(d.mem.tcs, DescribeTcs(d.mem.tcs))))
  {
    if code == FRead || code == FUpdate {
      r := ReadTime(d, env.loaded, env, None);
      if d.Absent? {
        ReadUpdateAbsent(env.loaded, d.level, env.readBursts, env.timeBits);
      }
    } else if code == FReadRam {
      if d.Present? {
        ReadRamPresent(d.mem);
      }
      var data := ReadRam(d);
      r := Outcome(d, None, Ok(RamData(data.value)));
    } else {
      if d.Present? {
        ReadTcsPresent(d.mem);
      }
      var v := ReadTcs(d).value;
      r := Outcome(d, None, Ok(TcsSetting(v.0, v.1)));
    }
  }

  /** A set on an empty socket fails and leaves the socket as it was: a
      line floating high fails "No TOY detected" (or, for an adjusted time
      before year 0, the conversion), and one floating low survives the
      set, which stores nothing, but not the read-back, which finds the
      clock not running. */
  lemma SetAbsent(d: Device, env: Env)
    requires env.timeBits >= 1
    ensures d.Absent? ==> SetThenRead(d, env).reply.Err? && SetThenRead(d, env).device == d
    ensures d == Absent(true) ==>
      SetThenRead(d, env).reply.error == NoToyDetected || SetThenRead(d, env).reply.error == ConversionFailed
  {
    if d.Absent? {
      SetToyAbsent(d.level, env.testmode, env.twelve, env.loaded, env.newt, env.calrundays,
                   env.setBursts, env.timeBits, env.start, env.end, env.setAt);
      ReadUpdateAbsent(env.reloaded, d.level, env.readBursts, env.timeBits);
    }
  }

  /** Every failure exits with a nonzero status. */
  lemma NoStatusZero(r: Outcome)
    ensures ExitCode(r) == ExitOk <==> r.reply.Ok?
  {
  }

  /** The read-back after a set: on a chip outside test mode, with the
      adjusted time in 2000-2099, the set succeeds and the first burst
      `readUpdate` reads is the clock just written. That burst converts to
      the adjusted time and passes the "No TOY" and halt checks, so the
      read-back can only fail with "not running" or a conversion failure.
      Whatever it finds, the command leaves the chip holding the adjusted
      time and has handed the refitted record to `writeCalib`. */
  lemma SetReadsBack(m: Mem, env: Env, plan: Plan)
    requires env.timeBits == 64 && !env.testmode
    requires Refit(env.loaded, env.newt, env.calrundays, Bursts(Present(m), env.setBursts), 64,
                   env.start, env.end, env.setAt) == Ok(plan)
    requires YearStart(2000) <= plan.newt < YearStart(2100)
    ensures var r := SetThenRead(Present(m), env);
      && r.device.Present?
      && Bursts(r.device, env.readBursts)(0) == r.device.mem.clock
      && DecodeToy(r.device.mem.clock, 64) == Ok(plan.newt)
      && r.written == Some(plan.calib)
      && (r.reply.Err? ==> r.reply.error == NotRunning || r.reply.error == ConversionFailed)
  {
    SetToyPresent(m, env.twelve, env.loaded, env.newt, env.calrundays, env.setBursts,
                  env.start, env.end, env.setAt, plan);
    var s := SetClock(Present(m), env);
    WriteTimePresent(m, env.twelve, plan.newt);
    ReadPasses(s.value.0.mem, env.reloaded, env, Some(plan.calib));
  }

  /** A chip whose clock registers pass the "No TOY" and halt checks
      leaves only "not running" and a conversion failure as ways for
      `readUpdate` to fail. */
  lemma ReadPasses(m: Mem, c: Calib, env: Env, written: Option<Calib>)
    requires env.timeBits >= 1
    requires !NoToy(m.clock) && !Halted(m.clock)
    ensures var r := ReadTime(Present(m), c, env, written);
      r.reply.Err? ==> r.reply.error == NotRunning || r.reply.error == ConversionFailed
  {
    assert Bursts(Present(m), env.readBursts)(0) == m.clock;
  }

  /** A chip's own registers decide the "No TOY" and halt checks of a
      time read. */
  lemma ReadChecksChip(m: Mem, c: Calib, env: Env)
    requires env.timeBits >= 1
    ensures NoToy(m.clock) ==> ReadTime(Present(m), c, env, None).reply == Err(NoToyDetected)
    ensures !NoToy(m.clock) && Halted(m.clock) ==> ReadTime(Present(m), c, env, None).reply == Err(ToyHalted)
  {
    ReadUpdatePresent(c, m, env.readBursts, env.timeBits);
  }
}

=== FILE: drift.dfy ===
/** Drift calibration: the correction `readUpdate` applies to the time it
    reads (rtc-ctl/rtc-ctl.c:1057-1141) and the refit `setTOY` makes before
    writing a new time (rtc-ctl/rtc-ctl.c:937-1033).

    The drift rate is the clock's error per elapsed second: a clock that
    gains has a positive rate, one that loses a negative rate. `long double`
    arithmetic is idealised as exact `real` arithmetic; the two host clock
    readings `setTOY` takes and the start time are parameters, and the
    clock bursts are an oracle as in `Stabilise`. */
module Drift {
  import opened Results
  import opened Registers
  import opened Civil
  import opened ClockCodec
  import opened Stabilise
  import opened CalibFile
  import opened Chip
  import opened Toy
  import opened Commands

  /** C's conversion of a `long double` to `time_t`: truncation toward zero. */
  function Trunc(x: real): (n: int)
    ensures x >= 0.0 ==> n as real <= x < n as real + 1.0
    ensures x < 0.0 ==> n as real - 1.0 < x <= n as real
  {
    if x >= 0.0 then x.Floor else -((-x).Floor)
  }

  /** The elapsed time stretched by the rate: multiplied by `1 + |rate|`
      for a clock that loses, divided by `1 + rate` for one that gains. */
  function Adjusted(elapsed: real, rate: real): real
  {
    if rate < 0.0 then elapsed * (1.0 + -rate) else elapsed / (1.0 + rate)
  }

  /** The corrected time before rounding. */
  function CorrectedReal(c: Calib, toytime: int): real
  {
    c.lastset + Adjusted(toytime as real - c.lastset, c.driftrate)
  }

  /** The correction `readUpdate` applies to the clock's time: none without
      a valid record or with a zero rate, otherwise the corrected time
      plus one half, truncated. */
  function Correct(c: Calib, toytime: int): (t: int)
    ensures !c.valid || c.driftrate == 0.0 ==> t == toytime
  {
    if c.valid && c.driftrate != 0.0 then Trunc(CorrectedReal(c, toytime) + 0.5) else toytime
  }

  /** From the last set on, the correction moves a losing clock's time
      forward and a gaining clock's back, both before and after rounding;
      the result is the corrected time rounded to the nearest second,
      halves up. Host times before the epoch are not considered: there the
      conversion truncates toward zero rather than rounding. */
  lemma CorrectDirection(c: Calib, toytime: int)
    requires c.valid && c.lastset >= 0.0 && toytime as real >= c.lastset
    ensures c.driftrate < 0.0 ==> CorrectedReal(c, toytime) >= toytime as real && Correct(c, toytime) >= toytime
    ensures c.driftrate > 0.0 ==> CorrectedReal(c, toytime) <= toytime as real && Correct(c, toytime) <= toytime
    ensures c.driftrate != 0.0 ==>
      Correct(c, toytime) as real - 0.5 <= CorrectedReal(c, toytime) < Correct(c, toytime) as real + 0.5
  {
    var e := toytime as real - c.lastset;
    var r := c.driftrate;
    if r > 0.0 {
      DivideShrinks(e, 1.0 + r);
    } else if r < 0.0 {
      MultiplyGrows(e, 1.0 + -r);
    }
  }

  lemma DivideShrinks(e: real, d: real)
    requires e >= 0.0 && d >= 1.0
    ensures 0.0 <= e / d <= e
  {
    assert e / d * d == e;
    assert e / d >= 0.0;
    assert e / d * d >= e / d * 1.0;
  }

  lemma MultiplyGrows(e: real, d: real)
    requires e >= 0.0 && d >= 1.0
    ensures e * d >= e
  {
  }

  /** The rate the refit computes from the clock's time `toytime` at host
      time `end`: it makes the clock's elapsed time since the last set the
      true elapsed time stretched by `1 + rate`. */
  function RateFrom(lastset: real, end: real, toytime: real): (rate: real)
    requires end != lastset
    ensures toytime - lastset == (end - lastset) * (1.0 + rate)
  {
    var d := end - lastset;
    var rate := (toytime - end) / d;
    assert rate * d == toytime - end;
    rate
  }

  /** For a gaining clock the correction is exact: a clock that has run
      `elapsed * (1 + rate)` seconds since the last set is corrected to the
      last set plus `elapsed` seconds. */
  lemma CorrectsGain(c: Calib, toytime: int, elapsed: real)
    requires c.valid && c.driftrate > 0.0
    requires toytime as real - c.lastset == elapsed * (1.0 + c.driftrate)
    ensures CorrectedReal(c, toytime) == c.lastset + elapsed
  {
  }

  /** For a losing clock multiplying by `1 + |rate|` only approximates
      dividing by `1 + rate`: the corrected elapsed time falls short of the
      true one by the factor `1 - rate^2`. */
  lemma CorrectsLossApproximately(c: Calib, toytime: int, elapsed: real)
    requires c.valid && c.driftrate < 0.0
    requires toytime as real - c.lastset == elapsed * (1.0 + c.driftrate)
    ensures CorrectedReal(c, toytime) == c.lastset + elapsed * (1.0 - c.driftrate * c.driftrate)
    ensures elapsed > 0.0 ==> CorrectedReal(c, toytime) < c.lastset + elapsed
  {
    StretchLoss(elapsed, c.driftrate);
  }

  /** The stretch applied to a loss of `elapsed * (1 + r)` seconds. */
  lemma StretchLoss(e: real, r: real)
    requires r < 0.0
    ensures Adjusted(e * (1.0 + r), r) == e * (1.0 - r * r)
    ensures e > 0.0 ==> Adjusted(e * (1.0 + r), r) < e
  {
    assert Adjusted(e * (1.0 + r), r) == (e * (1.0 + r)) * (1.0 + -r);
    assert (e * (1.0 + r)) * (1.0 + -r) == e * (1.0 - r * r);
    if e > 0.0 {
      assert r * r > 0.0 by {
        assert r * r == (-r) * (-r);
      }
      assert e * (r * r) > 0.0;
      assert e * (1.0 - r * r) == e - e * (r * r);
    }
  }

  /** What every read of an empty socket returns: all ones when the IO
      line floats high, all zeros when it floats low. */
  function Floating(level: bool): (r: ClockRegs)
    ensures forall i :: 0 <= i < 8 ==> r[i] == (if level then 0xFF else 0)
  {
    seq(8, _ => if level then 0xFF else 0)
  }

  /** The clock bursts that successive `readTOY(TOY_CBURST, clkregs)` calls
      return from a device. The first is what a clock burst read of the
      device returns now. An empty socket answers every later read the
      same way. A chip's later answers are its registers as time moves them
      on; the model keeps no time, so they come from `ticks`. */
  function Bursts(d: Device, ticks: nat -> ClockRegs): (b: nat -> ClockRegs)
    ensures b(0) == Read(d, AddrClockBurst, ClockRegCount()).value
    ensures d.Absent? ==> forall i: nat :: b(i) == Floating(d.level)
    ensures d.Present? ==> b(0) == d.mem.clock && forall i: nat :: i > 0 ==> b(i) == ticks(i)
  {
    match d
    case Present(m) =>
      ClockReadPresent(m);
      i => if i == 0 then m.clock else ticks(i)
    case Absent(level) =>
      assert Read(d, AddrClockBurst, ClockRegCount()).value == Floating(level);
      _ => Floating(level)
  }

  /** `readUpdate` up to the corrected time: one burst, the "No TOY" and halt
      checks on it, the stabilised read, the not-running check, the
      conversion and the correction. */
  function ReadUpdate(c: Calib, burst: nat -> ClockRegs, timeBits: nat): (r: Result<int>)
    requires timeBits >= 1
  {
    var r0 := burst(0);
    if NoToy(r0) then Err(NoToyDetected)
    else if Halted(r0) then Err(ToyHalted)
    else
      var s := Stable(burst, 0);
      if s.counter >= MaxReads then Err(NotRunning) else CorrectedTime(c, s.regs, timeBits)
  }

  /** The settled burst converted to epoch seconds and corrected. */
  function CorrectedTime(c: Calib, regs: ClockRegs, timeBits: nat): (r: Result<int>)
    requires timeBits >= 1
    ensures r.Ok? <==> DecodeToy(regs, timeBits).Ok?
    ensures r.Ok? ==> r.value == Correct(c, DecodeToy(regs, timeBits).value)
    ensures r.Err? ==> r.error == ConversionFailed
  {
    match DecodeToy(regs, timeBits)
    case Err(e) => Err(e)
    case Ok(t) => Ok(Correct(c, t))
  }

  /** The checks `readUpdate` makes, in order: "No TOY" and halt on the
      first burst, then "not running" exactly when none of the first
      `TOY_MAX_READS` passes sees the seconds change. */
  lemma ReadUpdateChecks(c: Calib, burst: nat -> ClockRegs, timeBits: nat)
    requires timeBits >= 1
    ensures NoToy(burst(0)) ==> ReadUpdate(c, burst, timeBits) == Err(NoToyDetected)
    ensures !NoToy(burst(0)) && Halted(burst(0)) ==> ReadUpdate(c, burst, timeBits) == Err(ToyHalted)
    ensures !NoToy(burst(0)) && !Halted(burst(0)) ==>
      (ReadUpdate(c, burst, timeBits) == Err(NotRunning) <==> forall q :: 0 <= q < MaxReads ==> !Breaks(burst, q))
  {
    NotRunningIff(burst);
  }

  /** Once the chip is present and not halted, `readUpdate` reports the
      corrected time of the second burst of the first pass that saw the
      seconds change, when that pass is one of the first `TOY_MAX_READS`. */
  lemma ReadUpdateValue(c: Calib, burst: nat -> ClockRegs, timeBits: nat, p: nat)
    requires timeBits >= 1
    requires !NoToy(burst(0)) && !Halted(burst(0))
    requires FirstBreak(burst, p)
    ensures ReadUpdate(c, burst, timeBits) == CorrectedTime(c, burst(2 * p + 1), timeBits)
  {
    FirstBreakStops(burst, p, 0);
  }

  /** `readUpdate` on an empty socket fails: a line that floats high
      fails the "No TOY" check, and one that floats low reads a clock that
      never ticks, so it is reported as not running. */
  lemma ReadUpdateAbsent(c: Calib, level: bool, ticks: nat -> ClockRegs, timeBits: nat)
    requires timeBits >= 1
    ensures ReadUpdate(c, Bursts(Absent(level), ticks), timeBits) ==
      if level then Err(NoToyDetected) else Err(NotRunning)
  {
    var b := Bursts(Absent(level), ticks);
    ReadUpdateChecks(c, b, timeBits);
    assert b(0)[Offset(AddrMonth)] == b(0)[4];
    if !level {
      assert b(0)[Offset(AddrSec)] == b(0)[0];
      forall q | 0 <= q < MaxReads
        ensures !Breaks(b, q)
      {
        assert b(2 * q) == b(2 * q + 1);
      }
    }
  }

  /** `readUpdate` on a chip checks the registers the chip holds: "No TOY"
      when the must-be-zero bits of its month register are set, "halted"
      when its clock-halt bit is set. */
  lemma ReadUpdatePresent(c: Calib, m: Mem, ticks: nat -> ClockRegs, timeBits: nat)
    requires timeBits >= 1
    ensures NoToy(m.clock) ==> ReadUpdate(c, Bursts(Present(m), ticks), timeBits) == Err(NoToyDetected)
    ensures !NoToy(m.clock) && Halted(m.clock) ==>
      ReadUpdate(c, Bursts(Present(m), ticks), timeBits) == Err(ToyHalted)
  {
    ReadUpdateChecks(c, Bursts(Present(m), ticks), timeBits);
  }

  /** Seconds in `calrundays` days, as the `unsigned long` product the
      program computes. The driver is built for 32-bit ARM (its register
      accessors use the ARMv6 `mcr p15` barrier), where `unsigned long` is
      32 bits wide, so the product wraps modulo `2^32`. */
  function RunSeconds(calrundays: nat): nat
  {
    (calrundays * SecondsPerDay) % 0x1_0000_0000
  }

  /** The refit runs only for a valid record whose last set lies more than
      the minimum run before the requested time. */
  predicate Due(c: Calib, newt: int, calrundays: nat)
  {
    c.valid && newt as real > c.lastset + RunSeconds(calrundays) as real
  }

  /** The record and the requested time `setTOY` goes on with. */
  datatype Plan = Plan(calib: Calib, newt: int)

  /** The rate `setTOY` goes on with: a fresh measurement when the refit is
      due and the chip answers, runs and settles, otherwise the loaded
      rate. `end` is the host time taken after the stabilised read. When
      it equals the last set the program divides by zero; the model keeps
      the loaded rate there. */
  function RefitRate(c: Calib, newt: int, calrundays: nat, burst: nat -> ClockRegs, timeBits: nat, end: real): (r: Result<real>)
    requires timeBits >= 1
  {
    if !Due(c, newt, calrundays) then Ok(c.driftrate)
    else if NoToy(burst(0)) then Err(NoToyDetected)
    else if Halted(burst(0)) then Ok(c.driftrate)
    else
      var s := Stable(burst, 0);
      if s.counter >= MaxReads then Ok(c.driftrate) else Measured(c, s.regs, timeBits, end)
  }

  /** The rate measured from the settled burst: the clock's error at `end`
      over the time since the last set. */
  function Measured(c: Calib, regs: ClockRegs, timeBits: nat, end: real): (r: Result<real>)
    requires timeBits >= 1
  {
    match DecodeToy(regs, timeBits)
    case Err(e) => Err(e)
    case Ok(toy) =>
      if end == c.lastset then Ok(c.driftrate)
      else Ok(RateFrom(c.lastset, end, toy as real))
  }

  /** `setTOY` up to the write: the refit, then the time of this set
      (`setAt`, the host time taken after `end`) recorded and the requested
      time moved on by the time spent since `start`. */
  function Refit(c: Calib, newt: int, calrundays: nat, burst: nat -> ClockRegs, timeBits: nat,
                 start: real, end: real, setAt: real): (r: Result<Plan>)
    requires timeBits >= 1
  {
    match RefitRate(c, newt, calrundays, burst, timeBits, end)
    case Err(e) => Err(e)
    case Ok(d) => Ok(Plan(Calib(setAt, d, true), Trunc(newt as real + (setAt - start))))
  }

  /** The conditions under which the refit measures a new rate. */
  predicate Measures(c: Calib, newt: int, calrundays: nat, burst: nat -> ClockRegs)
  {
    Due(c, newt, calrundays) && !NoToy(burst(0)) && !Halted(burst(0)) && Stable(burst, 0).counter < MaxReads
  }

  /** Whatever the rate, a successful refit records the second host time as
      the last set, marks the record valid and moves the requested time on
      by the time spent, truncated to whole seconds. */
  lemma RefitRecords(c: Calib, newt: int, calrundays: nat, burst: nat -> ClockRegs, timeBits: nat,
                     start: real, end: real, setAt: real)
    requires timeBits >= 1
    ensures var r := Refit(c, newt, calrundays, burst, timeBits, start, end, setAt);
      var rate := RefitRate(c, newt, calrundays, burst, timeBits, end);
      && (r.Err? <==> rate.Err?)
      && (r.Ok? ==> r.value.calib == Calib(setAt, rate.value, true))
      && (r.Ok? && newt as real + (setAt - start) >= 0.0 ==>
            r.value.newt as real <= newt as real + (setAt - start) < r.value.newt as real + 1.0)
  {
  }

  /** The refit fails only when it was due, and then with "No TOY" exactly
      when the month bits say so, or when it measured and could not convert
      the chip's time. */
  lemma RefitErrors(c: Calib, newt: int, calrundays: nat, burst: nat -> ClockRegs, timeBits: nat, end: real)
    requires timeBits >= 1
    ensures var r := RefitRate(c, newt, calrundays, burst, timeBits, end);
      && (Due(c, newt, calrundays) && NoToy(burst(0)) ==> r == Err(NoToyDetected))
      && (r.Err? && r.error == NoToyDetected ==> Due(c, newt, calrundays) && NoToy(burst(0)))
      && (r.Err? && r.error != NoToyDetected ==> Measures(c, newt, calrundays, burst) && r.error == ConversionFailed)
  {
    var r := RefitRate(c, newt, calrundays, burst, timeBits, end);
    if r.Err? && !NoToy(burst(0)) {
      MeasureFails(c, Stable(burst, 0).regs, timeBits, end);
    }
  }

  /** The loaded rate is kept unless the refit was due and the chip
      answered, was running and settled. */
  lemma RefitKeeps(c: Calib, newt: int, calrundays: nat, burst: nat -> ClockRegs, timeBits: nat, end: real)
    requires timeBits >= 1
    requires !Measures(c, newt, calrundays, burst)
    requires !(Due(c, newt, calrundays) && NoToy(burst(0)))
    ensures RefitRate(c, newt, calrundays, burst, timeBits, end) == Ok(c.driftrate)
  {
  }

  /** When it measures, the rate comes from the settled burst. */
  lemma RefitMeasures(c: Calib, newt: int, calrundays: nat, burst: nat -> ClockRegs, timeBits: nat, end: real)
    requires timeBits >= 1
    requires Measures(c, newt, calrundays, burst)
    ensures RefitRate(c, newt, calrundays, burst, timeBits, end) == Measured(c, Stable(burst, 0).regs, timeBits, end)
  {
  }

  /** A burst that cannot be converted fails the set. */
  lemma MeasureFails(c: Calib, regs: ClockRegs, timeBits: nat, end: real)
    requires timeBits >= 1
    ensures Measured(c, regs, timeBits, end).Err? <==> DecodeToy(regs, timeBits).Err?
    ensures DecodeToy(regs, timeBits).Err? ==> Measured(c, regs, timeBits, end) == Err(ConversionFailed)
  {
  }

  /** A burst that converts, read at a host time after the last set, yields
      the rate that explains the clock's time at that host time. */
  lemma MeasuredRate(c: Calib, regs: ClockRegs, timeBits: nat, end: real)
    requires timeBits >= 1
    requires DecodeToy(regs, timeBits).Ok? && end != c.lastset
    ensures Measured(c, regs, timeBits, end) == Ok(RateFrom(c.lastset, end, DecodeToy(regs, timeBits).value as real))
  {
  }

  /** A record that is not valid, such as one whose checks failed after its
      rate was parsed, never triggers a refit, so `setTOY` carries that rate
      into the record it writes. */
  lemma InvalidCarriesRate(c: Calib, newt: int, calrundays: nat, burst: nat -> ClockRegs, timeBits: nat,
                           start: real, end: real, setAt: real)
    requires timeBits >= 1 && !c.valid
    ensures Refit(c, newt, calrundays, burst, timeBits, start, end, setAt) ==
      Ok(Plan(Calib(setAt, c.driftrate, true), Trunc(newt as real + (setAt - start))))
  {
  }

  /** `setTOY` from `gmtime_r` on: the clock burst encoded in the chosen
      hour mode, the unlock probe and the burst written with gather. A
      date before year 0 is reported as a conversion failure. */
  function WriteTime(d: Device, testmode: bool, twelve: bool, e: int): (r: Result<Device>)
    ensures r.Err? ==> r.error == ConversionFailed || r.error == NoToyDetected
  {
    var t := GmTime(e);
    if !Encodable(t) then Err(ConversionFailed)
    else
      match Unlock(d, testmode)
      case Err(err) => Err(err)
      case Ok(u) => Ok(WriteClock(u, EncodeClock(t, twelve)))
  }

  /** Writing the time fails either before anything is written, on a time
      that does not convert, or at the unlock probe, which fails only on an
      empty socket, where the probe's write changes nothing. Either way the
      device is as it was; the clock burst is written only after both. */
  lemma WriteTimeFails(d: Device, testmode: bool, twelve: bool, e: int)
    ensures WriteTime(d, testmode, twelve, e).Err? ==>
      || (!Encodable(GmTime(e)) && WriteTime(d, testmode, twelve, e) == Err(ConversionFailed))
      || (Unlock(d, testmode).Err? && WriteOne(d, AddrCtl, UnlockValue(testmode)) == d)
  {
    UnlockFailsUnchanged(d, testmode);
  }

  /** `setTOY` as a whole: the refit on the bursts read from the device,
      with `burst` supplying a chip's later answers, then the adjusted time
      written. The record returned is the one `writeCalib` receives. */
  function SetToy(d: Device, testmode: bool, twelve: bool, c: Calib, newt: int, calrundays: nat,
                  burst: nat -> ClockRegs, timeBits: nat, start: real, end: real, setAt: real): (r: Result<(Device, Calib)>)
    requires timeBits >= 1
  {
    match Refit(c, newt, calrundays, Bursts(d, burst), timeBits, start, end, setAt)
    case Err(e) => Err(e)
    case Ok(plan) =>
      match WriteTime(d, testmode, twelve, plan.newt)
      case Err(e) => Err(e)
      case Ok(w) => Ok((w, plan.calib))
  }

  /** A clock burst written to an unlocked chip is stored whole, write
      protect included; a locked chip ignores it. */
  lemma BurstWrite(m: Mem, regs: ClockRegs)
    requires regs[7] == MaskWp
    ensures MemWrite(m, AddrClockBurst, regs) == if Protected(m) then m else m.(clock := regs)
  {
    assert RegNumber(AddrClockBurst) == 31 && !IsRam(AddrClockBurst);
    assert regs[..7] + [CtlStored(regs[7])] == regs;
  }

  /** On a chip, outside test mode, a time within 2000-2099 is stored as
      its clock burst, which leaves the chip write-protected and reads back
      as exactly that time. */
  lemma WriteTimePresent(m: Mem, twelve: bool, e: int)
    requires YearStart(2000) <= e < YearStart(2100)
    ensures Encodable(GmTime(e))
    ensures WriteTime(Present(m), false, twelve, e) == Ok(Present(m.(clock := EncodeClock(GmTime(e), twelve))))
    ensures Protected(m.(clock := EncodeClock(GmTime(e), twelve)))
    ensures DecodeToy(EncodeClock(GmTime(e), twelve), 64) == Ok(e)
  {
    ClockRoundTrip(e, twelve);
    var regs := EncodeClock(GmTime(e), twelve);
    UnlockPresent(m, false);
    BurstWrite(WithCtl(m, UnlockValue(false)), regs);
  }

  /** In test mode the probe leaves write protect set, so the burst is
      ignored and the chip's time is untouched. */
  lemma WriteTimeTestMode(m: Mem, twelve: bool, e: int)
    requires Encodable(GmTime(e))
    ensures WriteTime(Present(m), true, twelve, e) == Ok(Present(m.(clock := m.clock[7 := MaskWp])))
  {
    var regs := EncodeClock(GmTime(e), twelve);
    UnlockPresent(m, true);
    BurstWrite(WithCtl(m, UnlockValue(true)), regs);
  }

  /** On a chip, a set whose adjusted time falls within 2000-2099 succeeds,
      hands the refitted record to `writeCalib`, and leaves the chip holding
      exactly the adjusted time. */
  lemma SetToyPresent(m: Mem, twelve: bool, c: Calib, newt: int, calrundays: nat,
                      burst: nat -> ClockRegs, start: real, end: real, setAt: real, plan: Plan)
    requires Refit(c, newt, calrundays, Bursts(Present(m), burst), 64, start, end, setAt) == Ok(plan)
    requires YearStart(2000) <= plan.newt < YearStart(2100)
    ensures var r := SetToy(Present(m), false, twelve, c, newt, calrundays, burst, 64, start, end, setAt);
      && r.Ok? && r.value.1 == plan.calib && r.value.0.Present?
      && DecodeToy(r.value.0.mem.clock, 64) == Ok(plan.newt)
  {
    WriteTimePresent(m, twelve, plan.newt);
  }

  /** `setTOY` on an empty socket never stores anything. When the line
      floats high it fails "No TOY detected": in the refit when one is due,
      otherwise at the unlock probe, unless the adjusted time is before
      year 0 and fails to convert first. */
  lemma SetToyAbsent(level: bool, testmode: bool, twelve: bool, c: Calib, newt: int, calrundays: nat,
                     burst: nat -> ClockRegs, timeBits: nat, start: real, end: real, setAt: real)
    requires timeBits >= 1
    ensures var r := SetToy(Absent(level), testmode, twelve, c, newt, calrundays, burst, timeBits, start, end, setAt);
      && (r.Ok? ==> r.value.0 == Absent(level))
      && (level && Due(c, newt, calrundays) ==> r == Err(NoToyDetected))
      && (level && !Due(c, newt, calrundays) ==>
            r == if Encodable(GmTime(Trunc(newt as real + (setAt - start)))) then Err(NoToyDetected) else Err(ConversionFailed))
  {
    var b := Bursts(Absent(level), burst);
    assert b(0)[Offset(AddrMonth)] == b(0)[4];
    UnlockAbsent(level, testmode);
    if level && Due(c, newt, calrundays) {
      assert NoToy(b(0));
    }
  }
}

=== FILE: gpio.dfy ===
/** The BCM2835 GPIO accesses the driver makes: the pin macros of
    rtc-ctl/rtc-ctl.h:264-306, `gpio_fsel` (rtc-ctl/rtc-ctl.c:1984-1996) and
    the default pins (rtc-ctl/rtc-ctl.c:74-82).

    Registers are 32-bit words and pin numbers `uint8_t`, so both are
    bit-vectors here. A macro is the list of accesses it makes; `RDREG` and
    `WRREG` put a barrier on each side of their load or store, the `NB_`
    forms do not. The peripheral is reduced to the function-select words and
    the two level words, with pins taken to be outputs: a store to a set
    word raises the pins whose bits it holds and one to a clear word lowers
    them. */
module Gpio {

  type Word = bv32
  type Pin = bv8

  /** The register files the macros address (`gpio->fsel`, `set`, `clr`,
      `level`). */
  datatype RegFile = Fsel | Set | Clr | Level

  datatype Access =
    | Barrier
    | Load(file: RegFile, index: nat)
    | Store(file: RegFile, index: nat, value: Word)

  /** `WRREG` and `RDREG`. */
  function WrReg(file: RegFile, index: nat, value: Word): seq<Access>
  {
    [Barrier, Store(file, index, value), Barrier]
  }

  function RdReg(file: RegFile, index: nat): seq<Access>
  {
    [Barrier, Load(file, index), Barrier]
  }

  /** The word of a set, clear or level pair that holds the pin:
      `((pin) & 0x20) ? 1 : 0`. */
  function BankOf(pin: Pin): (b: nat)
    ensures b < 2
  {
    if pin & 0x20 != 0 then 1 else 0
  }

  /** The pin's bit within that word: `1 << ((pin) & 0x1F)`. */
  function MaskOf(pin: Pin): Word
  {
    1 << ((pin & 0x1F) as Word)
  }

  /** `GPIO_SET(pin)`: the pin's mask stored to its bank's set word. */
  function GpioSet(pin: Pin): seq<Access>
  {
    WrReg(Set, BankOf(pin), MaskOf(pin))
  }

  /** `GPIO_CLR(pin)`: the pin's mask stored to its bank's clear word. */
  function GpioClr(pin: Pin): seq<Access>
  {
    WrReg(Clr, BankOf(pin), MaskOf(pin))
  }

  /** `GPIO_SET_TO`: any nonzero value sets the pin. */
  function GpioSetTo(pin: Pin, value: int): seq<Access>
  {
    if value != 0 then GpioSet(pin) else GpioClr(pin)
  }

  /** The accesses of `GPIO_IS_SET` and the test it makes on the word it
      loads. */
  function GpioIsSetReads(pin: Pin): seq<Access>
  {
    RdReg(Level, BankOf(pin))
  }

  predicate BitSet(word: Word, pin: Pin)
  {
    word & MaskOf(pin) != 0
  }

  function NbGpioSet(pin: Pin): seq<Access>
  {
    [Store(Set, BankOf(pin), MaskOf(pin))]
  }

  function NbGpioClr(pin: Pin): seq<Access>
  {
    [Store(Clr, BankOf(pin), MaskOf(pin))]
  }

  function NbGpioSetTo(pin: Pin, value: int): seq<Access>
  {
    if value != 0 then NbGpioSet(pin) else NbGpioClr(pin)
  }

  function NbGpioIsSetReads(pin: Pin): seq<Access>
  {
    [Load(Level, BankOf(pin))]
  }

  /** The accesses without their barriers. */
  function Unfenced(acc: seq<Access>): (r: seq<Access>)
    ensures Barrier !in r
  {
    if acc == [] then []
    else if acc[0] == Barrier then Unfenced(acc[1..])
    else [acc[0]] + Unfenced(acc[1..])
  }

  /** The barrier-free macros make the same loads and stores, at the same
      bank with the same mask, as the ones with barriers; `SET_TO` routes a
      nonzero value to the set word and zero to the clear word. */
  lemma NoBarrierSame(pin: Pin, value: int)
    ensures Unfenced(GpioSet(pin)) == NbGpioSet(pin)
    ensures Unfenced(GpioClr(pin)) == NbGpioClr(pin)
    ensures Unfenced(GpioSetTo(pin, value)) == NbGpioSetTo(pin, value)
    ensures Unfenced(GpioIsSetReads(pin)) == NbGpioIsSetReads(pin)
    ensures NbGpioSetTo(pin, value)[0].file == (if value != 0 then Set else Clr)
  {
    UnfencedOne(Store(Set, BankOf(pin), MaskOf(pin)));
    UnfencedOne(Store(Clr, BankOf(pin), MaskOf(pin)));
    UnfencedOne(Load(Level, BankOf(pin)));
  }

  lemma UnfencedOne(a: Access)
    requires a != Barrier
    ensures Unfenced([Barrier, a, Barrier]) == [a]
  {
    assert [Barrier, a, Barrier][1..] == [a, Barrier];
    assert [a, Barrier][1..] == [Barrier];
    assert [Barrier][1..] == [];
    assert Unfenced([Barrier]) == [];
    assert Unfenced([a, Barrier]) == [a];
  }

  /** The peripheral state the macros act on. */
  datatype Regs = Regs(fsel: seq<Word>, level: seq<Word>)

  predicate Shaped(g: Regs)
  {
    |g.fsel| == 6 && |g.level| == 2
  }

  /** What an access does to the peripheral. */
  function Apply(g: Regs, a: Access): (r: Regs)
    requires Shaped(g)
    ensures Shaped(r)
  {
    match a
    case Store(Set, i, v) => if i < 2 then g.(level := g.level[i := Raise(g.level[i], v)]) else g
    case Store(Clr, i, v) => if i < 2 then g.(level := g.level[i := Lower(g.level[i], v)]) else g
    case Store(Fsel, i, v) => if i < 6 then g.(fsel := g.fsel[i := v]) else g
    case _ => g
  }

  /** A set word's bits raised in a level word, a clear word's lowered. */
  function Raise(x: Word, m: Word): Word
  {
    x | m
  }

  function Lower(x: Word, m: Word): Word
  {
    x & !m
  }

  function ApplyAll(g: Regs, acc: seq<Access>): (r: Regs)
    requires Shaped(g)
    ensures Shaped(r)
    decreases |acc|
  {
    if acc == [] then g else ApplyAll(Apply(g, acc[0]), acc[1..])
  }

  /** Whether `GPIO_IS_SET(pin)` is true. */
  predicate IsSet(g: Regs, pin: Pin)
    requires Shaped(g)
  {
    BitSet(g.level[BankOf(pin)], pin)
  }

  /** Two pin numbers name the same pin when their bank and bit agree. */
  predicate SamePin(p: Pin, q: Pin)
  {
    BankOf(p) == BankOf(q) && MaskOf(p) == MaskOf(q)
  }

  /** Below 64, pins with the same bank and bit are equal. */
  lemma SamePinEqual(p: Pin, q: Pin)
    requires p < 64 && q < 64
    ensures SamePin(p, q) <==> p == q
  {
    if SamePin(p, q) && p & 0x1F != q & 0x1F {
      ShiftDistinct((p & 0x1F) as Word, (q & 0x1F) as Word);
    }
  }

  lemma ShiftDistinct(a: Word, b: Word)
    requires a < 32 && b < 32 && a != b
    ensures (1 as Word) << a != (1 as Word) << b
  {
  }

  /** A store between barriers does what the store alone does. */
  lemma Fenced(g: Regs, file: RegFile, i: nat, v: Word)
    requires Shaped(g)
    ensures ApplyAll(g, WrReg(file, i, v)) == Apply(g, Store(file, i, v))
  {
    var a := Store(file, i, v);
    assert WrReg(file, i, v)[1..] == [a, Barrier];
    assert [a, Barrier][1..] == [Barrier];
    assert [Barrier][1..] == [];
    assert ApplyAll(Apply(g, a), [Barrier]) == Apply(g, a);
  }

  /** The level word a `GPIO_SET_TO` leaves: the mask or-ed in for a
      nonzero value, its complement and-ed in for zero. */
  function Drive(x: Word, m: Word, value: int): Word
  {
    if value != 0 then Raise(x, m) else Lower(x, m)
  }

  /** `GPIO_SET_TO` drives the level word of the pin's bank ... */
  lemma SetToBank(g: Regs, pin: Pin, value: int)
    requires Shaped(g)
    ensures ApplyAll(g, GpioSetTo(pin, value)).level[BankOf(pin)]
      == Drive(g.level[BankOf(pin)], MaskOf(pin), value)
  {
    var b, m := BankOf(pin), MaskOf(pin);
    assert GpioSetTo(pin, value) == WrReg(if value != 0 then Set else Clr, b, m);
    if value != 0 {
      Fenced(g, Set, b, m);
      SetApply(g, b, m);
    } else {
      Fenced(g, Clr, b, m);
      ClrApply(g, b, m);
    }
  }

  /** ... and leaves the other bank's as it was. */
  lemma SetToOtherBank(g: Regs, pin: Pin, value: int)
    requires Shaped(g)
    ensures ApplyAll(g, GpioSetTo(pin, value)).level[1 - BankOf(pin)]
      == g.level[1 - BankOf(pin)]
  {
    var b, m := BankOf(pin), MaskOf(pin);
    var file := if value != 0 then Set else Clr;
    assert GpioSetTo(pin, value) == WrReg(file, b, m);
    Fenced(g, file, b, m);
    OtherBankApply(g, file, b, m);
  }

  /** A store to a set word ors into the level word, one to a clear word
      clears its bits there, and neither touches the other level word. */
  lemma SetApply(g: Regs, b: nat, m: Word)
    requires Shaped(g) && b < 2
    ensures Apply(g, Store(Set, b, m)).level[b] == Raise(g.level[b], m)
  {
  }

  lemma ClrApply(g: Regs, b: nat, m: Word)
    requires Shaped(g) && b < 2
    ensures Apply(g, Store(Clr, b, m)).level[b] == Lower(g.level[b], m)
  {
  }

  lemma OtherBankApply(g: Regs, file: RegFile, b: nat, m: Word)
    requires Shaped(g) && b < 2
    ensures Apply(g, Store(file, b, m)).level[1 - b] == g.level[1 - b]
  {
  }

  /** `GPIO_IS_SET` tests exactly the bit `GPIO_SET` and `GPIO_CLR` write:
      after a set the pin reads as set and after a clear as clear. */
  lemma SetClrIsSet(g: Regs, pin: Pin, value: int)
    requires Shaped(g)
    ensures IsSet(ApplyAll(g, GpioSetTo(pin, value)), pin) <==> value != 0
  {
    var b, m := BankOf(pin), MaskOf(pin);
    SetToBank(g, pin, value);
    OneBit(pin);
    DriveSelf(g.level[b], m, value);
  }

  /** Every other pin reads as it did before. */
  lemma SetClrOthers(g: Regs, pin: Pin, q: Pin, value: int)
    requires Shaped(g) && !SamePin(q, pin)
    ensures IsSet(ApplyAll(g, GpioSetTo(pin, value)), q) <==> IsSet(g, q)
  {
    var b, m := BankOf(pin), MaskOf(pin);
    SetToBank(g, pin, value);
    SetToOtherBank(g, pin, value);
    if BankOf(q) == b {
      DisjointMasks(pin, q);
      DriveOther(g.level[b], m, MaskOf(q), value);
    }
  }

  lemma DriveSelf(x: Word, m: Word, value: int)
    requires m != 0
    ensures Drive(x, m, value) & m != 0 <==> value != 0
  {
    if value != 0 {
      SetBit(x, m);
    } else {
      ClearBit(x, m);
    }
  }

  lemma DriveOther(x: Word, m: Word, n: Word, value: int)
    requires m & n == 0
    ensures Drive(x, m, value) & n == x & n
  {
    if value != 0 {
      RaiseOther(x, m, n);
    } else {
      LowerOther(x, m, n);
    }
  }

  /** Or-ing a mask in sets its bits, and-ing its complement clears them,
      and bits outside it are untouched either way. */
  lemma SetBit(x: Word, m: Word)
    requires m != 0
    ensures Raise(x, m) & m != 0
  {
  }

  lemma ClearBit(x: Word, m: Word)
    ensures Lower(x, m) & m == 0
  {
  }

  lemma RaiseOther(x: Word, m: Word, n: Word)
    requires m & n == 0
    ensures Raise(x, m) & n == x & n
  {
  }

  lemma LowerOther(x: Word, m: Word, n: Word)
    requires m & n == 0
    ensures Lower(x, m) & n == x & n
  {
  }

  /** Each mask has a bit set. */
  lemma OneBit(pin: Pin)
    ensures MaskOf(pin) != 0
  {
    assert pin & 0x1F < 32;
  }

  lemma DisjointMasks(p: Pin, q: Pin)
    requires MaskOf(p) != MaskOf(q)
    ensures MaskOf(p) & MaskOf(q) == 0
  {
    ShiftDisjoint((p & 0x1F) as Word, (q & 0x1F) as Word);
  }

  lemma ShiftDisjoint(a: Word, b: Word)
    requires a < 32 && b < 32 && a != b
    ensures ((1 as Word) << a) & ((1 as Word) << b) == 0
  {
  }

  /** Function-select codes (`GPIO_FSEL`): three bits per pin. */
  const FselInput: bv8 := 0x0
  const FselOutput: bv8 := 0x1
  const FselAlt0: bv8 := 0x4
  const FselAlt1: bv8 := 0x5
  const FselAlt2: bv8 := 0x6
  const FselAlt3: bv8 := 0x7
  const FselAlt4: bv8 := 0x3
  const FselAlt5: bv8 := 0x2
  const FselMask: bv8 := 0x7

  const FselCodes: seq<bv8> := [FselInput, FselOutput, FselAlt0, FselAlt1, FselAlt2, FselAlt3, FselAlt4, FselAlt5]

  /** The eight codes are distinct and each fits the three-bit field, so
      they are exactly the values a field can hold. */
  lemma FselCodesDistinct()
    ensures forall i, j :: 0 <= i < j < |FselCodes| ==> FselCodes[i] != FselCodes[j]
    ensures forall i :: 0 <= i < |FselCodes| ==> FselCodes[i] & !FselMask == 0
  {
  }

  /** Where a pin's field lies: word `pin / 10`, bits `3 * (pin % 10)` on. */
  function FselWord(pin: Pin): (n: nat)
    requires pin < 60
    ensures n < 6
  {
    if pin < 10 then 0 else if pin < 20 then 1 else if pin < 30 then 2
    else if pin < 40 then 3 else if pin < 50 then 4 else 5
  }

  /** The word is the quotient `gpio_fsel` computes. */
  lemma FselWordQuotient(pin: Pin)
    requires pin < 60
    ensures FselWord(pin) as bv8 == pin / 10
  {
  }

  function FselShift(pin: Pin): (s: Word)
    ensures s <= 27
  {
    ((pin % 10) * 3) as Word
  }

  /** `gpio_fsel`: clear the pin's field and or in the mode. */
  function GpioFsel(g: Regs, pin: Pin, mode: bv8): (r: Regs)
    requires Shaped(g) && pin < 60
    ensures Shaped(r)
  {
    var regn := FselWord(pin);
    g.(fsel := g.fsel[regn := Select(g.fsel[regn], FselShift(pin), mode)])
  }

  /** The word with the field at `s` cleared and `mode` or-ed in there. */
  function Select(w: Word, s: Word, mode: bv8): Word
    requires s <= 27
  {
    (w & !FieldMask(s)) | ((mode as Word) << s)
  }

  /** The code in a pin's field: the field's bits, shifted down. */
  function FieldOf(g: Regs, pin: Pin): Word
    requires Shaped(g) && pin < 60
  {
    Field(g.fsel[FselWord(pin)], FselShift(pin))
  }

  function Field(w: Word, s: Word): Word
    requires s <= 27
  {
    (w & FieldMask(s)) >> s
  }

  function FieldMask(s: Word): Word
    requires s <= 27
  {
    (FselMask as Word) << s
  }

  /** With a code that fits the field, `gpio_fsel` leaves every bit outside
      the pin's field as it was, the other words and the level words
      included, and the field then holds the code. */
  lemma FselUpdate(g: Regs, pin: Pin, mode: bv8)
    requires Shaped(g) && pin < 60 && mode & !FselMask == 0
    ensures var r := GpioFsel(g, pin, mode);
      var mask := FieldMask(FselShift(pin));
      && r.level == g.level
      && (forall i :: 0 <= i < 6 && i != FselWord(pin) ==> r.fsel[i] == g.fsel[i])
      && r.fsel[FselWord(pin)] & !mask == g.fsel[FselWord(pin)] & !mask
      && FieldOf(r, pin) == mode as Word
  {
    var s, n := FselShift(pin), FselWord(pin);
    SelectOutside(g.fsel[n], s, mode);
    SelectField(g.fsel[n], s, mode);
  }

  /** The word-level halves: outside the field the word is unchanged, and
      the field reads back as the code. */
  lemma SelectOutside(w: Word, s: Word, mode: bv8)
    requires s <= 27 && mode & !FselMask == 0
    ensures Select(w, s, mode) & !FieldMask(s) == w & !FieldMask(s)
  {
    Within(mode as Word, s);
    FieldOutside(w, FieldMask(s), (mode as Word) << s);
  }

  lemma SelectField(w: Word, s: Word, mode: bv8)
    requires s <= 27 && mode & !FselMask == 0
    ensures Field(Select(w, s, mode), s) == mode as Word
  {
    var x := (mode as Word) << s;
    Within(mode as Word, s);
    FieldHolds(w, FieldMask(s), x);
    Back(mode as Word, s);
  }

  /** A code that fits the field stays inside it when shifted there, and
      shifts back unchanged. */
  lemma Within(mode: Word, s: Word)
    requires s <= 27 && mode & !7 == 0
    ensures (mode << s) & !FieldMask(s) == 0
  {
  }

  lemma Back(mode: Word, s: Word)
    requires s <= 27 && mode & !7 == 0
    ensures (mode << s) >> s == mode
  {
  }

  /** Clearing the bits of `S` and or-ing in `x`, which lies inside `S`,
      leaves `x` in `S`, the bits outside `S` as they were, and so anything
      disjoint from `S` as it was. */
  lemma FieldHolds(w: Word, S: Word, x: Word)
    requires x & !S == 0
    ensures ((w & !S) | x) & S == x
  {
  }

  lemma FieldOutside(w: Word, S: Word, x: Word)
    requires x & !S == 0
    ensures ((w & !S) | x) & !S == w & !S
  {
  }

  lemma FieldApart(w: Word, S: Word, M: Word, x: Word)
    requires x & !S == 0 && S & M == 0
    ensures ((w & !S) | x) & M == w & M
  {
  }

  lemma SelectApart(w: Word, s: Word, t: Word, mode: bv8)
    requires s <= 27 && t <= 27 && (s + 3 <= t || t + 3 <= s) && mode & !FselMask == 0
    ensures Field(Select(w, s, mode), t) == Field(w, t)
  {
    SelectMasked(w, s, t, mode);
  }

  lemma SelectMasked(w: Word, s: Word, t: Word, mode: bv8)
    requires s <= 27 && t <= 27 && (s + 3 <= t || t + 3 <= s) && mode & !FselMask == 0
    ensures Select(w, s, mode) & FieldMask(t) == w & FieldMask(t)
  {
    Within(mode as Word, s);
    FieldsDisjoint(s, t);
    FieldApart(w, FieldMask(s), FieldMask(t), (mode as Word) << s);
  }

  /** Fields of different pins of one word do not overlap. */
  lemma FieldsDisjoint(s: Word, t: Word)
    requires s <= 27 && t <= 27 && (s + 3 <= t || t + 3 <= s)
    ensures FieldMask(s) & FieldMask(t) == 0
  {
  }

  /** Selecting one pin's function leaves every other pin's as it was. */
  lemma FselOthers(g: Regs, pin: Pin, q: Pin, mode: bv8)
    requires Shaped(g) && pin < 60 && q < 60 && q != pin && mode & !FselMask == 0
    ensures FieldOf(GpioFsel(g, pin, mode), q) == FieldOf(g, q)
  {
    if FselWord(q) == FselWord(pin) {
      var s, t := FselShift(pin), FselShift(q);
      assert pin % 10 != q % 10;
      assert s + 3 <= t || t + 3 <= s;
      SelectApart(g.fsel[FselWord(pin)], s, t, mode);
    }
  }

  /** The default wiring: CE on GPIO 23 (connector P1-16), CK on GPIO 22
      (P1-15), IO on GPIO 25 (P1-22). */
  const CePin: Pin := 23
  const CkPin: Pin := 22
  const IoPin: Pin := 25

  /** The three pins are distinct, below 32, and so all in bank 0. */
  lemma DefaultPins()
    ensures CePin != CkPin && CkPin != IoPin && CePin != IoPin
    ensures CePin < 32 && CkPin < 32 && IoPin < 32
    ensures BankOf(CePin) == 0 && BankOf(CkPin) == 0 && BankOf(IoPin) == 0
    ensures !SamePin(CePin, CkPin) && !SamePin(CkPin, IoPin) && !SamePin(CePin, IoPin)
  {
    SamePinEqual(CePin, CkPin);
    SamePinEqual(CkPin, IoPin);
    SamePinEqual(CePin, IoPin);
  }
  /** A pin made an output and driven low, as the set-up before each
      command does for CE, then CK, then IO (rtc-ctl/rtc-ctl.c:563-582;
      the pull-up/down writes are left out). */
  function Output(g: Regs, pin: Pin): (r: Regs)
    requires Shaped(g) && pin < 60
    ensures Shaped(r)
  {
    ApplyAll(GpioFsel(g, pin, FselOutput), GpioClr(pin))
  }

  function SetUp(g: Regs): (r: Regs)
    requires Shaped(g)
    ensures Shaped(r)
  {
    Output(Output(Output(g, CePin), CkPin), IoPin)
  }

  /** After the set-up all three pins are outputs and read low, whatever
      state the peripheral was in. */
  lemma SetUpLow(g: Regs)
    requires Shaped(g)
    ensures var r := SetUp(g);
      && FieldOf(r, CePin) == FselOutput as Word && !IsSet(r, CePin)
      && FieldOf(r, CkPin) == FselOutput as Word && !IsSet(r, CkPin)
      && FieldOf(r, IoPin) == FselOutput as Word && !IsSet(r, IoPin)
  {
    DefaultPins();
    var g1 := Output(g, CePin);
    var g2 := Output(g1, CkPin);
    OutputPin(g, CePin);
    OutputOthers(g1, CkPin, CePin);
    OutputOthers(g2, IoPin, CePin);
    OutputPin(g1, CkPin);
    OutputOthers(g2, IoPin, CkPin);
    OutputPin(g2, IoPin);
  }

  /** The pin made an output reads as an output and low ... */
  lemma OutputPin(g: Regs, pin: Pin)
    requires Shaped(g) && pin < 60
    ensures FieldOf(Output(g, pin), pin) == FselOutput as Word
    ensures !IsSet(Output(g, pin), pin)
  {
    var f := GpioFsel(g, pin, FselOutput);
    FselUpdate(g, pin, FselOutput);
    ClrKeepsFsel(f, pin);
    assert GpioClr(pin) == GpioSetTo(pin, 0);
    SetClrIsSet(f, pin, 0);
  }

  /** ... and every other pin keeps its function and level. */
  lemma OutputOthers(g: Regs, pin: Pin, q: Pin)
    requires Shaped(g) && pin < 60 && q < 60 && q != pin
    ensures FieldOf(Output(g, pin), q) == FieldOf(g, q)
    ensures IsSet(Output(g, pin), q) <==> IsSet(g, q)
  {
    var f := GpioFsel(g, pin, FselOutput);
    FselOthers(g, pin, q, FselOutput);
    ClrKeepsFsel(f, pin);
    FselUpdate(g, pin, FselOutput);
    assert IsSet(f, q) <==> IsSet(g, q);
    SamePinEqual(q, pin);
    assert GpioClr(pin) == GpioSetTo(pin, 0);
    SetClrOthers(f, pin, q, 0);
  }

  /** A clear leaves the function-select words alone. */
  lemma ClrKeepsFsel(g: Regs, pin: Pin)
    requires Shaped(g)
    ensures ApplyAll(g, GpioClr(pin)).fsel == g.fsel
  {
    Fenced(g, Clr, BankOf(pin), MaskOf(pin));
    ClrApplyFsel(g, BankOf(pin), MaskOf(pin));
  }

  lemma ClrApplyFsel(g: Regs, b: nat, m: Word)
    requires Shaped(g)
    ensures Apply(g, Store(Clr, b, m)).fsel == g.fsel
  {
  }
}

=== FILE: ramtest.dfy ===
/** The `-X` RAM test (rtc-ctl/rtc-ctl.c:1453-1515): each of twenty fill
    patterns and a count-down is written to RAM with a burst, read back with
    a burst and compared, and the RAM is cleared at the end. */
module RamTest {
  import opened Bytes
  import opened Registers
  import opened Results
  import opened Chip
  import opened Transport
  import opened Toy
  import opened Commands

  /** All zeros, all ones, alternating bits, a floating one, a floating zero. */
  const DataPatterns: seq<Byte> := [
    0x00, 0xFF, 0x55, 0xAA,
    0x80, 0x40, 0x20, 0x10, 0x08, 0x04, 0x02, 0x01,
    0x7F, 0xBF, 0xDF, 0xEF, 0xF7, 0xFB, 0xFD, 0xFE
  ]

  /** Every RAM byte set to `v`. */
  function Fill(v: Byte): (p: seq<Byte>)
    ensures |p| == RamRegCount()
  {
    seq(31, _ => v)
  }

  /** Byte `a` holds `31 - a`, so each byte differs from its neighbours. */
  function Countdown(): (p: seq<Byte>)
    ensures |p| == RamRegCount()
  {
    seq(31, a requires 0 <= a < 31 => 31 - a)
  }

  /** Number of patterns the test writes: the fills and the count-down. */
  const PatternCount := |DataPatterns| + 1

  /** Pattern `t` of the test: a fill for each data pattern, then the
      count-down. */
  function Buffer(t: nat): (b: seq<Byte>)
    requires t < PatternCount
    ensures |b| == RamRegCount()
    ensures t == 0 ==> b == Fill(0)
    ensures t == 1 ==> b == Fill(0xFF)
  {
    if t < |DataPatterns| then Fill(DataPatterns[t]) else Countdown()
  }

  /** `writeTOY(TOY_RBURST | TOY_GATHER, 31, buf)`. */
  function WriteRam(d: Device, buf: seq<Byte>): Device
    requires |buf| == RamRegCount()
  {
    Write(d, AddrRamBurst + GatherFlag, RamRegCount(), buf).value
  }

  /** One pattern: unlock, burst-write, lock, burst-read, compare. */
  function TestPattern(d: Device, testmode: bool, pattern: seq<Byte>): (r: Result<Device>)
    requires |pattern| == RamRegCount()
    ensures r.Err? ==> r.error == NoToyDetected || r.error == RamTestFailed
  {
    match Unlock(d, testmode)
    case Err(e) => Err(e)
    case Ok(u) =>
      var w := Lock(WriteRam(u, pattern));
      if ReadRam(w).value != pattern then Err(RamTestFailed) else Ok(w)
  }

  /** The device a pattern leaves, whether or not it reads back: the
      probe's write alone when the probe fails, otherwise the probe, the
      burst and the lock. */
  function Attempted(d: Device, testmode: bool, pattern: seq<Byte>): Device
    requires |pattern| == RamRegCount()
  {
    match Unlock(d, testmode)
    case Err(_) => WriteOne(d, AddrCtl, UnlockValue(testmode))
    case Ok(u) => Lock(WriteRam(u, pattern))
  }

  /** What a failed test leaves: a chip, which fails only in test mode,
      with WP written to CTL by the probes and nothing else changed; an
      empty socket as it was. */
  function FailedState(d: Device): (f: Device)
    ensures f.Present? == d.Present?
  {
    match d
    case Present(m) => Present(WithCtl(m, MaskWp))
    case Absent(_) => d
  }

  /** The chip after a pattern has been written and the chip locked again. */
  function Written(m: Mem, pattern: seq<Byte>): Mem
    requires |pattern| == RamRegCount()
  {
    m.(ram := pattern, clock := m.clock[7 := MaskWp])
  }

  lemma RamBurstWrite(m: Mem, buf: seq<Byte>)
    requires |buf| == RamRegCount()
    ensures WriteRam(Present(m), buf) == Present(if Protected(m) then m else m.(ram := buf))
  {
    assert RegNumber(AddrRamBurst) == 31 && IsRam(AddrRamBurst);
    assert buf[..31] + m.ram[31..] == buf;
  }

  /** With a working chip and test mode off every pattern reads back. */
  lemma TestPatternPresent(m: Mem, pattern: seq<Byte>)
    requires |pattern| == RamRegCount()
    ensures TestPattern(Present(m), false, pattern) == Ok(Present(Written(m, pattern)))
  {
    UnlockPresent(m, false);
    var u := WithCtl(m, 0);
    RamBurstWrite(u, pattern);
    var s := u.(ram := pattern);
    CtlWrite(s, MaskWp);
    assert WithCtl(s, MaskWp).clock == m.clock[7 := MaskWp];
    assert Lock(WriteRam(Present(u), pattern)) == Present(Written(m, pattern));
    ReadRamPresent(Written(m, pattern));
  }

  /** A device on which nothing written sticks and every RAM byte reads 0:
      a write-protected chip with zeroed RAM in test mode, or an empty
      socket whose line reads low with test mode off. */
  predicate Stuck(d: Device, testmode: bool)
  {
    || (d.Present? && testmode && Protected(d.mem) && d.mem.ram == Fill(0))
    || (d == Absent(false) && !testmode)
  }

  /** The first pattern, all zeros, either fails or leaves a device in
      which nothing sticks, unless a chip is present with test mode off. An
      empty socket whose line floats high is reported as missing. */
  lemma FirstPattern(d: Device, testmode: bool)
    requires !(d.Present? && !testmode)
    ensures var r := TestPattern(d, testmode, Fill(0));
      r.Ok? ==> Stuck(r.value, testmode)
    ensures d == Absent(true) ==> TestPattern(d, testmode, Fill(0)) == Err(NoToyDetected)
    ensures Attempted(d, testmode, Fill(0)) == FailedState(d)
    ensures TestPattern(d, testmode, Fill(0)).Ok? ==> TestPattern(d, testmode, Fill(0)).value == FailedState(d)
  {
    if d.Present? {
      var m := d.mem;
      UnlockPresent(m, true);
      var u := WithCtl(m, MaskWp);
      RamBurstWrite(u, Fill(0));
      CtlWrite(u, MaskWp);
      assert Lock(WriteRam(Present(u), Fill(0))) == Present(u);
      ReadRamPresent(u);
    } else {
      UnlockAbsent(d.level, testmode);
    }
  }

  /** On a device where nothing sticks the all-ones pattern reads back as
      zeros and the test fails. */
  lemma StuckFails(d: Device, testmode: bool)
    requires Stuck(d, testmode)
    ensures TestPattern(d, testmode, Fill(0xFF)) == Err(RamTestFailed)
    ensures Attempted(d, testmode, Fill(0xFF)) == FailedState(d)
  {
    if d.Present? {
      StuckChipFails(d.mem);
    } else {
      UnlockAbsent(false, false);
      assert ReadRam(Absent(false)).value == Fill(0);
      assert Fill(0)[0] != Fill(0xFF)[0];
    }
  }

  /** A write-protected chip with zeroed RAM keeps reading zeros after the
      all-ones pattern is written in test mode. */
  lemma StuckChipFails(m: Mem)
    requires Protected(m) && m.ram == Fill(0)
    ensures TestPattern(Present(m), true, Fill(0xFF)) == Err(RamTestFailed)
    ensures Attempted(Present(m), true, Fill(0xFF)) == Present(WithCtl(m, MaskWp))
  {
    UnlockPresent(m, true);
    var u := WithCtl(m, MaskWp);
    RamBurstWrite(u, Fill(0xFF));
    CtlWrite(u, MaskWp);
    assert Lock(WriteRam(Present(u), Fill(0xFF))) == Present(u);
    ReadRamPresent(u);
    assert ReadRam(Present(u)).value == Fill(0);
    assert Fill(0)[0] != Fill(0xFF)[0];
  }

  /** The chip after a passing test: RAM cleared and write protect on. */
  function Cleared(m: Mem): Mem
  {
    Written(m, Fill(0))
  }

  /** The final clearing of the RAM: unlock, burst-write zeros, lock. */
  function Clear(d: Device, testmode: bool): (r: Result<Device>)
    ensures r.Err? ==> r.error == NoToyDetected
  {
    match Unlock(d, testmode)
    case Err(e) => Err(e)
    case Ok(u) => Ok(Lock(WriteRam(u, Fill(0))))
  }

  /** Clearing a chip after any pattern gives the same chip as clearing the
      original one. */
  lemma ClearPresent(m: Mem, pattern: seq<Byte>)
    requires |pattern| == RamRegCount()
    ensures Clear(Present(Written(m, pattern)), false) == Ok(Present(Cleared(m)))
  {
    var w := Written(m, pattern);
    UnlockPresent(w, false);
    var u := WithCtl(w, 0);
    RamBurstWrite(u, Fill(0));
    var s := u.(ram := Fill(0));
    CtlWrite(s, MaskWp);
    assert WithCtl(s, MaskWp).clock == m.clock[7 := MaskWp];
  }

  /** Where the test stands before pattern `t`: nothing written yet, or a
      working chip holding the last pattern, or a device on which nothing
      sticks after the first pattern. */
  predicate Progress(d: Device, testmode: bool, cur: Device, t: nat)
  {
    && t <= PatternCount
    && (t == 0 ==> cur == d)
    && (t > 0 && d.Present? && !testmode ==> cur == Present(Written(d.mem, Buffer(t - 1))))
    && (t > 0 && !(d.Present? && !testmode) ==> t == 1 && Stuck(cur, testmode) && cur == FailedState(d))
    && (t > 0 ==> d != Absent(true))
  }

  /** One pattern of the test: on a working chip it passes and moves on;
      otherwise it fails, with "No TOY" on a socket whose line floats
      high. */
  lemma PatternStep(d: Device, testmode: bool, cur: Device, t: nat)
    requires Progress(d, testmode, cur, t) && t < PatternCount
    ensures var res := TestPattern(cur, testmode, Buffer(t));
      && (res.Ok? ==> Progress(d, testmode, res.value, t + 1))
      && (res.Err? ==> !(d.Present? && !testmode))
      && (res.Err? && d == Absent(true) ==> res.error == NoToyDetected)
      && (res.Err? ==> Attempted(cur, testmode, Buffer(t)) == FailedState(d))
  {
    if d.Present? && !testmode {
      WorkingStep(d.mem, cur, t);
    } else if t == 0 {
      FirstPattern(cur, testmode);
    } else {
      StuckFails(cur, testmode);
      if d.Present? {
        CtlTwice(d.mem);
      }
    }
  }

  /** The probes of later patterns write WP over the WP the first one
      wrote. */
  lemma CtlTwice(m: Mem)
    ensures WithCtl(WithCtl(m, MaskWp), MaskWp) == WithCtl(m, MaskWp)
  {
    assert WithCtl(WithCtl(m, MaskWp), MaskWp).clock == WithCtl(m, MaskWp).clock;
  }

  /** On a working chip each pattern passes and replaces the one before. */
  lemma WorkingStep(m: Mem, cur: Device, t: nat)
    requires t < PatternCount
    requires t == 0 ==> cur == Present(m)
    requires t > 0 ==> cur == Present(Written(m, Buffer(t - 1)))
    ensures TestPattern(cur, false, Buffer(t)) == Ok(Present(Written(m, Buffer(t))))
  {
    TestPatternPresent(cur.mem, Buffer(t));
    if t > 0 {
      WrittenTwice(m, Buffer(t - 1), Buffer(t));
    }
  }

  /** Writing a pattern over another leaves what writing it alone does. */
  lemma WrittenTwice(m: Mem, p: seq<Byte>, q: seq<Byte>)
    requires |p| == RamRegCount() && |q| == RamRegCount()
    ensures Written(Written(m, p), q) == Written(m, q)
  {
    assert Written(m, p).clock[7 := MaskWp] == m.clock[7 := MaskWp];
  }

  /** `testTOYramPattern` for pattern `t`, in terms of the test's
      progress. */
  method RunPattern(d: Device, testmode: bool, cur: Device, t: nat) returns (res: Result<Device>)
    requires Progress(d, testmode, cur, t) && t < PatternCount
    ensures res.Ok? ==> Progress(d, testmode, res.value, t + 1)
    ensures res.Err? ==> !(d.Present? && !testmode)
    ensures res.Err? ==> res.error == NoToyDetected || res.error == RamTestFailed
    ensures res.Err? && d == Absent(true) ==> res.error == NoToyDetected
    ensures res.Err? ==> Attempted(cur, testmode, Buffer(t)) == FailedState(d)
  {
    PatternStep(d, testmode, cur, t);
    res := TestPattern(cur, testmode, Buffer(t));
  }

  /** `testTOYram`: the test passes exactly on a chip with test mode off,
      and then leaves its RAM zeroed and the chip write-protected with the
      clock registers and trickle charger untouched. An empty socket whose
      line floats high is reported as missing. `left` is the device the
      test leaves behind, pass or fail: a failed test has already written
      WP to a chip's CTL. */
  method TestRam(d: Device, testmode: bool) returns (r: Result<Device>, left: Device)
    ensures r.Ok? ==> left == r.value
    ensures r.Err? ==> left == FailedState(d)
    ensures r.Ok? <==> d.Present? && !testmode
    ensures d.Present? && !testmode ==> r == Ok(Present(Cleared(d.mem)))
    ensures r.Err? ==> r.error == NoToyDetected || r.error == RamTestFailed
    ensures d == Absent(true) ==> r == Err(NoToyDetected)
  {
    var cur := d;
    var t := 0;
    while t < PatternCount
      invariant Progress(d, testmode, cur, t)
    {
      var res := RunPattern(d, testmode, cur, t);
      if res.Err? {
        return Err(res.error), Attempted(cur, testmode, Buffer(t));
      }
      cur := res.value;
      t := t + 1;
    }
    AllPassed(d, testmode, cur);
    r := Clear(cur, testmode);
    left := r.value;
  }

  /** Once every pattern has passed the device is a working chip holding
      the count-down, and clearing it gives the cleared chip. */
  lemma AllPassed(d: Device, testmode: bool, cur: Device)
    requires Progress(d, testmode, cur, PatternCount)
    ensures d.Present? && !testmode
    ensures Clear(cur, testmode) == Ok(Present(Cleared(d.mem)))
  {
    ClearPresent(d.mem, Buffer(PatternCount - 1));
  }
}

=== FILE: registers.dfy ===
/** The DS1302 register map: command addresses, field masks and the
    trickle-charger settings (rtc-ctl/rtc-ctl.c:117-215).

    A command byte is `1 RAM/!CK A4 A3 A2 A1 A0 RD/!WR`: bit 7 is always set,
    bit 6 selects RAM rather than clock, bits 1-5 are the register number and
    bit 0 asks for a read. The driver names the write address of each
    register; the read address is that address with bit 0 set. */
module Registers {
  import opened Bytes
  import opened Results

  // Command flags
  const ReadFlag := 0x01     // or-ed into an address to read it
  const ScatterFlag := 0x100 // read a burst into separately addressed bytes
  const GatherFlag := 0x100  // write a burst from an array

  // Clock registers and their fields
  const AddrSec := 0x80
  const MaskHalt := 0x80     // clock halt
  const MaskSec := 0x7F
  const AddrMin := 0x82
  const MaskMin := 0x7F
  const AddrHour := 0x84
  const Mask12Hour := 0x80   // 12-hour mode
  const MaskPm := 0x20       // PM, in 12-hour mode
  const MaskHour24 := 0x3F
  const MaskHour12 := 0x1F
  const AddrDay := 0x86
  const AddrMonth := 0x88
  const MaskMonthMbz := 0xE0 // read as zero from a chip; float to ones without one
  const AddrWeekday := 0x8A
  const AddrYear := 0x8C
  const AddrCtl := 0x8E
  const MaskWp := 0x80       // write protect

  // Trickle-charger control
  const AddrTcs := 0x90
  const TcsDisable := 0x5C
  const TcsEnable := 0xA0
  const Tcs1D2K := 0xA5      // one diode, 2K from VCC2 to VCC1
  const Tcs1D4K := 0xA6
  const Tcs1D8K := 0xA7
  const Tcs2D2K := 0xA9
  const Tcs2D4K := 0xAA
  const Tcs2D8K := 0xAB

  // Bursts and RAM
  const AddrClockBurst := 0xBE
  const AddrRamBase := 0xC0
  const AddrRamEnd := 0xFC
  const AddrRamBurst := 0xFE

  /** Passes of the stabilised read before the clock is declared stopped. */
  const MaxReads := 30000

  /** Position of a register within a burst: `((reg - TOY_SEC) >> 1) & 0x3F`.
      Addresses are two apart and bit 0 only tells read from write, so the
      position is the distance from the seconds register halved. */
  function Offset(reg: int): (o: nat)
    requires AddrSec <= reg < 0x100
    ensures o < 64
    ensures reg == AddrSec + 2 * o || reg == AddrSec + 2 * o + ReadFlag
  {
    ((reg - AddrSec) / 2) % 64
  }

  /** Number of clock registers a clock burst transfers. */
  function ClockRegCount(): nat
  {
    1 + Offset(AddrCtl) - Offset(AddrSec)
  }

  /** Number of RAM registers, the longest RAM burst. */
  function RamRegCount(): nat
  {
    1 + Offset(AddrRamEnd) - Offset(AddrRamBase)
  }

  /** The clock registers sit at burst positions 0..7 in address order, the
      burst moves eight of them and the RAM holds 31 bytes, each addressed by
      `TOY_RAM_BASE + (n << 1)`. */
  lemma RegisterLayout()
    ensures Offset(AddrSec) == 0 && Offset(AddrMin) == 1 && Offset(AddrHour) == 2
    ensures Offset(AddrDay) == 3 && Offset(AddrMonth) == 4 && Offset(AddrWeekday) == 5
    ensures Offset(AddrYear) == 6 && Offset(AddrCtl) == 7
    ensures ClockRegCount() == 8
    ensures RamRegCount() == 31
    ensures forall n :: 0 <= n < RamRegCount() ==>
      AddrRamBase <= AddrRamBase + 2 * n <= AddrRamEnd && Offset(AddrRamBase + 2 * n) - Offset(AddrRamBase) == n
  {
  }

  /** Fields of a command byte. */
  predicate IsCommand(c: Byte) { c >= 0x80 }
  predicate IsRead(c: Byte) { c % 2 == 1 }
  predicate IsRam(c: Byte) { (c / 0x40) % 2 == 1 }
  function RegNumber(c: Byte): (a: nat)
    ensures a < 32
  {
    (c / 2) % 32
  }

  lemma CommandFields()
    ensures IsCommand(AddrSec) && !IsRam(AddrSec) && RegNumber(AddrSec) == 0
    ensures IsCommand(AddrCtl) && !IsRam(AddrCtl) && RegNumber(AddrCtl) == 7
    ensures IsCommand(AddrTcs) && !IsRam(AddrTcs) && RegNumber(AddrTcs) == 8
    ensures IsCommand(AddrClockBurst) && !IsRam(AddrClockBurst) && RegNumber(AddrClockBurst) == 31
    ensures IsCommand(AddrRamBase) && IsRam(AddrRamBase) && RegNumber(AddrRamBase) == 0
    ensures IsCommand(AddrRamBurst) && IsRam(AddrRamBurst) && RegNumber(AddrRamBurst) == 31
    ensures forall n :: 0 <= n < 31 ==> IsRam(AddrRamBase + 2 * n) && RegNumber(AddrRamBase + 2 * n) == n
  {
  }

  /** The trickle-charger settings the `-T` and `-t` commands accept and
      report, in table order. */
  const TcsCommands: seq<(string, Byte)> := [
    ("disable", TcsDisable),
    ("1d2k", Tcs1D2K),
    ("1d4k", Tcs1D4K),
    ("1d8k", Tcs1D8K),
    ("2d2k", Tcs2D2K),
    ("2d4k", Tcs2D4K),
    ("2d8k", Tcs2D8K)
  ]

  /** The setting of the first entry named `name`, scanning the table as the
      `strcmp` loop does. */
  function CodeOf(table: seq<(string, Byte)>, name: string): (r: Option<Byte>)
    ensures r.None? <==> forall i :: 0 <= i < |table| ==> table[i].0 != name
    ensures r.Some? ==> exists i :: 0 <= i < |table| && table[i] == (name, r.value)
                          && forall j :: 0 <= j < i ==> table[j].0 != name
  {
    if |table| == 0 then None
    else if table[0].0 == name then Some(table[0].1)
    else
      var r := CodeOf(table[1..], name);
      if r.Some? then
        var i :| 0 <= i < |table| - 1 && table[1..][i] == (name, r.value)
                 && forall j :: 0 <= j < i ==> table[1..][j].0 != name;
        assert table[i + 1] == (name, r.value);
        r
      else r
  }

  /** The name of the first entry whose setting is `code`. */
  function NameOf(table: seq<(string, Byte)>, code: Byte): (r: Option<string>)
    ensures r.None? <==> forall i :: 0 <= i < |table| ==> table[i].1 != code
    ensures r.Some? ==> exists i :: 0 <= i < |table| && table[i] == (r.value, code)
                          && forall j :: 0 <= j < i ==> table[j].1 != code
  {
    if |table| == 0 then None
    else if table[0].1 == code then Some(table[0].0)
    else
      var r := NameOf(table[1..], code);
      if r.Some? then
        var i :| 0 <= i < |table| - 1 && table[1..][i] == (r.value, code)
                 && forall j :: 0 <= j < i ==> table[1..][j].1 != code;
        assert table[i + 1] == (r.value, code);
        r
      else r
  }

  /** Parsing the `-T` argument (rtc-ctl/rtc-ctl.c:528-544). */
  function ParseTcs(name: string): Option<Byte>
  {
    CodeOf(TcsCommands, name)
  }

  /** Naming the value read by `-t`; `None` is printed as "unspecified". */
  function DescribeTcs(code: Byte): Option<string>
  {
    NameOf(TcsCommands, code)
  }

  /** Names and settings in the table are distinct, so parsing a name and
      describing the resulting setting are inverse to each other, in both
      directions. */
  lemma TcsRoundTrip(name: string, code: Byte)
    ensures ParseTcs(name) == Some(code) <==> DescribeTcs(code) == Some(name)
  {
    TcsDistinct();
    TableInverse(TcsCommands, name, code);
  }

  /** The first entry is "disable"; the bare enable code has no name. */
  lemma TcsEntries()
    ensures DescribeTcs(TcsEnable).None?
    ensures ParseTcs("disable") == Some(TcsDisable)
  {
    assert TcsCommands[0].0 == "disable";
  }

  /** No two entries of a table share a name or a setting. */
  predicate Distinct(table: seq<(string, Byte)>)
  {
    forall i, j :: 0 <= i < j < |table| ==> table[i].0 != table[j].0 && table[i].1 != table[j].1
  }

  lemma TcsDistinct()
    ensures Distinct(TcsCommands)
  {
  }

  /** In a table without repeated names or settings, looking up a name and
      looking up a setting are inverse to each other. */
  lemma TableInverse(table: seq<(string, Byte)>, name: string, code: Byte)
    requires Distinct(table)
    ensures CodeOf(table, name) == Some(code) <==> NameOf(table, code) == Some(name)
  {
    if CodeOf(table, name) == Some(code) {
      var i :| 0 <= i < |table| && table[i] == (name, code);
      var r := NameOf(table, code);
      var k :| 0 <= k < |table| && table[k] == (r.value, code);
      assert k == i;
    }
    if NameOf(table, code) == Some(name) {
      var i :| 0 <= i < |table| && table[i] == (name, code);
      var r := CodeOf(table, name);
      var k :| 0 <= k < |table| && table[k] == (name, r.value);
      assert k == i;
    }
  }
}

=== FILE: results.dfy ===
/** Outcome types shared by every part of the model.

    The program reports failure by printing a message and calling `exit` with a
    `sysexits.h` status; here each such exit is an `Error` value that the
    operation returns instead of a result. */
module Results {

  datatype Option<+T> = None | Some(value: T)

  /** The distinct failures the clock driver reports. */
  datatype Error =
    | NoToyDetected      // month must-be-zero bits set, or the write-protect probe failed
    | ToyHalted          // clock-halt bit set in the seconds register
    | NotRunning         // the stabilised read never saw the seconds change
    | InternalError      // a RAM burst length outside 1..31 (a caller bug)
    | ConversionFailed   // timegm could not represent the chip's date
    | RamTestFailed      // a RAM pattern did not read back

  datatype Result<+T> = Ok(value: T) | Err(error: Error)

  /** The `sysexits.h` status the program exits with for each failure. */
  function ExitStatus(e: Error): nat
  {
    match e
    case NoToyDetected => 78     // EX_CONFIG
    case ToyHalted => 69         // EX_UNAVAILABLE
    case NotRunning => 74        // EX_IOERR
    case InternalError => 70     // EX_SOFTWARE
    case ConversionFailed => 71  // EX_OSERR
    case RamTestFailed => 74     // EX_IOERR
  }
}

=== FILE: shape.dfy ===
/** Counting properties of the event sequences `writeTOY` and `readTOY`
    produce (rtc-ctl/rtc-ctl.c:1611-1778): one clock pulse per bit, a
    single turnaround, one sample per data bit, and the gather/scatter flag
    never reaching the wire. */
module Shape {
  import opened Bytes
  import opened Registers
  import opened Chip
  import opened Transport

  /** How many times `e` occurs in `tr`. */
  function Count(tr: seq<Event>, e: Event): nat
  {
    if tr == [] then 0 else (if tr[0] == e then 1 else 0) + Count(tr[1..], e)
  }

  lemma {:induction false} CountIsMultiplicity(tr: seq<Event>, e: Event)
    ensures Count(tr, e) == multiset(tr)[e]
  {
    if tr != [] {
      assert tr == [tr[0]] + tr[1..];
      CountIsMultiplicity(tr[1..], e);
    }
  }

  lemma CountAppend(a: seq<Event>, b: seq<Event>, e: Event)
    ensures Count(a + b, e) == Count(a, e) + Count(b, e)
  {
    CountIsMultiplicity(a + b, e);
    CountIsMultiplicity(a, e);
    CountIsMultiplicity(b, e);
  }

  lemma CountAppend3(a: seq<Event>, b: seq<Event>, c: seq<Event>, e: Event)
    ensures Count(a + b + c, e) == Count(a, e) + Count(b, e) + Count(c, e)
  {
    CountAppend(a + b, c, e);
    CountAppend(a, b, e);
  }

  /** The fixed parts of a transfer: only the prologue's CK fall and the
      read's final rise and turnaround count. */
  lemma FixedCounts(x: bool)
    ensures Count(Prologue, CK(true)) == 0 && Count(Prologue, CK(false)) == 1
    ensures Count(Prologue, Sample) == 0 && Count(Prologue, IODir(false)) == 0
    ensures Count(WriteEpilogue, CK(true)) == 0 && Count(WriteEpilogue, Sample) == 0
    ensures Count(WriteEpilogue, IODir(false)) == 0
    ensures Count(LastCommandBit(x), CK(true)) == 1 && Count(LastCommandBit(x), CK(false)) == 0
    ensures Count(LastCommandBit(x), Sample) == 0 && Count(LastCommandBit(x), IODir(false)) == 0
    ensures Count(ReadEpilogue, CK(true)) == 0 && Count(ReadEpilogue, Sample) == 0
    ensures Count(ReadEpilogue, IODir(false)) == 0
  {
    CountIsMultiplicity(Prologue, CK(true));
    CountIsMultiplicity(Prologue, CK(false));
    CountIsMultiplicity(Prologue, Sample);
    CountIsMultiplicity(Prologue, IODir(false));
    CountIsMultiplicity(WriteEpilogue, CK(true));
    CountIsMultiplicity(WriteEpilogue, Sample);
    CountIsMultiplicity(WriteEpilogue, IODir(false));
    CountIsMultiplicity(LastCommandBit(x), CK(true));
    CountIsMultiplicity(LastCommandBit(x), CK(false));
    CountIsMultiplicity(LastCommandBit(x), Sample);
    CountIsMultiplicity(LastCommandBit(x), IODir(false));
    CountIsMultiplicity(ReadEpilogue, CK(true));
    CountIsMultiplicity(ReadEpilogue, Sample);
    CountIsMultiplicity(ReadEpilogue, IODir(false));
  }

  /** One bit period into the chip: one rise, one fall. */
  lemma BitPeriodCounts(x: bool)
    ensures Count(BitPeriod(x), CK(true)) == 1 && Count(BitPeriod(x), CK(false)) == 1
    ensures Count(BitPeriod(x), IODir(false)) == 0 && Count(BitPeriod(x), Sample) == 0
  {
    var p := BitPeriod(x);
    CountIsMultiplicity(p, CK(true));
    CountIsMultiplicity(p, CK(false));
    CountIsMultiplicity(p, IODir(false));
    CountIsMultiplicity(p, Sample);
  }

  /** One data bit out of the chip: one sample, and one rise when CK goes
      up again. */
  lemma SamplePeriodCounts(rise: bool)
    ensures Count(SamplePeriod(rise), Sample) == 1
    ensures Count(SamplePeriod(rise), CK(true)) == B(rise)
    ensures Count(SamplePeriod(rise), IODir(false)) == 0
  {
    var p := SamplePeriod(rise);
    CountIsMultiplicity(p, Sample);
    CountIsMultiplicity(p, CK(true));
    CountIsMultiplicity(p, IODir(false));
  }

  lemma {:induction false} BitTrainCounts(bs: seq<bool>)
    ensures Count(BitTrain(bs), CK(true)) == |bs|
    ensures Count(BitTrain(bs), CK(false)) == |bs|
    ensures Count(BitTrain(bs), IODir(false)) == 0
    ensures Count(BitTrain(bs), Sample) == 0
  {
    if bs != [] {
      BitTrainCounts(bs[1..]);
      var p, t := BitPeriod(bs[0]), BitTrain(bs[1..]);
      BitPeriodCounts(bs[0]);
      CountAppend(p, t, CK(true));
      CountAppend(p, t, CK(false));
      CountAppend(p, t, IODir(false));
      CountAppend(p, t, Sample);
    }
  }

  lemma {:induction false} ByteSamplesCounts(i: nat, more: bool)
    requires i < 8
    ensures Count(ByteSamples(i, more), Sample) == 8 - i
    ensures Count(ByteSamples(i, more), CK(true)) == 7 - i + B(more)
    ensures Count(ByteSamples(i, more), IODir(false)) == 0
    decreases 8 - i
  {
    var p, t := SamplePeriod(i < 7 || more), ByteSamples(i + 1, more);
    SamplePeriodCounts(i < 7 || more);
    if i < 7 {
      ByteSamplesCounts(i + 1, more);
    } else {
      assert t == [];
    }
    CountAppend(p, t, Sample);
    CountAppend(p, t, CK(true));
    CountAppend(p, t, IODir(false));
  }

  lemma {:induction false} ReadBytesCounts(n: nat)
    requires n >= 1
    ensures Count(ReadBytes(n), Sample) == 8 * n
    ensures Count(ReadBytes(n), CK(true)) == 8 * n - 1
    ensures Count(ReadBytes(n), IODir(false)) == 0
  {
    var p, t := ByteSamples(0, n - 1 != 0), ReadBytes(n - 1);
    ByteSamplesCounts(0, n - 1 != 0);
    if n > 1 {
      ReadBytesCounts(n - 1);
    } else {
      assert t == [];
    }
    CountAppend(p, t, Sample);
    CountAppend(p, t, CK(true));
    CountAppend(p, t, IODir(false));
  }

  lemma WriteEventsCounts(cb: seq<bool>, body: seq<bool>, e: Event)
    requires e == CK(true) || e == Sample || e == IODir(false)
    ensures Count(WriteEvents(cb, body), e) == Count(BitTrain(cb), e) + Count(BitTrain(body), e)
  {
    FixedCounts(false);
    CountAppend3(Prologue + BitTrain(cb), BitTrain(body), WriteEpilogue, e);
    CountAppend(Prologue, BitTrain(cb), e);
  }

  /** A write pulses CK once per bit sent: eight command bits and eight per
      data byte; it samples nothing and never turns IO around. */
  lemma WriteShape(reg: int, n: int, data: seq<Byte>)
    requires 0 <= reg < 0x10000
    requires TransferCount(reg, n).Ok?
    requires |data| == TransferCount(reg, n).value
    ensures var tr := WriteTrace(reg, n, data).value;
      && Count(tr, CK(true)) == 8 * (1 + TransferCount(reg, n).value)
      && Count(tr, Sample) == 0
      && Count(tr, IODir(false)) == 0
  {
    var cb, body := Bits(reg, 8), BytesBits(data);
    BitTrainCounts(cb);
    BitTrainCounts(body);
    WriteEventsCounts(cb, body, CK(true));
    WriteEventsCounts(cb, body, Sample);
    WriteEventsCounts(cb, body, IODir(false));
  }

  /** The part of a read before IO turns around. */
  function ReadHead(cb: seq<bool>): seq<Event>
    requires |cb| == 8
  {
    Prologue + BitTrain(cb[..7]) + LastCommandBit(cb[7])
  }

  /** The part of a read after IO turns around. */
  function ReadTail(k: nat): seq<Event>
  {
    [Delay(2)] + ReadBytes(k) + ReadEpilogue
  }

  lemma ReadSplit(cb: seq<bool>, k: nat)
    requires |cb| == 8
    ensures ReadEvents(cb, k) == ReadHead(cb) + [IODir(false)] + ReadTail(k)
  {
  }

  lemma ReadHeadCounts(cb: seq<bool>)
    requires |cb| == 8
    ensures Count(ReadHead(cb), CK(true)) == 8 && Count(ReadHead(cb), CK(false)) == 8
    ensures Count(ReadHead(cb), Sample) == 0 && Count(ReadHead(cb), IODir(false)) == 0
  {
    var bt, last := BitTrain(cb[..7]), LastCommandBit(cb[7]);
    FixedCounts(cb[7]);
    BitTrainCounts(cb[..7]);
    CountAppend3(Prologue, bt, last, CK(true));
    CountAppend3(Prologue, bt, last, CK(false));
    CountAppend3(Prologue, bt, last, Sample);
    CountAppend3(Prologue, bt, last, IODir(false));
  }

  lemma ReadTailCounts(k: nat)
    requires k >= 1
    ensures Count(ReadTail(k), CK(true)) == 8 * k - 1
    ensures Count(ReadTail(k), Sample) == 8 * k
    ensures Count(ReadTail(k), IODir(false)) == 0
  {
    FixedCounts(false);
    ReadBytesCounts(k);
    CountAppend3([Delay(2)], ReadBytes(k), ReadEpilogue, CK(true));
    CountAppend3([Delay(2)], ReadBytes(k), ReadEpilogue, Sample);
    CountAppend3([Delay(2)], ReadBytes(k), ReadEpilogue, IODir(false));
  }

  lemma ReadEventsCounts(cb: seq<bool>, k: nat)
    requires |cb| == 8 && k >= 1
    ensures Count(ReadEvents(cb, k), IODir(false)) == 1
    ensures Count(ReadEvents(cb, k), Sample) == 8 * k
    ensures Count(ReadEvents(cb, k), CK(true)) == 8 + 8 * k - 1
  {
    var head, tail := ReadHead(cb), ReadTail(k);
    ReadSplit(cb, k);
    ReadHeadCounts(cb);
    ReadTailCounts(k);
    CountAppend3(head, [IODir(false)], tail, CK(true));
    CountAppend3(head, [IODir(false)], tail, Sample);
    CountAppend3(head, [IODir(false)], tail, IODir(false));
  }

  /** A read switches IO to input exactly once, after the eighth rising edge
      of the command and before any further falling edge, takes one sample
      per data bit, and pulses CK once per command bit and once per data bit
      except the last. */
  lemma ReadShape(reg: int, n: int)
    requires 0 <= reg < 0x10000
    requires TransferCount(reg, n).Ok?
    ensures var k := TransferCount(reg, n).value;
      var tr := ReadTrace(reg, n).value;
      && Count(tr, IODir(false)) == 1
      && Count(tr, Sample) == 8 * k
      && Count(tr, CK(true)) == 8 + 8 * k - 1
      && exists head, tail ::
           && tr == head + [IODir(false)] + tail
           && Count(head, CK(true)) == 8 && Count(head, CK(false)) == 8
           && Count(tail, IODir(false)) == 0
  {
    var k := TransferCount(reg, n).value;
    var cb := Bits(ReadCommand(reg), 8);
    ReadEventsCounts(cb, k);
    ReadSplit(cb, k);
    ReadHeadCounts(cb);
    ReadTailCounts(k);
    assert ReadTrace(reg, n).value == ReadHead(cb) + [IODir(false)] + ReadTail(k);
  }

  /** The gather flag (0x100) on a write address changes nothing on the
      wire: only the low eight bits of the address word are shifted out. */
  lemma GatherNotSent(reg: int, n: int, data: seq<Byte>)
    requires 0 <= reg < 0x100
    requires TransferCount(reg, n).Ok? ==> |data| == TransferCount(reg, n).value
    ensures WriteTrace(reg + GatherFlag, n, data) == WriteTrace(reg, n, data)
  {
    SameLowByte(reg, n);
    assert Bits(reg + GatherFlag, 8) == Bits(reg, 8) by {
      assert Pow2(8) == GatherFlag;
      BitsPeriodic(reg, 8);
    }
  }

  /** Likewise the scatter flag on a read address. */
  lemma ScatterNotSent(reg: int, n: int)
    requires 0 <= reg < 0x100
    ensures ReadTrace(reg + ScatterFlag, n) == ReadTrace(reg, n)
  {
    SameLowByte(reg, n);
    var c := ReadCommand(reg);
    assert ReadCommand(reg + ScatterFlag) == c + Pow2(8) by {
      assert Pow2(8) == 0x100;
      assert (reg + 0x100) % 2 == reg % 2;
    }
    BitsPeriodic(c, 8);
  }

  /** An address and the same address with bit 8 set name the same
      transfer. */
  lemma SameLowByte(reg: int, n: int)
    requires 0 <= reg < 0x100
    ensures TransferCount(reg + 0x100, n) == TransferCount(reg, n)
  {
    DivModUnique(reg + 0x100, 0x100, 1, reg);
    DivModUnique(reg, 0x100, 0, reg);
  }
}

=== FILE: stable.dfy ===
/** The stabilised read shared by `setTOY` and `readUpdate`
    (rtc-ctl/rtc-ctl.c:956-962, 1072-1090): read the clock burst until the
    seconds seen in one pass differ, giving up after `TOY_MAX_READS` more
    passes.

    The chip is an oracle: `burst(0)` is the burst read before the loop and
    `burst(j)` the `j`-th one after it. In pass `p` the loop compares the
    seconds of `burst(2p)` (the burst in hand) with those of the fresh
    `burst(2p + 1)`, and if they agree reads `burst(2p + 2)` and tests the
    counter. */
module Stabilise {
  import opened Bytes
  import opened BinaryCodedDecimal
  import opened Registers
  import opened ClockCodec

  /** The seconds field, halt bit masked off. */
  function SecOf(r: ClockRegs): nat
  {
    Bin(r[Offset(AddrSec)] % 0x80)
  }

  /** Pass `p` sees the seconds change. */
  predicate Breaks(burst: nat -> ClockRegs, p: nat)
  {
    SecOf(burst(2 * p)) != SecOf(burst(2 * p + 1))
  }

  /** What the loop leaves: the burst in hand, the pass counter, and how many
      bursts were read in all, counting the one before the loop. */
  datatype Outcome = Outcome(regs: ClockRegs, counter: nat, nreads: nat)

  /** The loop from pass `p` on, written as a search for the first pass that
      sees a change. */
  function Stable(burst: nat -> ClockRegs, p: nat): Outcome
    requires p <= MaxReads + 1
    decreases MaxReads + 1 - p
  {
    if p == MaxReads + 1 then Outcome(burst(2 * p), p, 2 * p + 1)
    else if Breaks(burst, p) then Outcome(burst(2 * p + 1), p, 2 * p + 2)
    else Stable(burst, p + 1)
  }

  /** The loop as written, entered at pass `p0` with `burst(2 * p0)` in hand:
      `do { ... } while (counter++ < TOY_MAX_READS)`. */
  method StableLoop(burst: nat -> ClockRegs, p0: nat) returns (regs: ClockRegs, counter: nat, nreads: nat)
    requires p0 <= MaxReads
    ensures Outcome(regs, counter, nreads) == Stable(burst, p0)
  {
    regs := burst(2 * p0);
    nreads := 2 * p0 + 1;
    counter := p0;
    while true
      invariant counter <= MaxReads
      invariant regs == burst(2 * counter) && nreads == 2 * counter + 1
      invariant p0 <= counter && Stable(burst, counter) == Stable(burst, p0)
      decreases MaxReads - counter
    {
      var firstsec := SecOf(regs);
      regs := burst(nreads);
      nreads := nreads + 1;
      if firstsec != SecOf(regs) {
        break;
      }
      regs := burst(nreads);
      nreads := nreads + 1;
      var passed := counter;
      counter := counter + 1;
      if !(passed < MaxReads) {
        break;
      }
    }
  }

  /** The read before the loop and the loop from pass 0. */
  method StableRead(burst: nat -> ClockRegs) returns (regs: ClockRegs, counter: nat, nreads: nat)
    ensures Outcome(regs, counter, nreads) == Stable(burst, 0)
  {
    regs, counter, nreads := StableLoop(burst, 0);
  }

  /** The search, and so the loop, runs at most `TOY_MAX_READS + 1` passes
      of at most two reads; it stops at the first pass whose two reads differ
      in seconds, holding the second of them, with the counter equal to that
      pass's number; if no pass sees a change the counter ends one past the
      limit, holding the last burst read. */
  lemma {:induction false} StableFacts(burst: nat -> ClockRegs, p: nat)
    requires p <= MaxReads + 1
    ensures var s := Stable(burst, p);
      && p <= s.counter <= MaxReads + 1
      && (forall q :: p <= q < s.counter ==> !Breaks(burst, q))
      && (s.counter <= MaxReads ==> Breaks(burst, s.counter) && s.regs == burst(2 * s.counter + 1) && s.nreads == 2 * s.counter + 2)
      && (s.counter == MaxReads + 1 ==> s.regs == burst(2 * s.counter) && s.nreads == 2 * s.counter + 1)
    decreases MaxReads + 1 - p
  {
    if p <= MaxReads && !Breaks(burst, p) {
      StableFacts(burst, p + 1);
    }
  }

  /** Pass `p` is one of the first `TOY_MAX_READS` passes and the first to
      see the seconds change. */
  predicate FirstBreak(burst: nat -> ClockRegs, p: nat)
  {
    p < MaxReads && Breaks(burst, p) && forall q :: 0 <= q < p ==> !Breaks(burst, q)
  }

  /** The loop stops at the first pass that sees a change, holding that
      pass's second burst. */
  lemma {:induction false} FirstBreakStops(burst: nat -> ClockRegs, p: nat, k: nat)
    requires FirstBreak(burst, p) && k <= p
    ensures Stable(burst, k) == Outcome(burst(2 * p + 1), p, 2 * p + 2)
    decreases p - k
  {
    if k < p {
      assert !Breaks(burst, k);
      FirstBreakStops(burst, p, k + 1);
    }
  }

  /** "TOY does not seem to be running" is reported exactly when none of the
      first `TOY_MAX_READS` passes saw a change, including when only the
      last pass did. */
  lemma NotRunningIff(burst: nat -> ClockRegs)
    ensures Stable(burst, 0).counter >= MaxReads <==>
      forall q :: 0 <= q < MaxReads ==> !Breaks(burst, q)
  {
    StableFacts(burst, 0);
  }

  /** Changes between passes go unseen: a clock whose seconds tick once per
      pass, always between the second read of one pass and the first read of
      the next, is reported as not running. */
  lemma TickBetweenPasses(burst: nat -> ClockRegs)
    requires forall j: nat :: SecOf(burst(j)) == (j / 2) % 60
    ensures forall j: nat :: SecOf(burst(2 * j + 1)) != SecOf(burst(2 * j + 2))
    ensures Stable(burst, 0).counter == MaxReads + 1
  {
    forall j: nat
      ensures SecOf(burst(2 * j + 1)) != SecOf(burst(2 * j + 2))
    {
      assert (2 * j + 1) / 2 == j && (2 * j + 2) / 2 == j + 1;
    }
    NeverBreaks(burst);
    StableFacts(burst, 0);
  }

  lemma NeverBreaks(burst: nat -> ClockRegs)
    requires forall j: nat :: SecOf(burst(j)) == (j / 2) % 60
    ensures forall q: nat :: !Breaks(burst, q)
  {
    forall q: nat
      ensures !Breaks(burst, q)
    {
      assert (2 * q + 1) / 2 == q && (2 * q) / 2 == q;
    }
  }
}

=== FILE: toy.dfy ===
/** The chip as the driver's commands see it: `writeTOY` and `readTOY`
    (rtc-ctl/rtc-ctl.c:1611-1778) as whole transfers on a device that is
    either a DS1302 or an empty socket whose IO line sits at one level. The
    transfer-level results are tied to the pin-level interpreter by
    `WriteMatchesBus` and `ReadMatchesBus`. */
module Toy {
  import opened Bytes
  import opened Registers
  import opened Results
  import opened Chip
  import opened Transport
  import opened Assembly

  datatype Device =
    | Present(mem: Mem)
    | Absent(level: bool)  // nothing drives IO; every sample reads `level`

  /** `writeTOY(reg, [n,] data)`: a bad RAM count is an internal error;
      otherwise a chip stores the bytes as its write rules allow, and an
      empty socket ignores them. */
  function Write(d: Device, reg: int, n: int, data: seq<Byte>): (r: Result<Device>)
    requires 0 <= reg < 0x10000
    requires TransferCount(reg, n).Ok? ==> |data| == TransferCount(reg, n).value
    ensures r.Err? <==> TransferCount(reg, n).Err?
    ensures r.Err? ==> r.error == InternalError
    ensures r.Ok? ==> r.value.Present? == d.Present?
    ensures r.Ok? && d.Absent? ==> r.value == d
  {
    match TransferCount(reg, n)
    case Err(e) => Err(e)
    case Ok(_) =>
      match d
      case Present(m) => Ok(Present(MemWrite(m, reg % 0x100, data)))
      case Absent(_) => Ok(d)
  }

  /** `readTOY(reg, [n,] buf)`: the bytes assembled from `8k` samples. A chip
      answers with the bits of the addressed registers and leaves the line
      low past their end; an empty socket gives all ones or all zeros. */
  function Read(d: Device, reg: int, n: int): (r: Result<seq<Byte>>)
    requires 0 <= reg < 0x10000
    ensures r.Err? <==> TransferCount(reg, n).Err?
    ensures r.Err? ==> r.error == InternalError
    ensures r.Ok? ==> |r.value| == TransferCount(reg, n).value
  {
    match TransferCount(reg, n)
    case Err(e) => Err(e)
    case Ok(k) =>
      match d
      case Present(m) => Ok(BytesOf(Outs(ReadStream(m, ReadCommand(reg) % 0x100), 0, 8 * k)))
      case Absent(level) => Ok(seq(k, _ => if level then 0xFF else 0))
  }

  /** Reading a chip returns the registers the address selects whenever
      there are at least as many as the count asks for. */
  lemma ReadPresent(m: Mem, reg: int, n: int)
    requires 0 <= reg < 0x10000
    requires TransferCount(reg, n).Ok?
    requires TransferCount(reg, n).value <= |Addressed(m, ReadCommand(reg) % 0x100)|
    ensures Read(Present(m), reg, n) ==
      Ok(Addressed(m, ReadCommand(reg) % 0x100)[..TransferCount(reg, n).value])
  {
    var k := TransferCount(reg, n).value;
    var a := Addressed(m, ReadCommand(reg) % 0x100);
    OutsPrefix(BytesBits(a), 8 * k);
    BytesBitsPrefix(a, k);
    BytesOfBytesBits(a[..k]);
  }

  /** A clock burst read of a chip returns its eight clock registers. */
  lemma ClockReadPresent(m: Mem)
    ensures Read(Present(m), AddrClockBurst, ClockRegCount()) == Ok(m.clock)
  {
    assert ClockRegCount() == 8;
    assert ReadCommand(AddrClockBurst) % 0x100 == AddrClockBurst + ReadFlag;
    assert RegNumber(AddrClockBurst + ReadFlag) == 31;
    ReadPresent(m, AddrClockBurst, ClockRegCount());
    assert m.clock[..8] == m.clock;
  }

  /** A transfer-level write is what the chip ends up holding after the
      write's pin events, for every write address. */
  lemma WriteMatchesBus(b: Bus, reg: int, n: int, data: seq<Byte>)
    requires 0 <= reg < 0x10000 && reg % 2 == 0
    requires TransferCount(reg, n).Ok? && |data| == TransferCount(reg, n).value
    requires b.wire == IdleWire
    ensures Write(Present(b.port.mem), reg, n, data) ==
      Ok(Present(Run(b, WriteTrace(reg, n, data).value).port.mem))
  {
    WriteRun(b, reg, n, data);
  }

  /** A transfer-level read is what the driver assembles from the samples
      the read's pin events take, and the chip is left as it was. */
  lemma ReadMatchesBus(b: Bus, reg: int, n: int)
    requires 0 <= reg < 0x10000 && IsCommand(reg % 0x100)
    requires TransferCount(reg, n).Ok?
    requires b.wire == IdleWire
    ensures var r := Run(b, ReadTrace(reg, n).value);
      && |b.samples| <= |r.samples|
      && (|r.samples| - |b.samples|) % 8 == 0
      && Read(Present(b.port.mem), reg, n) == Ok(BytesOf(r.samples[|b.samples|..]))
      && r.port.mem == b.port.mem
  {
    var k := TransferCount(reg, n).value;
    var s := Outs(ReadStream(b.port.mem, ReadCommand(reg) % 0x100), 0, 8 * k);
    ReadRun(b, reg, n);
    var r := Run(b, ReadTrace(reg, n).value);
    SamplesAfter(b.samples, s, r.samples, k);
    assert Read(Present(b.port.mem), reg, n) == Ok(BytesOf(s));
  }

  lemma SamplesAfter(before: seq<bool>, taken: seq<bool>, after: seq<bool>, k: nat)
    requires after == before + taken && |taken| == 8 * k
    ensures |before| <= |after| && after[|before|..] == taken && (|after| - |before|) % 8 == 0
  {
  }
}

=== FILE: transport.dfy ===
/** The host side of the three-wire serial interface: the pin events of
    `writeTOY` and `readTOY` (rtc-ctl/rtc-ctl.c:1611-1778) and what they do to
    the chip modelled in `Chip`. Delays are kept as events with no effect on
    the levels. */
module Transport {
  import opened Bytes
  import opened Registers
  import opened Results
  import opened Chip

  /** The number of data bytes a transfer moves, chosen from the low byte of
      the address word: the whole clock file for a clock burst, the caller's
      count for a RAM burst, one otherwise. A RAM burst count outside 1..31 is
      an internal error. */
  function TransferCount(reg: int, n: int): (r: Result<nat>)
    requires 0 <= reg < 0x10000
    ensures r.Err? <==> reg % 0x100 == AddrRamBurst && !(1 <= n <= RamRegCount())
    ensures r.Err? ==> r.error == InternalError
    ensures r.Ok? ==> 1 <= r.value <= RamRegCount()
    ensures r.Ok? && reg % 0x100 == AddrRamBurst ==> r.value == n
  {
    var cmd := reg % 0x100;
    if cmd == AddrClockBurst then Ok(ClockRegCount())
    else if cmd == AddrRamBurst then
      if n <= 0 || n > RamRegCount() then Err(InternalError) else Ok(n)
    else Ok(1)
  }

  /** CK low, CE high, wait: the start of every transfer. */
  const Prologue: seq<Event> := [CK(false), CE(true), Delay(4)]

  /** One bit clocked into the chip: present it on IO, then a CK pulse. */
  function BitPeriod(x: bool): seq<Event>
  {
    [IO(x), Delay(2), CK(true), Delay(2), CK(false), Delay(2)]
  }

  /** Bits clocked into the chip one period each, in order. */
  function BitTrain(bs: seq<bool>): (tr: seq<Event>)
    ensures |tr| == 6 * |bs|
  {
    if bs == [] then [] else BitPeriod(bs[0]) + BitTrain(bs[1..])
  }

  /** IO low, CE low (which commits a write), wait. */
  const WriteEpilogue: seq<Event> := [IO(false), CE(false), Delay(4)]

  /** The events of `writeTOY`: the low eight bits of the address word and
      then each data byte, least significant bit first (`x & 1`, `x >>= 1`).
      The count is checked before any pin is touched. */
  function WriteTrace(reg: int, n: int, data: seq<Byte>): (r: Result<seq<Event>>)
    requires 0 <= reg < 0x10000
    requires TransferCount(reg, n).Ok? ==> |data| == TransferCount(reg, n).value
    ensures r.Err? <==> TransferCount(reg, n).Err?
  {
    match TransferCount(reg, n)
    case Err(e) => Err(e)
    case Ok(_) => Ok(WriteEvents(Bits(reg, 8), BytesBits(data)))
  }

  /** The events of a write clocking in command bits `cb` and data bits
      `body`. */
  function WriteEvents(cb: seq<bool>, body: seq<bool>): seq<Event>
  {
    Prologue + BitTrain(cb) + BitTrain(body) + WriteEpilogue
  }

  /** The address word with the read flag or-ed in. */
  function ReadCommand(reg: int): (c: int)
    requires 0 <= reg < 0x10000
    ensures 0 <= c < 0x10000 && c % 2 == 1
    ensures c % 0x100 == reg % 0x100 - reg % 2 + 1
  {
    ReadCommandLow(reg);
    reg - reg % 2 + ReadFlag
  }

  lemma ReadCommandLow(reg: int)
    requires 0 <= reg < 0x10000
    ensures (reg - reg % 2 + ReadFlag) % 2 == 1
    ensures (reg - reg % 2 + ReadFlag) % 0x100 == reg % 0x100 - reg % 2 + 1
  {
    var q, r := reg / 0x100, reg % 0x100;
    var e := reg % 2;
    assert r % 2 == e;
    DivModUnique(reg - e + ReadFlag, 0x100, q, r - e + 1);
    DivModUnique(reg - e + ReadFlag, 2, reg / 2, 1);
  }

  /** The eighth command bit of a read: CK is raised but left high, so the chip
      does not start driving before the host lets go of IO. */
  function LastCommandBit(x: bool): seq<Event>
  {
    [IO(x), Delay(2), CK(true), Delay(2)]
  }

  /** One data bit of a read: CK falls, the host samples IO, and CK rises
      again unless this is the very last bit of the transfer. */
  function SamplePeriod(rise: bool): (tr: seq<Event>)
  {
    [CK(false), Delay(2), Sample] + (if rise then [CK(true), Delay(2)] else [])
  }

  /** Bits `i`..7 of one byte of a read; `more` tells whether another byte
      follows in the burst. */
  function ByteSamples(i: nat, more: bool): seq<Event>
    decreases 8 - i
  {
    if i >= 8 then [] else SamplePeriod(i < 7 || more) + ByteSamples(i + 1, more)
  }

  /** The data phase of a read of `n` bytes. */
  function ReadBytes(n: nat): seq<Event>
  {
    if n == 0 then [] else ByteSamples(0, n - 1 != 0) + ReadBytes(n - 1)
  }

  /** Switching IO to input between command and data. */
  const Turnaround: seq<Event> := [IODir(false), Delay(2)]

  /** CE low, wait, IO back to output and low. */
  const ReadEpilogue: seq<Event> := [CE(false), Delay(2), IODir(true), IO(false)]

  /** The events of `readTOY`: the read command (address word with the read
      flag), the turnaround, then eight samples per byte. The count is taken
      from the address before the read flag is or-ed in and is checked before
      any pin is touched. */
  function ReadTrace(reg: int, n: int): (r: Result<seq<Event>>)
    requires 0 <= reg < 0x10000
    ensures r.Err? <==> TransferCount(reg, n).Err?
  {
    match TransferCount(reg, n)
    case Err(e) => Err(e)
    case Ok(k) =>
      Ok(ReadEvents(Bits(ReadCommand(reg), 8), k))
  }

  /** The events of a read sending command bits `cb` and taking `k` bytes:
      seven command bits, the eighth with CK left high, the turnaround, then
      eight samples per byte. */
  function ReadEvents(cb: seq<bool>, k: nat): seq<Event>
    requires |cb| == 8
  {
    Prologue + BitTrain(cb[..7]) + LastCommandBit(cb[7]) + Turnaround + ReadBytes(k) + ReadEpilogue
  }

  // ---- The chip's view of a write ----

  lemma ReadingGrows(a: seq<bool>, c: seq<bool>)
    requires Reading(a)
    ensures Reading(a + c)
  {
    assert (a + c)[0] == a[0] && (a + c)[7] == a[7];
  }

  /** One bit period while the chip is taking in bits. */
  lemma BitPeriodRun(b: Bus, x: bool)
    requires b.wire.ce && !b.wire.ck && b.wire.hostOut
    requires !Reading(b.port.rx + [x])
    ensures Run(b, BitPeriod(x)) == b.(wire := b.wire.(io := x), port := b.port.(rx := b.port.rx + [x]))
  {
    if Reading(b.port.rx) {
      ReadingGrows(b.port.rx, [x]);
    }
    Run6(b, BitPeriod(x));
  }

  /** A train of bit periods appends its bits to what the chip has taken in,
      as long as they do not complete a read command. */
  lemma {:induction false} BitTrainRun(b: Bus, bs: seq<bool>)
    requires b.wire.ce && !b.wire.ck && b.wire.hostOut
    requires !Reading(b.port.rx + bs)
    ensures Run(b, BitTrain(bs)) ==
      b.(wire := b.wire.(io := if bs == [] then b.wire.io else bs[|bs| - 1]),
         port := b.port.(rx := b.port.rx + bs))
    decreases |bs|
  {
    if bs != [] {
      var x := bs[0];
      assert b.port.rx + bs == (b.port.rx + [x]) + bs[1..];
      if Reading(b.port.rx + [x]) {
        ReadingGrows(b.port.rx + [x], bs[1..]);
      }
      BitPeriodRun(b, x);
      RunAppend(b, BitPeriod(x), BitTrain(bs[1..]));
      BitTrainRun(Run(b, BitPeriod(x)), bs[1..]);
    }
  }

  lemma PrologueRun(b: Bus)
    requires b.wire == IdleWire
    ensures Run(b, Prologue) == b.(wire := b.wire.(ce := true), port := Port(b.port.mem, [], 0))
  {
    Run3(b, Prologue);
  }

  /** The write command and data bits arrive in order and do not form a read
      command. */
  lemma WriteBitsRun(b: Bus, reg: int, data: seq<Byte>)
    requires 0 <= reg && reg % 2 == 0
    requires b.wire.ce && !b.wire.ck && b.wire.hostOut && b.port.rx == []
    ensures var r := Run(b, BitTrain(Bits(reg, 8)) + BitTrain(BytesBits(data)));
      r.wire.ce && !r.wire.ck && r.wire.hostOut
      && r.port == b.port.(rx := Bits(reg, 8) + BytesBits(data))
      && r.samples == b.samples && r.clash == b.clash
  {
    var cmdBits, dataBits := Bits(reg, 8), BytesBits(data);
    assert cmdBits[0] == false;
    assert [] + cmdBits == cmdBits;
    BitTrainRun(b, cmdBits);
    assert (cmdBits + dataBits)[0] == false;
    BitTrainRun(Run(b, BitTrain(cmdBits)), dataBits);
    RunAppend(b, BitTrain(cmdBits), BitTrain(dataBits));
  }

  /** What the chip commits when CE falls after a write command and its data. */
  lemma CommitWrite(m: Mem, reg: int, data: seq<Byte>)
    requires 0 <= reg
    ensures Commit(m, Bits(reg, 8) + BytesBits(data)) == MemWrite(m, reg % 0x100, data)
  {
    var cmdBits, dataBits := Bits(reg, 8), BytesBits(data);
    var rx := cmdBits + dataBits;
    assert rx[..8] == cmdBits && rx[8..] == dataBits;
    BitsLow(reg, 8);
    ValueOfBits(reg % 0x100, 8);
    BytesOfBytesBits(data);
    assert dataBits[..|dataBits| - |dataBits| % 8] == dataBits;
  }

  lemma WriteEpilogueRun(b: Bus)
    requires b.wire.ce && !b.wire.ck && b.wire.hostOut && !Reading(b.port.rx)
    ensures Run(b, WriteEpilogue) ==
      b.(wire := IdleWire, port := b.port.(mem := Commit(b.port.mem, b.port.rx)))
  {
    Run3(b, WriteEpilogue);
  }

  /** Running `writeTOY`'s events from an idle bus: the chip has taken in the
      low byte of the address word and then the data bytes, least significant
      bit first, one rising CK edge per bit; its register file is the write
      applied to the old one; the wires are idle again and nothing was sampled
      or driven against the host. */
  lemma WriteRun(b: Bus, reg: int, n: int, data: seq<Byte>)
    requires 0 <= reg < 0x10000 && reg % 2 == 0
    requires TransferCount(reg, n).Ok? && |data| == TransferCount(reg, n).value
    requires b.wire == IdleWire
    ensures var r := Run(b, WriteTrace(reg, n, data).value);
      && r.wire == IdleWire
      && r.port.rx == Bits(reg, 8) + BytesBits(data)
      && r.port.mem == MemWrite(b.port.mem, reg % 0x100, data)
      && r.samples == b.samples && r.clash == b.clash
  {
    var bits := BitTrain(Bits(reg, 8)) + BitTrain(BytesBits(data));
    PrologueRun(b);
    var b1 := Run(b, Prologue);
    WriteBitsRun(b1, reg, data);
    var b2 := Run(b1, bits);
    assert b2.port.rx[0] == false;
    WriteEpilogueRun(b2);
    CommitWrite(b.port.mem, reg, data);
    Regroup(Prologue, BitTrain(Bits(reg, 8)), BitTrain(BytesBits(data)), WriteEpilogue);
    assert WriteTrace(reg, n, data).value == Prologue + bits + WriteEpilogue;
    RunAppend(b, Prologue, bits);
    RunAppend(b, Prologue + bits, WriteEpilogue);
  }

  lemma Regroup<T>(a: seq<T>, b: seq<T>, c: seq<T>, d: seq<T>)
    ensures a + b + c + d == a + (b + c) + d
  {
  }

  // ---- The chip's view of a read ----

  /** The eighth command bit of a read: the chip takes it in on the rising
      edge, but has had no falling edge yet and so does not drive. */
  lemma LastBitRun(b: Bus, x: bool)
    requires b.wire.ce && !b.wire.ck && b.wire.hostOut
    requires |b.port.rx| == 7 && b.port.falls == 0
    ensures Run(b, LastCommandBit(x)) ==
      b.(wire := b.wire.(io := x, ck := true), port := b.port.(rx := b.port.rx + [x]))
  {
    Run4(b, LastCommandBit(x));
  }

  lemma TurnaroundRun(b: Bus)
    ensures Run(b, Turnaround) == b.(wire := b.wire.(hostOut := false))
  {
    Run2(b, Turnaround);
  }

  /** The levels the host samples after falling edges `k+1`..`k+j` of a read
      that shifts out `stream`. */
  function Outs(stream: seq<bool>, k: nat, j: nat): (o: seq<bool>)
    ensures |o| == j
  {
    seq(j, t requires 0 <= t < j => OutBit(stream, k + t + 1))
  }

  lemma OutsAppend(stream: seq<bool>, k: nat, a: nat, c: nat)
    ensures Outs(stream, k, a) + Outs(stream, k + a, c) == Outs(stream, k, a + c)
  {
  }

  /** Within the stream, the samples are the stream's own bits. */
  lemma OutsPrefix(stream: seq<bool>, j: nat)
    requires j <= |stream|
    ensures Outs(stream, 0, j) == stream[..j]
  {
  }

  /** The bus after `k` falling edges of a read, each followed by a sample,
      with CK ending at level `ck`. */
  function Sampled(b: Bus, k: nat, ck: bool): Bus
    requires Reading(b.port.rx)
  {
    b.(wire := b.wire.(ck := ck), port := b.port.(falls := b.port.falls + k),
       samples := b.samples + Outs(PortStream(b.port), b.port.falls, k))
  }

  lemma SampledTwice(b: Bus, a: nat, c: nat, ck: bool)
    requires Reading(b.port.rx)
    ensures Sampled(Sampled(b, a, true), c, ck) == Sampled(b, a + c, ck)
  {
    OutsAppend(PortStream(b.port), b.port.falls, a, c);
  }

  /** One data bit: the falling edge moves the chip to its next bit, which the
      host then samples. */
  lemma SamplePeriodRun(b: Bus, rise: bool)
    requires b.wire.ce && b.wire.ck && !b.wire.hostOut && Reading(b.port.rx)
    ensures Run(b, SamplePeriod(rise)) == Sampled(b, 1, rise)
  {
    assert Outs(PortStream(b.port), b.port.falls, 1) == [OutBit(PortStream(b.port), b.port.falls + 1)];
    if rise {
      Run5(b, SamplePeriod(rise));
    } else {
      Run3(b, SamplePeriod(rise));
    }
  }

  lemma {:induction false} ByteSamplesRun(b: Bus, i: nat, more: bool)
    requires i < 8
    requires b.wire.ce && b.wire.ck && !b.wire.hostOut && Reading(b.port.rx)
    ensures Run(b, ByteSamples(i, more)) == Sampled(b, 8 - i, more)
    decreases 8 - i
  {
    if i == 7 {
      assert ByteSamples(i + 1, more) == [];
      assert ByteSamples(i, more) == SamplePeriod(more);
      SamplePeriodRun(b, more);
    } else {
      var b' := Sampled(b, 1, true);
      calc {
        Run(b, ByteSamples(i, more));
        { RunAppend(b, SamplePeriod(true), ByteSamples(i + 1, more)); }
        Run(Run(b, SamplePeriod(true)), ByteSamples(i + 1, more));
        { SamplePeriodRun(b, true); }
        Run(b', ByteSamples(i + 1, more));
        { ByteSamplesRun(b', i + 1, more); }
        Sampled(b', 7 - i, more);
        { SampledTwice(b, 1, 7 - i, more); }
        Sampled(b, 8 - i, more);
      }
    }
  }

  /** The first byte of a longer read ends with CK raised again. */
  lemma ReadBytesUnfold(b: Bus, n: nat)
    requires n >= 1
    requires b.wire.ce && b.wire.ck && !b.wire.hostOut && Reading(b.port.rx)
    ensures Run(b, ReadBytes(n)) == Run(Sampled(b, 8, n != 1), ReadBytes(n - 1))
  {
    var more := n - 1 != 0;
    var first := ByteSamples(0, more);
    assert ReadBytes(n) == first + ReadBytes(n - 1);
    RunAppend(b, first, ReadBytes(n - 1));
    ByteSamplesRun(b, 0, more);
  }

  /** The data phase of an `n`-byte read samples the next `8n` bits the chip
      shifts out and leaves CK low. */
  lemma {:induction false} ReadBytesRun(b: Bus, n: nat)
    requires n >= 1
    requires b.wire.ce && b.wire.ck && !b.wire.hostOut && Reading(b.port.rx)
    ensures Run(b, ReadBytes(n)) == Sampled(b, 8 * n, false)
    decreases n
  {
    ReadBytesUnfold(b, n);
    if n == 1 {
      assert ReadBytes(n - 1) == [];
    } else {
      ReadBytesRun(Sampled(b, 8, true), n - 1);
      SampledTwice(b, 8, 8 * (n - 1), false);
    }
  }

  /** A read command changes nothing when CE falls. */
  lemma CommitRead(m: Mem, rx: seq<bool>)
    requires Reading(rx)
    ensures Commit(m, rx) == m
  {
    assert rx[..8][0];
    assert ValueOf(rx[..8]) % 2 == 1;
  }

  lemma ReadEpilogueRun(b: Bus)
    requires b.wire.ce && !b.wire.ck && !b.wire.hostOut && Reading(b.port.rx)
    ensures Run(b, ReadEpilogue) == b.(wire := IdleWire)
  {
    CommitRead(b.port.mem, b.port.rx);
    Run4(b, ReadEpilogue);
  }

  /** The eight bits of a read command: bit 0 set, and bit 7 set exactly when
      the address is a command, so the chip enters read mode. */
  lemma ReadCommandBits(reg: int)
    requires 0 <= reg < 0x10000 && IsCommand(reg % 0x100)
    ensures Reading(Bits(ReadCommand(reg), 8))
    ensures ValueOf(Bits(ReadCommand(reg), 8)) == ReadCommand(reg) % 0x100
  {
    var c := ReadCommand(reg);
    var cb := Bits(c, 8);
    ValueOfBitsMod(c, 8);
    TopBit(cb);
    assert cb[0] == (c % 2 == 1);
  }

  /** The command phase of a read leaves the chip holding the eight command
      bits, with CK high and the host's IO pin an input. */
  lemma CommandPhaseRun(b: Bus, cb: seq<bool>)
    requires |cb| == 8 && b.wire == IdleWire
    ensures Run(b, Prologue + BitTrain(cb[..7]) + LastCommandBit(cb[7]) + Turnaround) ==
      b.(wire := Wire(true, true, cb[7], false), port := Port(b.port.mem, cb, 0))
  {
    PrologueRun(b);
    var b1 := Run(b, Prologue);
    assert [] + cb[..7] == cb[..7];
    BitTrainRun(b1, cb[..7]);
    var b2 := Run(b1, BitTrain(cb[..7]));
    LastBitRun(b2, cb[7]);
    var b3 := Run(b2, LastCommandBit(cb[7]));
    assert cb[..7] + [cb[7]] == cb;
    TurnaroundRun(b3);
    RunAppend(b, Prologue, BitTrain(cb[..7]));
    RunAppend(b, Prologue + BitTrain(cb[..7]), LastCommandBit(cb[7]));
    RunAppend(b, Prologue + BitTrain(cb[..7]) + LastCommandBit(cb[7]), Turnaround);
  }

  lemma ReadEventsRun(b: Bus, cb: seq<bool>, k: nat)
    requires |cb| == 8 && Reading(cb) && k >= 1 && b.wire == IdleWire
    ensures Run(b, ReadEvents(cb, k)) ==
      b.(wire := IdleWire, port := Port(b.port.mem, cb, 8 * k),
         samples := b.samples + Outs(PortStream(Port(b.port.mem, cb, 0)), 0, 8 * k))
  {
    var cmd := Prologue + BitTrain(cb[..7]) + LastCommandBit(cb[7]) + Turnaround;
    CommandPhaseRun(b, cb);
    var b1 := b.(wire := Wire(true, true, cb[7], false), port := Port(b.port.mem, cb, 0));
    ReadBytesRun(b1, k);
    var b2 := Sampled(b1, 8 * k, false);
    ReadEpilogueRun(b2);
    RunAppend(b, cmd, ReadBytes(k));
    RunAppend(b, cmd + ReadBytes(k), ReadEpilogue);
  }

  /** Running `readTOY`'s events from an idle bus: the host samples the first
      `8k` bits the chip shifts out for the read command, the register file is
      unchanged, the host never drives IO while the chip does, and the wires
      end idle (CE, CK and IO low, IO an output). */
  lemma ReadRun(b: Bus, reg: int, n: int)
    requires 0 <= reg < 0x10000 && IsCommand(reg % 0x100)
    requires TransferCount(reg, n).Ok?
    requires b.wire == IdleWire
    ensures var k := TransferCount(reg, n).value;
      var r := Run(b, ReadTrace(reg, n).value);
      && r.wire == IdleWire
      && r.port.mem == b.port.mem
      && r.port.rx == Bits(ReadCommand(reg), 8)
      && r.samples == b.samples + Outs(ReadStream(b.port.mem, ReadCommand(reg) % 0x100), 0, 8 * k)
      && r.clash == b.clash
  {
    var k := TransferCount(reg, n).value;
    var cb := Bits(ReadCommand(reg), 8);
    ReadCommandBits(reg);
    ReadEventsRun(b, cb, k);
    assert cb[..8] == cb;
  }
}
